=== FILE: README.md ===
# Strata versions and version ranges, in Dafny

This project models the core of Strata, a Java library for Semantic Versioning 2.0.0
versions and version ranges (package `ca.solostudios.strata`). The model covers:

- **The version values.** `CoreVersion` is a triple of unbounded naturals. A
  `PreReleaseIdentifier` is numeric or alphanumeric. A `PreRelease` is a list of
  identifiers, `BuildMetadata` is a string, and a `Version` combines the three. The
  model includes their `compareTo`, `equals` and `getFormatted`.
- **`VersionParser`**, which reads a version one character at a time.
- **`VersionRange`**, with `isSatisfiedBy`, `equals` and `getFormatted`.
- **`VersionRangeParser`**, which reduces interval, comparison, caret and glob notation
  to a single range.
- **The character stream both parsers read.** This is `Lookahead`, `LookaheadReader` and
  `Char`.

Layout, one module per file:

- `wrappers.dfy`: `Option` and `Result`.
- `chars.dfy`: `Char` and its character classes.
- `java_lib.dfy`: the library calls the source relies on: `BigInteger.compareTo`, the
  decimal text of a `BigInteger` and `String.compareTo`.
- `lookahead.dfy`: the stream, modelled twice:
  - as the stateful `Lookahead` with its item buffer and cached end-of-input item;
  - as the pure positional view `ItemAt(s, k)`, which the parsers use.
- `parse_errors.dfy`: errors as a kind, a column and an optional cause.
- `core_version.dfy`, `pre_release.dfy`, `build_metadata.dfy` and `version.dfy`: the
  value classes.
- `version_parser.dfy`: `VersionParser`.
- `version_round_trip.dfy`: how that parser relates to `getFormatted`.
- `version_errors.dfy`: where that parser reports an error, for trailing text and for
  malformed versions.
- `version_range.dfy`: `VersionRange`.
- `version_range_parser.dfy`: `VersionRangeParser`.
- `version_range_round_trip.dfy`: what that parser returns for each notation.
- `version_range_errors.dfy`: where that parser reports an error after a complete range,
  for each notation.

Each parser method is a pure function of the input string and a cursor `pos`. The cursor
is the number of characters consumed, and it returns the new cursor or an error. The
current character is `ItemAt(s, pos)`. Past the end it is the end-of-input `Char`, with
value `'\0'` and position `|s|`. As in the source, a `'\0'` inside the input cannot be
told apart from the end of the input.

The round-trip theorems of the version parser hold for every string:

- `VersionRoundTrip.ParseCharacterized` says `parse(s)` yields `v` exactly when `v` is
  valid and its formatted text is `s` up to the end of input.
- `VersionRoundTrip.ParseFormatted` says `parse(getFormatted(v)) == v` for every valid
  `v`.

For ranges, interval notation round-trips through `VersionRange.getFormatted`. Each other
notation is proved to produce the interval it stands for.

## Model

| member | source | states |
|---|---|---|
| Lookahead.Next | strata/src/main/java/ca/solostudios/strata/parser/tokenizer/Lookahead.java:109-130 | Peeking `offset` items ahead returns the item that far past the cursor, or the end-of-input `Char` past the input. It consumes nothing. Once the end-of-input item has been created, it is cached and returned from then on. A negative offset is excluded by the precondition. |
| Lookahead.Current | strata/src/main/java/ca/solostudios/strata/parser/tokenizer/Lookahead.java:91-93 | `current()` is the item under the cursor, and it leaves the consumed count unchanged. |
| Lookahead.Consume | strata/src/main/java/ca/solostudios/strata/parser/tokenizer/Lookahead.java:155-173 | `consume(n)` advances by `min(n, remaining)`, so at end of input it is a no-op. A negative count is excluded by the precondition. |
| Lookahead.ConsumeOne | strata/src/main/java/ca/solostudios/strata/parser/tokenizer/Lookahead.java:141-145 | `consume()` returns the old current item. Afterwards `current()` is what `next()` was before, and the cursor is capped at the input length. |
| Lookahead.Advance | strata/src/main/java/ca/solostudios/strata/parser/tokenizer/Lookahead.java:141-145 | In the positional view, one consume moves to the item one further, and never past the end of input. |
| Lookahead.FetchAll | strata/src/main/java/ca/solostudios/strata/parser/tokenizer/LookaheadReader.java:70-86 | `fetch` yields the input characters in order, tagged with positions 0, 1, 2, and so on. After that it returns null, and keeps doing so. The end-of-input `Char` is `'\0'` at the input length. |
| Lookahead.ConsumeAll | strata/src/main/java/ca/solostudios/strata/parser/tokenizer/Lookahead.java:141-145 | Repeated `consume()` on a fresh stream returns every input character with its position, then the end-of-input `Char`. |
| Lookahead.WalkWithNext | strata/src/main/java/ca/solostudios/strata/parser/tokenizer/Lookahead.java:77-79 | `next()` stays one item ahead of the cursor while consuming. Once the last character is current, `next()` is the end-of-input `Char`. |
| Chars.IsAnyOf | src/main/java/ca/solostudios/strata/parser/tokenizer/Char.java:70-77 | `is(c1..cn)` holds iff `is(ci)` holds for some `ci`. |
| Chars.EndOfInputMatchesNothing | src/main/java/ca/solostudios/strata/parser/tokenizer/Char.java:59-61 | The end-of-input `Char` matches no `is` test, no digit, letter or alphanumeric class. |
| Chars.AlphaNumericIsAlphabet | src/main/java/ca/solostudios/strata/parser/tokenizer/Char.java:98-118 | `isAlphaNumeric` is ASCII letter, ASCII digit or `-`. |
| Chars.ClassesDisjoint | src/main/java/ca/solostudios/strata/parser/tokenizer/Char.java:107-128 | No character is both a digit and a letter, and a digit or letter is never the end of input, `-`, `.` or `+`. |
| Chars.StringValue | src/main/java/ca/solostudios/strata/parser/tokenizer/Char.java:135-140 | `getStringValue` is empty exactly for end of input, and otherwise the one character. |
| JavaLib.CompareInteger | strata/src/main/java/ca/solostudios/strata/version/CoreVersion.java:135-139 | `BigInteger.compareTo` is -1, 0 or 1, negative iff less and zero iff equal. |
| JavaLib.DecimalOfDigitsValue | strata/src/main/java/ca/solostudios/strata/parser/VersionParser.java:187-194 | A digit string without a leading zero is the decimal text of its `BigInteger` value. |
| JavaLib.DigitsValueOfDecimal | strata/src/main/java/ca/solostudios/strata/version/CoreVersion.java:144-146 | Reading back the decimal text of a number gives the number. |
| JavaLib.Decimal | strata/src/main/java/ca/solostudios/strata/version/CoreVersion.java:144-146 | The decimal text of a `BigInteger` is a non-empty digit string with no leading zero unless it is `0`. |
| JavaLib.CompareStringsSpec | strata/src/main/java/ca/solostudios/strata/version/PreReleaseIdentifier.java:61 | `String.compareTo` is negative iff the first string is lexicographically smaller by character code, with a proper prefix smaller. It is zero iff the strings are equal, and it is antisymmetric. |
| JavaLib.CompareStringsTransitive | strata/src/main/java/ca/solostudios/strata/version/PreReleaseIdentifier.java:61 | `String.compareTo` ordering is transitive. |
| CoreVersions.Compare | strata/src/main/java/ca/solostudios/strata/version/CoreVersion.java:135-139 | The comparison is lexicographic on (major, minor, patch): -1, 0 or 1, zero iff the triples are equal. |
| CoreVersions.Equals | strata/src/main/java/ca/solostudios/strata/version/CoreVersion.java:111-124 | `equals` holds iff all three components are equal, and iff `compareTo` is 0. |
| CoreVersions.CompareAntisymmetric | strata/src/main/java/ca/solostudios/strata/version/CoreVersion.java:135-139 | Swapping the arguments negates the result. |
| CoreVersions.CompareTransitive | strata/src/main/java/ca/solostudios/strata/version/CoreVersion.java:135-139 | The core order is transitive. |
| BuildMetadatas.Equals | strata/src/main/java/ca/solostudios/strata/version/BuildMetadata.java:85-92 | Equality is string equality. |
| BuildMetadatas.FormatSpec | strata/src/main/java/ca/solostudios/strata/version/BuildMetadata.java:77-82 | The formatted text is empty exactly for `NULL`, and otherwise `+` followed by the stored text. |
| BuildMetadatas.FormatInjective | strata/src/main/java/ca/solostudios/strata/version/BuildMetadata.java:77-82 | Different build metadata is formatted differently. |
| PreReleases.CompareIdentifiers | strata/src/main/java/ca/solostudios/strata/version/PreReleaseIdentifier.java:52-62 | Numeric identifiers compare by value. Any numeric identifier is below any alphanumeric one, in both orders. Alphanumeric identifiers compare by `String.compareTo`. Zero iff equal. |
| PreReleases.CompareIdentifiersAntisymmetric | strata/src/main/java/ca/solostudios/strata/version/PreReleaseIdentifier.java:52-62 | Swapping the arguments negates the result. |
| PreReleases.CompareIdentifiersTransitive | strata/src/main/java/ca/solostudios/strata/version/PreReleaseIdentifier.java:52-62 | The identifier order is transitive. |
| PreReleases.IdentifierEquals | strata/src/main/java/ca/solostudios/strata/version/PreReleaseIdentifier.java:143-205 | Equality needs the same variant and an equal value. It agrees with `compareTo == 0`. |
| PreReleases.FormatIdentifierInjective | strata/src/main/java/ca/solostudios/strata/version/PreReleaseIdentifier.java:88-90 | Two valid identifiers with the same text are the same identifier. A numeric identifier is its decimal text, and an alphanumeric one is its string. |
| PreReleases.Equals | strata/src/main/java/ca/solostudios/strata/version/PreRelease.java:129-136 | Equality is element-wise list equality, and it agrees with `compareTo == 0`. |
| PreReleases.CompareFromSpec | strata/src/main/java/ca/solostudios/strata/version/PreRelease.java:75-89 | For two lists that agree on a prefix, the first unequal pair decides, and a proper prefix is smaller. The result is zero iff the lists are equal, and swapping the lists negates it. |
| PreReleases.CompareSpec | strata/src/main/java/ca/solostudios/strata/version/PreRelease.java:65-90 | An empty pre-release is above any non-empty one. Otherwise the list order applies. Zero iff equal, and antisymmetric. |
| PreReleases.CompareTransitive | strata/src/main/java/ca/solostudios/strata/version/PreRelease.java:65-90 | The pre-release order is transitive. |
| PreReleases.FormatIsBuilderLoop | strata/src/main/java/ca/solostudios/strata/version/PreRelease.java:108-125 | The formatted pre-release is what the `StringBuilder` loop of `getFormatted` builds: nothing for an empty list, otherwise `-` and the first identifier, then `.` and the next identifier for each further one, in order. |
| Versions.Equals | strata/src/main/java/ca/solostudios/strata/version/Version.java:145-159 | Equality covers core, pre-release and build metadata. Equal versions compare 0. |
| Versions.CompareSpec | strata/src/main/java/ca/solostudios/strata/version/Version.java:170-173 | The core decides first and the pre-release breaks ties. The result is zero iff core and pre-release agree, and it is antisymmetric. |
| Versions.CompareIgnoresBuildMetadata | strata/src/main/java/ca/solostudios/strata/version/Version.java:170-173 | Replacing the build metadata of either side never changes `compareTo`. |
| Versions.CompareZeroDoesNotImplyEquals | strata/src/main/java/ca/solostudios/strata/version/Version.java:145-173 | Any two versions that differ only in build metadata compare 0, yet `equals` is false: `compareTo` is not consistent with `equals`. |
| Versions.CompareTransitive | strata/src/main/java/ca/solostudios/strata/version/Version.java:170-173 | The version order is transitive. |
| Versions.CompareTotalPreorder | strata/src/main/java/ca/solostudios/strata/version/Version.java:170-173 | `compareTo` is a total preorder: reflexive, total and transitive on `<=`. |
| Versions.ReleaseOutranksPreRelease | strata/src/main/java/ca/solostudios/strata/version/PreRelease.java:66-73 | A pre-release is below the release with the same core. That release is below any version with a higher core, as in 0.0.3-abcd < 0.0.3 < 0.0.4. |
| VersionParser.ConsumeNumber | strata/src/main/java/ca/solostudios/strata/parser/VersionParser.java:241-254 | It fails iff the current character is not a digit, or is `0` followed by a digit. Each failure has its own error kind at the cursor. Otherwise it consumes the whole digit run. |
| VersionParser.ConsumeNumberSound | strata/src/main/java/ca/solostudios/strata/parser/VersionParser.java:241-254 | A number read is spelled by the input as its canonical decimal text, and a non-digit follows it. |
| VersionParser.ConsumeCharacter | strata/src/main/java/ca/solostudios/strata/parser/VersionParser.java:282-288 | It succeeds iff the current character is the expected one, moving one on. Otherwise the error is at the cursor. |
| VersionParser.ParseCoreSound | strata/src/main/java/ca/solostudios/strata/parser/VersionParser.java:187-194 | A core version read is spelled by the input as `M.m.p`, and a non-digit follows it. |
| VersionParser.LookaheadAlphaNumericSpec | strata/src/main/java/ca/solostudios/strata/parser/VersionParser.java:256-267 | The lookahead reports alphanumeric iff the maximal `[0-9A-Za-z-]` run at the cursor holds a letter or `-`. |
| VersionParser.RunEndsAgree | strata/src/main/java/ca/solostudios/strata/parser/VersionParser.java:256-267 | When the lookahead reports numeric, the digit run is the whole alphanumeric run. |
| VersionParser.ConsumeAlphaNumeric | strata/src/main/java/ca/solostudios/strata/parser/VersionParser.java:270-280 | It fails iff the current character is not alphanumeric. Otherwise it consumes the whole alphanumeric run. |
| VersionParser.ParsePreReleaseIdentifier | strata/src/main/java/ca/solostudios/strata/parser/VersionParser.java:212-217 | An identifier read ends at the end of the alphanumeric run. Failure reports an empty run, or a numeric identifier with a leading zero. |
| VersionParser.ParseIdentifierSpec | strata/src/main/java/ca/solostudios/strata/parser/VersionParser.java:212-217 | It succeeds iff the run is non-empty and either has a non-digit or is canonical decimal. The identifier is alphanumeric iff the run has a non-digit, and its text is the run. |
| VersionParser.ParseIdentifierSound | strata/src/main/java/ca/solostudios/strata/parser/VersionParser.java:212-217 | An identifier read is valid and spelled by the input, and a non-alphanumeric character follows it. |
| VersionParser.ParsePreReleaseSound | strata/src/main/java/ca/solostudios/strata/parser/VersionParser.java:197-209 | A pre-release read is one or more valid identifiers joined by single dots, as spelled by the input. Neither a dot nor an alphanumeric character follows it. |
| VersionParser.BuildMetadataRunSound | strata/src/main/java/ca/solostudios/strata/parser/VersionParser.java:220-238 | The build metadata loop stops after `[0-9A-Za-z-.]` characters with no two dots in a row. It stops before a character outside that set, and never with a dot before the end of input. |
| VersionParser.ParseBuildMetadataSound | strata/src/main/java/ca/solostudios/strata/parser/VersionParser.java:220-238 | Build metadata read is spelled verbatim by the input, and neither a dot nor an alphanumeric character follows it. When the end of input follows, it starts with an alphanumeric character and has no doubled or trailing dot. |
| VersionParser.ParsePreReleasePartSound | strata/src/main/java/ca/solostudios/strata/parser/VersionParser.java:161-184 | The optional `-pre-release` part read is valid and spelled by the input as its formatted text, which is empty when there is no `-`. |
| VersionParser.ParseBuildMetadataPartSound | strata/src/main/java/ca/solostudios/strata/parser/VersionParser.java:161-184 | The optional `+build` part is read as its formatted text, and it is valid when the end of input follows. |
| VersionParser.ParseSound | strata/src/main/java/ca/solostudios/strata/parser/VersionParser.java:161-184 | Whatever `parse` accepts is a valid version whose formatted text is the input up to the end of input. |
| VersionParser.ParseCore | strata/src/main/java/ca/solostudios/strata/parser/VersionParser.java:187-194 | A core read consumes input. A failure lies at or after the cursor, within the input, and is a missing digit, a leading zero or a missing `.`, as the character at its column shows. |
| VersionParser.ParsePreRelease | strata/src/main/java/ca/solostudios/strata/parser/VersionParser.java:197-209 | A pre-release read holds at least one identifier. A failure lies at or after the cursor and is a missing digit or a leading zero, as the character at its column shows. |
| VersionParser.BuildMetadataRun | strata/src/main/java/ca/solostudios/strata/parser/VersionParser.java:225-235 | The loop stops after its first character and within the input. It fails only on a dot followed by a dot or by the end of input, with the error at the character after that dot. |
| VersionParser.ParseBuildMetadata | strata/src/main/java/ca/solostudios/strata/parser/VersionParser.java:220-238 | When the character after `+` is not alphanumeric, the error is `AlphaNumericExpected` exactly there. Every other failure is a doubled or final dot, after the cursor. |
| VersionParser.ParsePreReleasePart | strata/src/main/java/ca/solostudios/strata/parser/VersionParser.java:166-172 | Without `-` at the cursor nothing is read and the pre-release is `NULL`. A failure lies after the cursor and matches the character at its column. |
| VersionParser.ParseBuildMetadataPart | strata/src/main/java/ca/solostudios/strata/parser/VersionParser.java:174-178 | Without `+` at the cursor nothing is read and the build metadata is `NULL`. A failure lies after the cursor and matches the character at its column. |
| VersionParser.Parse | strata/src/main/java/ca/solostudios/strata/parser/VersionParser.java:161-184 | A failure is the version parser's own error, without a cause, within the input. What stands at its column fits its kind: a non-digit for a missing number, `0` then a digit for a leading zero, anything but `.` for a missing dot, a non-alphanumeric character after `+`, a second dot, the end of input after a dot, and anything but the end of input for a trailing character. |
| VersionRoundTrip.ConsumeNumberOf | strata/src/main/java/ca/solostudios/strata/parser/VersionParser.java:241-254 | The decimal text of `n`, followed by a non-digit, is read as `n`. |
| VersionRoundTrip.ParseCoreOf | strata/src/main/java/ca/solostudios/strata/parser/VersionParser.java:187-194 | A formatted core, followed by a non-digit, is read back as that core. |
| VersionRoundTrip.ParseIdentifierOf | strata/src/main/java/ca/solostudios/strata/parser/VersionParser.java:212-217 | A formatted valid identifier, followed by a non-alphanumeric character, is read back as that identifier. |
| VersionRoundTrip.ParseIdentifiersOf | strata/src/main/java/ca/solostudios/strata/parser/VersionParser.java:197-209 | Valid identifiers joined by dots, followed by neither a dot nor an alphanumeric character, are read back as that list. |
| VersionRoundTrip.ParseBuildMetadataOf | strata/src/main/java/ca/solostudios/strata/parser/VersionParser.java:220-238 | Valid build metadata text, followed by neither a dot nor an alphanumeric character, is read back verbatim. |
| VersionRoundTrip.ParseOf | strata/src/main/java/ca/solostudios/strata/parser/VersionParser.java:161-184 | Input that spells a valid version's formatted text up to the end of input parses as that version. |
| VersionRoundTrip.ParseFormatted | strata/src/main/java/ca/solostudios/strata/parser/VersionParser.java:161-184 | Round trip: `parse(getFormatted(v)) == v` for every valid `v`. |
| VersionRoundTrip.ParseCharacterized | strata/src/main/java/ca/solostudios/strata/parser/VersionParser.java:161-184 | `parse(s)` yields `v` iff `v` is valid and its formatted text is `s` up to the end of input. |
| VersionRoundTrip.ParsedIsFormatted | strata/src/main/java/ca/solostudios/strata/parser/VersionParser.java:161-184 | On input without `'\0'`, `getFormatted(parse(s)) == s`. |
| VersionRoundTrip.FormatInjective | strata/src/main/java/ca/solostudios/strata/version/Version.java:177-179 | Distinct valid versions have distinct formatted text. |
| VersionRoundTrip.CoreFormatInjective | strata/src/main/java/ca/solostudios/strata/version/CoreVersion.java:144-146 | Distinct cores have distinct `M.m.p` text. |
| VersionRoundTrip.PreReleaseFormatInjective | strata/src/main/java/ca/solostudios/strata/version/PreRelease.java:108-125 | Distinct valid pre-releases have distinct formatted text. |
| VersionErrors.TrailingCharacterSteps | strata/src/main/java/ca/solostudios/strata/parser/VersionParser.java:180-184 | Once the core and both optional parts are read up to column `e`, any character there but the end of input makes `parse` fail with a trailing character at `e`. |
| VersionErrors.TrailingAfterVersion | strata/src/main/java/ca/solostudios/strata/parser/VersionParser.java:180-184 | A valid version's formatted text, followed by text whose first character cannot continue it, fails with a trailing character exactly at the end of the formatted text. |
| VersionErrors.PreReleasePartFails | strata/src/main/java/ca/solostudios/strata/parser/VersionParser.java:166-172 | When a `-` follows the core and the pre-release after it fails, `parse` fails with that same error. |
| VersionErrors.MissingNumberExample | strata/src/main/java/ca/solostudios/strata/parser/VersionParser.java:241-244 | `1.2.?` fails with a missing number at column 4. |
| VersionErrors.LeadingZeroExamples | strata/src/main/java/ca/solostudios/strata/parser/VersionParser.java:246-247 | `01.1.1`, `1.01.1` and `1.1.01` fail with a leading zero at the offending `0`: columns 0, 2 and 4. |
| VersionErrors.LeadingZeroIdentifierExample | strata/src/main/java/ca/solostudios/strata/parser/VersionParser.java:212-217 | The numeric pre-release identifier of `1.2.3-0123` fails with a leading zero at column 6. |
| VersionErrors.FinalDotExample | strata/src/main/java/ca/solostudios/strata/parser/VersionParser.java:202-205 | `1.0.0-alpha.` fails with a missing number at the end of input, column 12. |
| VersionErrors.DoubleDotExample | strata/src/main/java/ca/solostudios/strata/parser/VersionParser.java:202-205 | `1.0.0-alpha..1` fails with a missing number at the second dot, column 12. |
| VersionErrors.MissingIdentifierExample | strata/src/main/java/ca/solostudios/strata/parser/VersionParser.java:212-217 | `1.2.3-+` fails with a missing number at the `+`, column 6. |
| VersionErrors.EmptyBuildMetadataExample | strata/src/main/java/ca/solostudios/strata/parser/VersionParser.java:222-223 | `1.2.3+` fails with `AlphaNumericExpected` at the end of input, column 6. |
| VersionErrors.BuildMetadataPeriodExamples | strata/src/main/java/ca/solostudios/strata/parser/VersionParser.java:227-231 | `1.2.3+a..b` fails with a period after a period at column 8, and `1.2.3+a.` with the end of input after a period at column 8. |
| VersionErrors.FourthComponentExample | strata/src/main/java/ca/solostudios/strata/parser/VersionParser.java:180-184 | `1.2.3.DEV` fails with a trailing character at the fourth dot, column 5. |
| VersionErrors.SecondBuildMetadataExample | strata/src/main/java/ca/solostudios/strata/parser/VersionParser.java:180-184 | `1.2.3+b1+b2` fails with a trailing character at the second `+`, column 8. |
| VersionRanges.IsSatisfiedBy | strata/src/main/java/ca/solostudios/strata/version/VersionRange.java:145-164 | A version satisfies the range iff its core is not below the start and not above the end. An inclusive start rejects iff start > core, and an exclusive start iff start >= core. An inclusive end accepts iff core <= end, and an exclusive end iff core < end. |
| VersionRanges.SatisfiedByCoreOnly | strata/src/main/java/ca/solostudios/strata/version/VersionRange.java:145-164 | Only the candidate's core matters: its pre-release and build metadata are ignored. |
| VersionRanges.SatisfiedByBoundCoresOnly | strata/src/main/java/ca/solostudios/strata/version/VersionRange.java:145-164 | Only the cores of the bounds matter. |
| VersionRanges.UnboundedSatisfiedByAll | strata/src/main/java/ca/solostudios/strata/version/VersionRange.java:145-164 | A range with no bounds holds every version. |
| VersionRanges.InclusiveStartContained | strata/src/main/java/ca/solostudios/strata/version/VersionRange.java:145-164 | An inclusive start bound is in the range, provided the end admits it. |
| VersionRanges.ExclusiveBoundsExcluded | strata/src/main/java/ca/solostudios/strata/version/VersionRange.java:145-164 | An exclusive bound is never in the range. |
| VersionRanges.IsSatisfiedByText | strata/src/main/java/ca/solostudios/strata/version/VersionRange.java:134-136 | `isSatisfiedBy(String)` fails exactly when the version parser fails, with the same error. |
| VersionRanges.IsSatisfiedByFormatted | strata/src/main/java/ca/solostudios/strata/version/VersionRange.java:134-136 | On a valid version's formatted text, the string form answers as the version form does. |
| VersionRanges.OptionEquals | strata/src/main/java/ca/solostudios/strata/version/VersionRange.java:178-190 | Two bounds are equal when both are absent, or both are present and equal. |
| VersionRanges.Equals | strata/src/main/java/ca/solostudios/strata/version/VersionRange.java:178-190 | Equality compares all four fields. |
| VersionRangeParser.VersionTextEndSound | strata/src/main/java/ca/solostudios/strata/parser/VersionRangeParser.java:387-400 | The `consumeVersionUntil` loop consumes a non-empty stretch without `'\0'`. It stops at the first stop after the first character, or at end of input when there are no stops. |
| VersionRangeParser.VersionTextEndIs | strata/src/main/java/ca/solostudios/strata/parser/VersionRangeParser.java:387-400 | Conversely, any such stretch is exactly what the loop consumes. |
| VersionRangeParser.ConsumeVersionUntil | strata/src/main/java/ca/solostudios/strata/parser/VersionRangeParser.java:387-400 | The version text ends within the input. A failure either carries the version parser's error as its cause, at or after the start of the text, or is `UnexpectedEnd` at the end of input, where the loop runs out. It is never `EndExpected`. |
| VersionRangeParser.ConsumeVersionUntilSound | strata/src/main/java/ca/solostudios/strata/parser/VersionRangeParser.java:387-400 | A version read is valid, spelled by the input as its formatted text, and followed by a stop. |
| VersionRangeParser.ConsumeVersionUntilOf | strata/src/main/java/ca/solostudios/strata/parser/VersionRangeParser.java:387-400 | A valid version's formatted text, followed by a stop that cannot occur in versions, is read back as that version. |
| VersionRangeParser.VersionErrorRepositioned | strata/src/main/java/ca/solostudios/strata/parser/VersionRangeParser.java:396-399 | An embedded version's error keeps its kind and has the original error as its cause. It points at the same character of the range string as the original pointed at in the version text. An error at the end of the version text points at the stop. |
| VersionRangeParser.ConsumeEndOfInput | strata/src/main/java/ca/solostudios/strata/parser/VersionRangeParser.java:441-446 | It succeeds iff the cursor is at end of input. Otherwise the error is at the extra character. |
| VersionRangeParser.EndBoundNeverMissesClose | strata/src/main/java/ca/solostudios/strata/parser/VersionRangeParser.java:292-297 | The "looking for `]` or `)`" error cannot be raised. The end bound fails only where its embedded version fails, with that error. |
| VersionRangeParser.HighVersionForCaret | strata/src/main/java/ca/solostudios/strata/parser/VersionRangeParser.java:337-344 | The caret's upper bound is a release strictly above the lower bound's core. |
| VersionRangeParser.CaretSpec | strata/src/main/java/ca/solostudios/strata/parser/VersionRangeParser.java:323-344 | `^v` holds the versions at or above `v` that keep its first non-zero component and the zeros before it. `^0.0.p` holds only core `0.0.p`. |
| VersionRangeParser.GlobMajorSpec | strata/src/main/java/ca/solostudios/strata/parser/VersionRangeParser.java:358-364 | The range of `M.+` holds exactly the versions with major `M`. |
| VersionRangeParser.GlobMinorSpec | strata/src/main/java/ca/solostudios/strata/parser/VersionRangeParser.java:366-372 | The range of `M.m.+` holds exactly the versions with major `M` and minor `m`. |
| VersionRangeParser.GlobPatchSpec | strata/src/main/java/ca/solostudios/strata/parser/VersionRangeParser.java:374-377 | The range of `M.m.p` holds exactly the versions with core `M.m.p`. |
| VersionRangeParser.VersionTextEnd | strata/src/main/java/ca/solostudios/strata/parser/VersionRangeParser.java:390-393 | The loop consumes at least one character and stops within the input; it fails only at the end of input, with `UnexpectedEnd` there. |
| VersionRangeParser.StartBound | strata/src/main/java/ca/solostudios/strata/parser/VersionRangeParser.java:272-276 | A start bound read stays within the input. A failure lies within the input and fits what is at its column, or carries the version parser's error as its cause. |
| VersionRangeParser.EndBound | strata/src/main/java/ca/solostudios/strata/parser/VersionRangeParser.java:278-299 | An end bound read consumes its closing bracket. A failure lies within the input and fits what is at its column, or carries the version parser's error as its cause. |
| VersionRangeParser.ParseInterval | strata/src/main/java/ca/solostudios/strata/parser/VersionRangeParser.java:266-303 | A failure lies within the input. An error with a cause repeats the kind of the embedded version's error, which lies at or before it; one without a cause fits its column: a missing character where another stands, `UnexpectedEnd` at the end of input, `EndExpected` where the end of input is not. |
| VersionRangeParser.ParseComparison | strata/src/main/java/ca/solostudios/strata/parser/VersionRangeParser.java:306-320 | A failure lies within the input and fits its column in the same sense. |
| VersionRangeParser.ParseCaret | strata/src/main/java/ca/solostudios/strata/parser/VersionRangeParser.java:323-334 | A failure lies within the input and fits its column in the same sense. |
| VersionRangeParser.GlobBounds | strata/src/main/java/ca/solostudios/strata/parser/VersionRangeParser.java:358-377 | Numbered bounds are read up to a column after the first. A failure is the version parser's missing number, leading zero or missing `.`, without a cause, fitting its column. |
| VersionRangeParser.ParseGlob | strata/src/main/java/ca/solostudios/strata/parser/VersionRangeParser.java:347-384 | A glob failure has no cause, lies within the input and fits its column. |
| VersionRangeParser.Parse | strata/src/main/java/ca/solostudios/strata/parser/VersionRangeParser.java:254-263 | A failure of any notation lies within the input and fits its column as for the interval. |
| VersionRangeRoundTrip.IntervalDispatch | strata/src/main/java/ca/solostudios/strata/parser/VersionRangeParser.java:254-263 | Input starting with `[` or `(` is read in interval notation. |
| VersionRangeRoundTrip.ComparisonDispatch | strata/src/main/java/ca/solostudios/strata/parser/VersionRangeParser.java:254-263 | Input starting with `>` or `<` is read as a comparison. |
| VersionRangeRoundTrip.GlobDispatch | strata/src/main/java/ca/solostudios/strata/parser/VersionRangeParser.java:254-263 | Input starting with a digit, `+` or `*` is read as a glob. |
| VersionRangeRoundTrip.ParseValid | strata/src/main/java/ca/solostudios/strata/parser/VersionRangeParser.java:254-263 | Every range the parser returns has valid versions, or nothing, as its bounds. |
| VersionRangeRoundTrip.StartBoundSound | strata/src/main/java/ca/solostudios/strata/parser/VersionRangeParser.java:272-276 | A start bound read is spelled by the input and is followed by the comma. |
| VersionRangeRoundTrip.EndBoundSound | strata/src/main/java/ca/solostudios/strata/parser/VersionRangeParser.java:278-299 | An end bound read is spelled by the input and followed by the bracket that sets its inclusivity. |
| VersionRangeRoundTrip.ParseIntervalSound | strata/src/main/java/ca/solostudios/strata/parser/VersionRangeParser.java:266-303 | A successful interval parse of input without `'\0'` returns the range whose formatted text is the input. |
| VersionRangeRoundTrip.ParseFormatted | strata/src/main/java/ca/solostudios/strata/version/VersionRange.java:203-224 | Round trip: every range with valid bounds is parsed back from its `getFormatted` text. |
| VersionRangeRoundTrip.ParseIntervalCharacterized | strata/src/main/java/ca/solostudios/strata/parser/VersionRangeParser.java:266-303 | On input without `'\0'` that starts with `[` or `(`, `parse` returns `r` iff `r` has valid bounds and is formatted as the input. |
| VersionRangeRoundTrip.FormatInjective | strata/src/main/java/ca/solostudios/strata/version/VersionRange.java:203-224 | Distinct ranges with valid bounds are formatted differently. |
| VersionRangeRoundTrip.ParseComparisonOf | strata/src/main/java/ca/solostudios/strata/parser/VersionRangeParser.java:306-320 | `>v` and `>=v` give `v` as the start, exclusive or inclusive, and no end. `<v` and `<=v` give `v` as the end, exclusive or inclusive, and no start. |
| VersionRangeRoundTrip.ParseCaretOf | strata/src/main/java/ca/solostudios/strata/parser/VersionRangeParser.java:323-334 | `^v` gives the range from `v` inclusive to its caret bound exclusive. |
| VersionRangeRoundTrip.ParseBareGlob | strata/src/main/java/ca/solostudios/strata/parser/VersionRangeParser.java:353-356 | `+` and `*` give the range with neither bound, start-inclusive and end-exclusive. |
| VersionRangeRoundTrip.BareGlobStartDivergence | strata/src/main/java/ca/solostudios/strata/parser/VersionRangeParser.java:353-356 | The bare glob range differs from the `[0.0.0,)` range the repository's unit tests expect, and is formatted differently, yet holds the same versions. |
| VersionRangeRoundTrip.ParseMajorGlobOf | strata/src/main/java/ca/solostudios/strata/parser/VersionRangeParser.java:358-364 | `M.+` gives `[M.0.0, (M+1).0.0)`. |
| VersionRangeRoundTrip.ParseMinorGlobOf | strata/src/main/java/ca/solostudios/strata/parser/VersionRangeParser.java:366-372 | `M.m.+` gives `[M.m.0, M.(m+1).0)`. |
| VersionRangeRoundTrip.ParsePatchGlobOf | strata/src/main/java/ca/solostudios/strata/parser/VersionRangeParser.java:374-377 | `M.m.p` gives `[M.m.p, M.m.(p+1))`. |
| VersionRangeErrors.IntervalTrailing | strata/src/main/java/ca/solostudios/strata/parser/VersionRangeParser.java:301 | A valid range's formatted interval, followed by any character but the end of input, fails with `EndExpected` just after the closing bracket. |
| VersionRangeErrors.BareGlobTrailing | strata/src/main/java/ca/solostudios/strata/parser/VersionRangeParser.java:353-356 | `+` or `*` followed by any character but the end of input fails with `EndExpected` at column 1. |
| VersionRangeErrors.MajorGlobTrailing | strata/src/main/java/ca/solostudios/strata/parser/VersionRangeParser.java:358-382 | `M.+` followed by any character but the end of input fails with `EndExpected` just after the `+`. |
| VersionRangeErrors.MinorGlobTrailing | strata/src/main/java/ca/solostudios/strata/parser/VersionRangeParser.java:366-382 | `M.m.+` followed by any character but the end of input fails with `EndExpected` just after the `+`. |
| VersionRangeErrors.PatchGlobTrailing | strata/src/main/java/ca/solostudios/strata/parser/VersionRangeParser.java:374-382 | `M.m.p` followed by a character that is neither a digit nor the end of input fails with `EndExpected` just after the patch number. |
| VersionRangeErrors.ComparisonTrailing | strata/src/main/java/ca/solostudios/strata/parser/VersionRangeParser.java:306-313 | An operator and a valid version, followed by text without `'\0'` whose first character cannot continue the version, fail with the version parser's trailing character. Its column is moved past the operator and the original error is the cause. |
| VersionRangeErrors.CaretTrailing | strata/src/main/java/ca/solostudios/strata/parser/VersionRangeParser.java:323-328 | `^` and a valid version followed by such text fail in the same way, one column further on. |
| VersionRangeErrors.VersionToEndNeverEndExpected | strata/src/main/java/ca/solostudios/strata/parser/VersionRangeParser.java:306-334 | A failing comparison or caret never reports `EndExpected`: its error carries a cause, or is `UnexpectedEnd`. |
| VersionRangeErrors.IntervalTrailingExample | strata/src/main/java/ca/solostudios/strata/parser/VersionRangeParser.java:301 | `[1.0.0,2.0.0]x` fails with `EndExpected` at column 13. |
| VersionRangeErrors.MissingClose | strata/src/main/java/ca/solostudios/strata/parser/VersionRangeParser.java:387-393 | An interval with a valid start bound and its comma, followed by text with no closing bracket and no `'\0'`, fails with `UnexpectedEnd` at the end of input, where the loop of the end bound runs out. |
| VersionRangeErrors.MissingCloseExample | strata/src/main/java/ca/solostudios/strata/parser/VersionRangeParser.java:391-393 | `(1.0.0,2.0.0` fails with `UnexpectedEnd` at the end of input, column 12. |
| VersionRangeErrors.ComparisonTrailingExample | strata/src/main/java/ca/solostudios/strata/parser/VersionRangeParser.java:306-313 | `>1.0.0x` fails with a trailing character at column 6, caused by the version parser's error at column 5. |
| VersionRangeErrors.BareGlobTrailingExample | strata/src/main/java/ca/solostudios/strata/parser/VersionRangeParser.java:382 | `+x` fails with `EndExpected` at column 1. |
| VersionRangeErrors.PatchGlobTrailingExample | strata/src/main/java/ca/solostudios/strata/parser/VersionRangeParser.java:374-382 | `1.2.3-beta` fails with `EndExpected` at the `-`, column 5. |

## Left out

- **The bare glob `+`/`*` has no start bound.** `VersionRangeParser.java:353-356` sets
  no lower bound, while `VersionRangeParserTest.java:216` and
  `VersionFormatTest.java:51` expect `0.0.0` inclusive. The model follows the code.
  `VersionRangeRoundTrip.BareGlobStartDivergence` shows that the two ranges hold the
  same versions but are not equal and are formatted differently.
- **A `'\0'` inside the input.** The stream treats it as end of input, as the source
  does. So a version followed by `'\0'` and more text parses. The exact round trips
  (`VersionRoundTrip.ParsedIsFormatted`, `VersionRangeRoundTrip.ParseIntervalCharacterized`)
  assume input without `'\0'`.
- **`BigInteger` values are `nat`.** The parsers only build them from digit strings, so
  negative components never arise.
- **Error reports.** `ParseException` message text and its caret diagram are not
  modelled, nor is the `Position` interface. An error is a kind, a column and an optional
  cause.
- **The range parser's own `consumeNumber`** (`VersionRangeParser.java:403-416`) is the
  version parser's rule. Its `consumeNotEndOfInput` cannot fail there, because the
  current character is a digit. So the glob reuses `VersionParser.ConsumeNumber`.
- **I/O.** `LookaheadReader` reads from a `BufferedReader`; the model reads a `seq<char>`.
  The `IOException` path of `fetch` is left out.
- **Unicode.** Characters are UTF-16 code units, as Java `char` is. Surrogate pairs are
  not treated specially.
- **Not modelled:**
  - `toString` and `hashCode`;
  - the `Versions` factory methods, for which the datatype constructors stand in;
  - the accessors of `Version` beyond the plain functions `Major`, `Minor` and `Patch`;
  - `BuildMetadata.getBuildMetadata`, a plain getter: `BuildMetadatas.Text` returns the stored
    text, and what that text is for a parsed version is stated by
    `VersionRoundTrip.ParseBuildMetadataOf`;
  - the Kotlin extensions, the Gradle build and the JMH benchmark.
- **Negative offsets and counts.** `Lookahead.next` and `Lookahead.consume` throw
  `IllegalArgumentException` for a negative argument (Lookahead.java:110-112 and :158-160). The
  model drops that throw. `Lookahead.Next` and `Lookahead.Consume` require a non-negative
  argument instead, and every call site in both parsers passes one.
- **The root `src/` tree.** Except for `Char`, it is a superseded copy with different
  semantics and is not part of this model.
- VersionRangeRoundTrip.ParseComparisonOf: comparisons, carets and globs are proved in
  the formatted-input direction only. The parse of an operator or caret followed by a
  formatted valid version, or of a numbered glob, is computed exactly. There is no
  characterization of every accepted comparison, caret or glob string.
- VersionRangeParser.ConsumeVersionUntil: its own contract states only bounds on the
  cursor and what stands at the error column. What it reads is stated by
  `VersionRangeParser.ConsumeVersionUntilSound` and
  `VersionRangeParser.ConsumeVersionUntilOf`.
- VersionParser.Parse: the failure contracts of the version parser, the range parser and
  their stages state what stands at the error column (`ErrorAt`), not that it is the
  first offending character. The exact column is proved for a trailing character after a
  valid version (`VersionErrors.TrailingAfterVersion`), for text after a complete
  interval, glob, comparison or caret (`VersionRangeErrors`), and for the listed
  examples. The converse of `VersionErrors.CannotFollow`, that every character it
  excludes continues the version, is not proved.

=== FILE: build_metadata.dfy ===
/** The build metadata of a version: an opaque string carried for display (`BuildMetadata.java`). */
module BuildMetadatas {
  import opened Chars

  datatype BuildMetadata = BuildMetadata(text: string)

  /** `BuildMetadata.NULL`: no build metadata. */
  const Null: BuildMetadata := BuildMetadata("")

  /** `BuildMetadata.getBuildMetadata`: the stored text, unchanged. */
  function Text(b: BuildMetadata): (r: string)
    ensures BuildMetadata(r) == b
  {
    b.text
  }

  /** `BuildMetadata.equals`: string equality of the stored texts. */
  function Equals(a: BuildMetadata, b: BuildMetadata): (r: bool)
    ensures r <==> a == b
  {
    Text(a) == Text(b)
  }

  /**
    * Item 10 of Semantic Versioning 2.0.0: dot-separated, non-empty identifiers over
    * `[0-9A-Za-z-]`; leading zeros are allowed.
    */
  predicate ValidText(t: string) {
    && |t| > 0
    && (forall i :: 0 <= i < |t| ==> AlphaNumericChar(t[i]) || t[i] == '.')
    && t[0] != '.'
    && t[|t| - 1] != '.'
    && (forall i :: 0 <= i < |t| - 1 ==> !(t[i] == '.' && t[i + 1] == '.'))
  }

  /** Build metadata the parser can produce: none, or valid text. */
  predicate Valid(b: BuildMetadata) {
    b == Null || ValidText(b.text)
  }

  /** `BuildMetadata.getFormatted`: `+` and the text, or nothing when the text is empty. */
  function Format(b: BuildMetadata): string
  {
    if |b.text| > 0 then "+" + b.text else ""
  }

  /** The formatted form is empty exactly for `NULL`, and otherwise gives the stored text back after its `+`. */
  lemma FormatSpec(b: BuildMetadata)
    ensures Format(b) == "" <==> b == Null
    ensures Format(b) != "" ==> Format(b)[0] == '+' && Format(b)[1..] == b.text
  {
  }

  /** Distinct build metadata are formatted differently. */
  lemma FormatInjective(a: BuildMetadata, b: BuildMetadata)
    requires Format(a) == Format(b)
    ensures a == b
  {
    FormatSpec(a);
    FormatSpec(b);
  }
}

=== FILE: chars.dfy ===
/**
  * A single character read from the input together with its zero-based position,
  * and the character-class tests both parsers branch on (`Char.java`).
  *
  * The value `'\0'` is reserved for the end-of-input sentinel: no `Is` test ever
  * matches it, and it is the only value `IsEndOfInput` accepts.
  */
module Chars {

  /** The value the end-of-input sentinel carries. */
  const EndOfInputValue: char := '\0'

  datatype Char = Char(value: char, pos: nat)

  /** `'0'..'9'` */
  predicate DigitChar(ch: char) {
    '0' <= ch <= '9'
  }

  /** ASCII letters `a..z` and `A..Z`. */
  predicate LetterChar(ch: char) {
    ('a' <= ch <= 'z') || ('A' <= ch <= 'Z')
  }

  /** The SemVer identifier alphabet `[0-9A-Za-z-]`. */
  predicate AlphaNumericChar(ch: char) {
    LetterChar(ch) || DigitChar(ch) || ch == '-'
  }

  /** `Char.is(char)`: the value equals `test`, and `test` is not the sentinel value. */
  predicate Is(c: Char, test: char) {
    test == c.value && test != EndOfInputValue
  }

  /** `Char.is(char...)`: the loop over `tests`, returning at the first test that matches. */
  function IsAnyOf(c: Char, tests: seq<char>): (r: bool)
    ensures r <==> exists i :: 0 <= i < |tests| && Is(c, tests[i])
  {
    if |tests| == 0 then false
    else if tests[0] == c.value && tests[0] != EndOfInputValue then true
    else IsAnyOf(c, tests[1..])
  }

  predicate IsDigit(c: Char) {
    DigitChar(c.value)
  }

  predicate IsLetter(c: Char) {
    LetterChar(c.value)
  }

  /** `Char.isAlphaNumeric`: a letter, a digit, or `is('-')`. */
  predicate IsAlphaNumeric(c: Char) {
    IsLetter(c) || IsDigit(c) || Is(c, '-')
  }

  predicate IsEndOfInput(c: Char) {
    c.value == EndOfInputValue
  }

  /** `Char.getStringValue`: the character as a one-character string, or `""` for the sentinel. */
  function StringValue(c: Char): (r: string)
    ensures |r| <= 1
    ensures r == [] <==> IsEndOfInput(c)
    ensures r != [] ==> r[0] == c.value
  {
    if c.value == EndOfInputValue then "" else [c.value]
  }

  /** The end-of-input sentinel passes none of the character-class tests. */
  lemma EndOfInputMatchesNothing(c: Char, test: char)
    requires IsEndOfInput(c)
    ensures !Is(c, test) && !IsDigit(c) && !IsLetter(c) && !IsAlphaNumeric(c)
  {
  }

  /** The classes the parsers branch on do not overlap: a digit is no letter, and neither is the sentinel, `-` or `.`. */
  lemma ClassesDisjoint(c: Char)
    ensures !(IsDigit(c) && IsLetter(c))
    ensures IsDigit(c) || IsLetter(c) ==> !IsEndOfInput(c) && !Is(c, '-') && !Is(c, '.') && !Is(c, '+')
  {
  }

  /** `isAlphaNumeric` on a `Char` is exactly the identifier alphabet on its value. */
  lemma AlphaNumericIsAlphabet(c: Char)
    ensures IsAlphaNumeric(c) <==> AlphaNumericChar(c.value)
  {
  }
}

=== FILE: core_version.dfy ===
/** The `major.minor.patch` triple of a version (`CoreVersion.java`). */
module CoreVersions {
  import opened JavaLib

  /** Components are unbounded, like the `BigInteger`s of the source; parsing only ever yields non-negative ones. */
  datatype CoreVersion = CoreVersion(major: nat, minor: nat, patch: nat)

  /** The precedence of item 11.2 of Semantic Versioning 2.0.0: numeric, major first, then minor, then patch. */
  ghost predicate Less(a: CoreVersion, b: CoreVersion) {
    || a.major < b.major
    || (a.major == b.major && a.minor < b.minor)
    || (a.major == b.major && a.minor == b.minor && a.patch < b.patch)
  }

  /** `CoreVersion.compareTo`: the first non-zero of the three component comparisons. */
  function Compare(a: CoreVersion, b: CoreVersion): (r: int)
    ensures -1 <= r <= 1
    ensures r < 0 <==> Less(a, b)
    ensures r == 0 <==> a == b
    ensures r > 0 <==> Less(b, a)
  {
    var majorComparison := CompareInteger(a.major, b.major);
    var minorComparison := CompareInteger(a.minor, b.minor);
    if majorComparison != 0 then majorComparison
    else if minorComparison != 0 then minorComparison
    else CompareInteger(a.patch, b.patch)
  }

  /** `CoreVersion.equals`: every component compares equal. */
  function Equals(a: CoreVersion, b: CoreVersion): (r: bool)
    ensures r <==> a == b
    ensures r <==> Compare(a, b) == 0
  {
    CompareInteger(a.major, b.major) == 0
    && CompareInteger(a.minor, b.minor) == 0
    && CompareInteger(a.patch, b.patch) == 0
  }

  /** `CoreVersion.getFormatted`: the three components in decimal, separated by dots. */
  function Format(c: CoreVersion): string
  {
    Decimal(c.major) + "." + Decimal(c.minor) + "." + Decimal(c.patch)
  }

  /** Swapping the arguments negates the comparison. */
  lemma CompareAntisymmetric(a: CoreVersion, b: CoreVersion)
    ensures Compare(a, b) == -Compare(b, a)
  {
  }

  /** The comparison is a strict total order on its negative results. */
  lemma CompareTransitive(a: CoreVersion, b: CoreVersion, c: CoreVersion)
    requires Compare(a, b) < 0 && Compare(b, c) < 0
    ensures Compare(a, c) < 0
  {
  }
}

=== FILE: java_lib.dfy ===
/**
  * The few library operations of `java.math.BigInteger` and `java.lang.String` that the
  * version model relies on: numeric comparison, decimal printing and reading, and the
  * lexicographic `String.compareTo`.
  */
module JavaLib {
  import opened Chars

  /** `BigInteger.compareTo`: -1, 0 or 1. */
  function CompareInteger(a: int, b: int): (r: int)
    ensures -1 <= r <= 1
    ensures r < 0 <==> a < b
    ensures r == 0 <==> a == b
  {
    if a < b then -1 else if a == b then 0 else 1
  }

  function DigitOf(d: nat): char
    requires d < 10
  {
    ('0' as int + d) as char
  }

  function ValueOf(ch: char): nat
    requires DigitChar(ch)
  {
    ch as int - '0' as int
  }

  predicate AllDigits(s: string) {
    forall i :: 0 <= i < |s| ==> DigitChar(s[i])
  }

  /** A decimal numeral without superfluous leading zeros: `0` or `[1-9][0-9]*`. */
  predicate Canonical(s: string) {
    && |s| > 0
    && AllDigits(s)
    && (s[0] == '0' ==> |s| == 1)
  }

  /** `BigInteger.toString()` of a non-negative value. */
  function Decimal(n: nat): (r: string)
    ensures Canonical(r)
    decreases n
  {
    if n < 10 then [DigitOf(n)] else Decimal(n / 10) + [DigitOf(n % 10)]
  }

  /** `new BigInteger(s)` for a string of decimal digits. */
  function DigitsValue(s: string): nat
    requires AllDigits(s)
  {
    if |s| == 0 then 0 else DigitsValue(s[..|s| - 1]) * 10 + ValueOf(s[|s| - 1])
  }

  /** Reading back a printed value gives the value. */
  lemma {:induction false} DigitsValueOfDecimal(n: nat)
    ensures DigitsValue(Decimal(n)) == n
    decreases n
  {
    if n >= 10 {
      var d := Decimal(n);
      assert d[..|d| - 1] == Decimal(n / 10);
      DigitsValueOfDecimal(n / 10);
    }
  }

  /** A numeral that does not start with `0` denotes a positive value. */
  lemma {:induction false} LeadingNonZeroIsPositive(s: string)
    requires |s| > 0 && AllDigits(s) && s[0] != '0'
    ensures DigitsValue(s) >= 1
    decreases |s|
  {
    if |s| > 1 {
      LeadingNonZeroIsPositive(s[..|s| - 1]);
    }
  }

  /** Printing a canonical numeral's value gives the numeral back. */
  lemma {:induction false} DecimalOfDigitsValue(s: string)
    requires Canonical(s)
    ensures Decimal(DigitsValue(s)) == s
    decreases |s|
  {
    if |s| > 1 {
      var p := s[..|s| - 1];
      assert Canonical(p);
      LeadingNonZeroIsPositive(p);
      DecimalOfDigitsValue(p);
      assert s == p + [s[|s| - 1]];
    }
  }

  /** Two canonical numerals are equal exactly when their values are. */
  lemma CanonicalDigitsInjective(s: string, t: string)
    requires Canonical(s) && Canonical(t)
    ensures DigitsValue(s) == DigitsValue(t) <==> s == t
  {
    if DigitsValue(s) == DigitsValue(t) {
      DecimalOfDigitsValue(s);
      DecimalOfDigitsValue(t);
    }
  }

  /**
    * `String.compareTo`: the difference of the first pair of differing characters, or
    * else the difference of the lengths.
    */
  function CompareStrings(a: string, b: string): int
  {
    if |a| == 0 || |b| == 0 then |a| - |b|
    else if a[0] != b[0] then a[0] as int - b[0] as int
    else CompareStrings(a[1..], b[1..])
  }

  /** `k` is where `a` and `b` first differ with `a` smaller, or `a` is a proper prefix of `b` of length `k`. */
  ghost predicate LexLessAt(a: string, b: string, k: int) {
    && 0 <= k <= |a| && k <= |b| && a[..k] == b[..k]
    && ((k == |a| && k < |b|) || (k < |a| && k < |b| && a[k] < b[k]))
  }

  /** Lexical order by character code, a proper prefix being smaller. */
  ghost predicate LexLess(a: string, b: string) {
    exists k :: LexLessAt(a, b, k)
  }

  /** `String.compareTo` is negative exactly for the lexical order, zero exactly for equal strings, and antisymmetric. */
  lemma {:induction false} CompareStringsSpec(a: string, b: string)
    ensures CompareStrings(a, b) < 0 <==> LexLess(a, b)
    ensures CompareStrings(a, b) == 0 <==> a == b
    ensures CompareStrings(a, b) == -CompareStrings(b, a)
    decreases |a|
  {
    if |a| == 0 || |b| == 0 {
      if |a| == 0 && |b| > 0 {
        assert LexLessAt(a, b, 0);
      }
      if LexLess(a, b) {
        var k :| LexLessAt(a, b, k);
      }
    } else if a[0] != b[0] {
      if a[0] < b[0] {
        assert LexLessAt(a, b, 0);
      }
      if LexLess(a, b) {
        var k :| LexLessAt(a, b, k);
      }
      assert a != b by { assert a[0] != b[0]; }
    } else {
      CompareStringsSpec(a[1..], b[1..]);
      LexLessTail(a, b);
      if a[1..] == b[1..] {
        assert a == [a[0]] + a[1..] && b == [b[0]] + b[1..];
      }
    }
  }

  /** With equal first characters, the lexical order is decided by the tails. */
  lemma LexLessTail(a: string, b: string)
    requires |a| > 0 && |b| > 0 && a[0] == b[0]
    ensures LexLess(a, b) <==> LexLess(a[1..], b[1..])
  {
    if LexLess(a, b) {
      var k :| LexLessAt(a, b, k);
      assert k != 0;
      assert a[1..][..k - 1] == a[..k][1..] && b[1..][..k - 1] == b[..k][1..];
      assert LexLessAt(a[1..], b[1..], k - 1);
    }
    if LexLess(a[1..], b[1..]) {
      var j :| LexLessAt(a[1..], b[1..], j);
      assert a[..j + 1] == [a[0]] + a[1..][..j];
      assert b[..j + 1] == [b[0]] + b[1..][..j];
      assert LexLessAt(a, b, j + 1);
    }
  }

  /** `String.compareTo` is transitive on its negative results. */
  lemma {:induction false} CompareStringsTransitive(a: string, b: string, c: string)
    requires CompareStrings(a, b) < 0 && CompareStrings(b, c) < 0
    ensures CompareStrings(a, c) < 0
    decreases |a|
  {
    if |a| > 0 && |b| > 0 && |c| > 0 && a[0] == b[0] && b[0] == c[0] {
      CompareStringsTransitive(a[1..], b[1..], c[1..]);
    }
  }
}

=== FILE: lookahead.dfy ===
/**
  * The lookahead character stream (`Lookahead.java` specialised to `LookaheadReader.java`).
  *
  * The reader is an in-memory string with a position counter; the stream keeps a buffer
  * of characters already fetched by a lookahead, a flag recording that `consume` saw the
  * end of the reader, and the end-of-input sentinel once it has been created.
  *
  * The reference view of the stream is `ItemAt(input, k)`: the k-th character tagged with
  * position k, or the sentinel `Char('\0', |input|)` past the end. The methods below are
  * proved to deliver exactly that view, which is what lets both parsers be written as pure
  * functions over a cursor into the input.
  */
module Lookahead {
  import opened Wrappers
  import opened Chars

  /** The character source: the input and the number of characters fetched so far. */
  datatype Reader = Reader(input: seq<char>, pos: nat)

  /** `LookaheadReader.fetch`: the next character tagged with its position, or `None` at the end. */
  function Fetch(r: Reader): (Option<Char>, Reader)
  {
    if r.pos < |r.input| then (Some(Char(r.input[r.pos], r.pos)), r.(pos := r.pos + 1))
    else (None, r)
  }

  /** `LookaheadReader.endOfInput`: the sentinel, positioned at the number of characters fetched. */
  function EndOfInput(r: Reader): Char
  {
    Char(EndOfInputValue, r.pos)
  }

  /** The k-th item of the stream over `input`: a tagged character, or the end-of-input sentinel. */
  function ItemAt(input: seq<char>, k: nat): Char
  {
    if k < |input| then Char(input[k], k) else Char(EndOfInputValue, |input|)
  }

  /** The cursor after `consume()`: one item further, or unchanged at the end of input. */
  function Advance(input: seq<char>, k: nat): (k': nat)
    requires k <= |input|
    ensures k' <= |input|
    ensures ItemAt(input, k') == ItemAt(input, k + 1)
  {
    if k < |input| then k + 1 else k
  }

  /** From position `pos` on, the input reads `t`. */
  ghost predicate SpellsAt(input: seq<char>, pos: nat, t: seq<char>) {
    pos + |t| <= |input| && forall i :: 0 <= i < |t| ==> input[pos + i] == t[i]
  }

  /** Reading `t` at `pos` is having `t` as the slice that starts there. */
  lemma SpellsAtSlice(input: seq<char>, pos: nat, t: seq<char>)
    ensures SpellsAt(input, pos, t) <==> pos + |t| <= |input| && input[pos..pos + |t|] == t
  {
    if pos + |t| <= |input| && input[pos..pos + |t|] == t {
      forall i | 0 <= i < |t|
        ensures input[pos + i] == t[i]
      {
        assert input[pos..pos + |t|][i] == input[pos + i];
      }
    }
  }

  /** Where the input reads `u + v`, it reads `u` and then `v`. */
  lemma SpellsAtSplit(input: seq<char>, pos: nat, u: seq<char>, v: seq<char>)
    requires SpellsAt(input, pos, u + v)
    ensures SpellsAt(input, pos, u) && SpellsAt(input, pos + |u|, v)
  {
    forall i | 0 <= i < |u|
      ensures input[pos + i] == u[i]
    {
      assert (u + v)[i] == u[i];
    }
    forall i | 0 <= i < |v|
      ensures input[pos + |u| + i] == v[i]
    {
      assert (u + v)[|u| + i] == v[i];
    }
  }

  /** Where the input reads `u` and then `v`, it reads `u + v`. */
  lemma SpellsAtConcat(input: seq<char>, pos: nat, u: seq<char>, v: seq<char>)
    requires SpellsAt(input, pos, u) && SpellsAt(input, pos + |u|, v)
    ensures SpellsAt(input, pos, u + v)
  {
    forall i | 0 <= i < |u| + |v|
      ensures input[pos + i] == (u + v)[i]
    {
      if i >= |u| {
        assert input[pos + |u| + (i - |u|)] == v[i - |u|];
      }
    }
  }

  /** A character and then `t` spell `[c] + t`. */
  lemma SpellsAtCons(input: seq<char>, pos: nat, c: char, t: seq<char>)
    requires pos < |input| && input[pos] == c && SpellsAt(input, pos + 1, t)
    ensures SpellsAt(input, pos, [c] + t)
  {
    SpellsAtConcat(input, pos, [c], t);
  }

  /** `u`, a separator `c` and `v` spell `u + [c] + v`. */
  lemma SpellsAtSeparated(input: seq<char>, pos: nat, u: seq<char>, c: char, v: seq<char>)
    requires SpellsAt(input, pos, u) && pos + |u| < |input| && input[pos + |u|] == c
    requires SpellsAt(input, pos + |u| + 1, v)
    ensures SpellsAt(input, pos, u + [c] + v)
  {
    SpellsAtConcat(input, pos, u, [c]);
    SpellsAtConcat(input, pos, u + [c], v);
  }

  /** Where the input reads `[c] + t`, it reads `c` and then `t`. */
  lemma SpellsAtConsParts(input: seq<char>, pos: nat, c: char, t: seq<char>)
    requires SpellsAt(input, pos, [c] + t)
    ensures pos < |input| && input[pos] == c && SpellsAt(input, pos + 1, t)
  {
    SpellsAtSplit(input, pos, [c], t);
    assert input[pos + 0] == [c][0];
  }

  /** Where the input reads `u + [c] + v`, it reads `u`, the separator `c`, and then `v`. */
  lemma SpellsAtSeparatedParts(input: seq<char>, pos: nat, u: seq<char>, c: char, v: seq<char>)
    requires SpellsAt(input, pos, u + [c] + v)
    ensures SpellsAt(input, pos, u) && pos + |u| < |input| && input[pos + |u|] == c
    ensures SpellsAt(input, pos + |u| + 1, v)
  {
    SpellsAtSplit(input, pos, u + [c], v);
    SpellsAtSplit(input, pos, u, [c]);
    assert input[pos + |u| + 0] == [c][0];
  }

  /** The input `u + v` reads `u` from its start and `v` from the end of `u`. */
  lemma SpellsAtJoined(input: seq<char>, u: seq<char>, v: seq<char>)
    requires input == u + v
    ensures SpellsAt(input, 0, u) && SpellsAt(input, |u|, v)
  {
    SpellsAtSlice(input, 0, input);
    SpellsAtSplit(input, 0, u, v);
  }

  /** Where the input reads `u`, it reads every piece `w` of `u`, shifted by `pos`. */
  lemma SpellsAtWithin(input: seq<char>, pos: nat, u: seq<char>, k: nat, w: seq<char>)
    requires SpellsAt(input, pos, u) && SpellsAt(u, k, w)
    ensures SpellsAt(input, pos + k, w)
  {
    forall i | 0 <= i < |w|
      ensures input[pos + k + i] == w[i]
    {
      assert input[pos + (k + i)] == u[k + i];
    }
  }

  /** The stream items over a spelled text are its characters, tagged with their positions. */
  lemma SpellsAtItem(input: seq<char>, pos: nat, t: seq<char>, i: nat)
    requires SpellsAt(input, pos, t) && i < |t|
    ensures ItemAt(input, pos + i) == Char(t[i], pos + i)
  {
  }

  datatype Stream = Stream(reader: Reader, buffer: seq<Char>, endReached: bool, endOfInput: Option<Char>)

  /** A fresh stream over `input`, as `new LookaheadReader(new StringReader(input))` builds it. */
  function NewStream(input: seq<char>): Stream
  {
    Stream(Reader(input, 0), [], false, None)
  }

  /** How many items have been removed from the front of the stream. */
  function Consumed(s: Stream): int
  {
    s.reader.pos - |s.buffer|
  }

  /** The buffer holds exactly the fetched-but-unconsumed characters, and the cached sentinel is the one at the end. */
  ghost predicate Valid(s: Stream)
  {
    && s.reader.pos <= |s.reader.input|
    && |s.buffer| <= s.reader.pos
    && (forall i :: 0 <= i < |s.buffer| ==> s.buffer[i] == ItemAt(s.reader.input, Consumed(s) + i))
    && (s.endReached ==> s.reader.pos == |s.reader.input|)
    && (s.endOfInput.Some? ==> s.endOfInput.value == Char(EndOfInputValue, |s.reader.input|))
  }

  lemma NewStreamValid(input: seq<char>)
    ensures Valid(NewStream(input)) && Consumed(NewStream(input)) == 0
  {
  }

  /**
    * `next(offset)`: the item `offset` places after the current one. Fetches into the buffer
    * as needed, and creates the sentinel (once) when the offset lies past the end.
    * A negative offset is a contract violation in the source, hence a precondition.
    */
  method Next(s: Stream, offset: int) returns (item: Char, s': Stream)
    requires Valid(s) && 0 <= offset
    ensures Valid(s') && s'.reader.input == s.reader.input
    ensures Consumed(s') == Consumed(s)
    ensures item == ItemAt(s.reader.input, Consumed(s) + offset)
    ensures s.endOfInput.Some? ==> s'.endOfInput == s.endOfInput
    ensures IsEndOfInput(item) && Consumed(s) + offset >= |s.reader.input| ==> s'.endOfInput == Some(item)
  {
    var input := s.reader.input;
    var reader := s.reader;
    var buffer := s.buffer;
    var endReached := false;
    while |buffer| <= offset && !endReached
      invariant reader.input == input && reader.pos <= |input|
      invariant |buffer| <= reader.pos
      invariant reader.pos - |buffer| == Consumed(s)
      invariant forall i :: 0 <= i < |buffer| ==> buffer[i] == ItemAt(input, Consumed(s) + i)
      invariant endReached ==> reader.pos == |input|
      decreases |input| - reader.pos, !endReached
    {
      var (fetched, reader') := Fetch(reader);
      if fetched.Some? {
        buffer := buffer + [fetched.value];
        reader := reader';
      } else {
        endReached := true;
      }
    }
    var endOfInput := s.endOfInput;
    if offset >= |buffer| {
      if endOfInput.None? {
        endOfInput := Some(EndOfInput(reader));
      }
      item := endOfInput.value;
    } else {
      item := buffer[offset];
    }
    s' := Stream(reader, buffer, s.endReached, endOfInput);
  }

  /** `current()`: the item at offset 0. */
  method Current(s: Stream) returns (item: Char, s': Stream)
    requires Valid(s)
    ensures Valid(s') && s'.reader.input == s.reader.input && Consumed(s') == Consumed(s)
    ensures item == ItemAt(s.reader.input, Consumed(s))
  {
    item, s' := Next(s, 0);
  }

  /**
    * `consume(n)`: removes up to `n` items; consuming at the end of input is a silent no-op.
    * A negative count is a contract violation in the source, hence a precondition.
    */
  method Consume(s: Stream, numberOfItems: int) returns (s': Stream)
    requires Valid(s) && 0 <= numberOfItems
    ensures Valid(s') && s'.reader.input == s.reader.input
    ensures Consumed(s') == Min(Consumed(s) + numberOfItems, |s.reader.input|)
    ensures s'.endOfInput == s.endOfInput
  {
    var input := s.reader.input;
    var items := numberOfItems;
    var reader := s.reader;
    var buffer := s.buffer;
    var endReached := s.endReached;
    while items > 0
      invariant Valid(Stream(reader, buffer, endReached, s.endOfInput)) && reader.input == input
      invariant 0 <= items <= numberOfItems
      invariant reader.pos - |buffer| == Min(Consumed(s) + (numberOfItems - items), |input|)
      decreases items
    {
      items := items - 1;
      if |buffer| > 0 {
        buffer := buffer[1..];
      } else {
        if endReached {
          return Stream(reader, buffer, endReached, s.endOfInput);
        }
        var (fetched, reader') := Fetch(reader);
        reader := reader';
        if fetched.None? {
          endReached := true;
        }
      }
    }
    s' := Stream(reader, buffer, endReached, s.endOfInput);
  }

  /**
    * `consume()`: returns the current item and advances by one; afterwards the current
    * item is the one `next()` returned before.
    */
  method ConsumeOne(s: Stream) returns (item: Char, s': Stream)
    requires Valid(s)
    ensures Valid(s') && s'.reader.input == s.reader.input
    ensures item == ItemAt(s.reader.input, Consumed(s))
    ensures Consumed(s') == Min(Consumed(s) + 1, |s.reader.input|)
    ensures ItemAt(s.reader.input, Consumed(s')) == ItemAt(s.reader.input, Consumed(s) + 1)
  {
    var s1;
    item, s1 := Next(s, 0);
    s' := Consume(s1, 1);
  }

  function Min(a: int, b: int): int
  {
    if a < b then a else b
  }

  /**
    * Fetching repeatedly from a fresh reader yields every input character in order, tagged
    * with positions 0, 1, 2, ..., and then `None`, again and again.
    */
  method FetchAll(input: seq<char>) returns (fetched: seq<Char>, reader: Reader)
    ensures |fetched| == |input|
    ensures forall i :: 0 <= i < |input| ==> fetched[i] == Char(input[i], i)
    ensures Fetch(reader).0 == None && Fetch(Fetch(reader).1).0 == None
    ensures EndOfInput(reader) == Char(EndOfInputValue, |input|)
  {
    reader := Reader(input, 0);
    fetched := [];
    var done := false;
    while !done
      invariant reader.input == input && reader.pos <= |input|
      invariant |fetched| == reader.pos
      invariant forall i :: 0 <= i < |fetched| ==> fetched[i] == Char(input[i], i)
      invariant done ==> reader.pos == |input|
      decreases |input| - reader.pos, !done
    {
      var (next, reader') := Fetch(reader);
      if next.Some? {
        fetched := fetched + [next.value];
        reader := reader';
      } else {
        done := true;
      }
    }
  }

  /**
    * Consuming a fresh stream item by item returns every input character in order, and
    * then the end-of-input sentinel.
    */
  method ConsumeAll(input: seq<char>) returns (items: seq<Char>, last: Char)
    ensures |items| == |input|
    ensures forall i :: 0 <= i < |input| ==> items[i] == Char(input[i], i)
    ensures last == Char(EndOfInputValue, |input|)
  {
    var s := NewStream(input);
    items := [];
    while |items| < |input|
      invariant Valid(s) && s.reader.input == input
      invariant Consumed(s) == |items| <= |input|
      invariant forall i :: 0 <= i < |items| ==> items[i] == Char(input[i], i)
    {
      var item;
      item, s := ConsumeOne(s);
      items := items + [item];
    }
    last, s := ConsumeOne(s);
  }

  /**
    * Walking a fresh stream with `next()` then `consume()`: `next()` is always one item ahead
    * of `current()`, and once the last character is current `next()` is the sentinel.
    */
  method WalkWithNext(input: seq<char>) returns (nexts: seq<Char>, finalNext: Char)
    requires |input| > 0
    ensures |nexts| == |input| - 1
    ensures forall i :: 0 <= i < |nexts| ==> nexts[i] == Char(input[i + 1], i + 1)
    ensures IsEndOfInput(finalNext) && finalNext.pos == |input|
  {
    var s := NewStream(input);
    nexts := [];
    while |nexts| < |input| - 1
      invariant Valid(s) && s.reader.input == input
      invariant Consumed(s) == |nexts| <= |input| - 1
      invariant forall i :: 0 <= i < |nexts| ==> nexts[i] == Char(input[i + 1], i + 1)
    {
      var item;
      item, s := Next(s, 1);
      nexts := nexts + [item];
      s := Consume(s, 1);
    }
    finalNext, s := Next(s, 1);
  }
}

=== FILE: parse_errors.dfy ===
/**
  * The outcome of a parse: the value and the cursor after it, or the error a
  * `ParseException` carries (what went wrong, the column of the offending character,
  * and, for a version embedded in a range, the error it was re-positioned from).
  */
module ParseErrors {
  import opened Wrappers

  datatype ErrorKind =
    | NumericExpected
    | LeadingZero
    | AlphaNumericExpected
    | PeriodAfterPeriod
    | EndAfterPeriod
    | CharacterExpected(expected: char)
    | TrailingCharacter
    | UnexpectedEnd
    | CloseExpected
    | EndExpected

  /** `column` is the zero-based position of the offending character, or the input length at end of input. */
  datatype ParseError = ParseError(kind: ErrorKind, column: nat, cause: Option<ParseError>)

  /** An error raised directly by a parser, with no underlying cause. */
  function Error(kind: ErrorKind, column: nat): ParseError
  {
    ParseError(kind, column, None)
  }

  /** A parsed value and the cursor just after it. */
  datatype Parsed<+T> = Parsed(value: T, next: nat)

  type Outcome<T> = Result<Parsed<T>, ParseError>
}

=== FILE: pre_release.dfy ===
/**
  * Pre-release identifiers and the pre-release identifier list
  * (`PreReleaseIdentifier.java`, `PreRelease.java`).
  */
module PreReleases {
  import opened Chars
  import opened JavaLib

  /** The two permitted identifier kinds: a number, or a string over `[0-9A-Za-z-]`. */
  datatype Identifier = Numeric(number: nat) | AlphaNumeric(text: string)

  /** `asString` / `getFormatted`: the number in decimal, or the text verbatim. */
  function FormatIdentifier(id: Identifier): string
  {
    match id
    case Numeric(n) => Decimal(n)
    case AlphaNumeric(t) => t
  }

  /** `equals` of the two identifier classes: the same class and an equal value. */
  function IdentifierEquals(a: Identifier, b: Identifier): (r: bool)
    ensures r <==> a == b
    ensures r <==> CompareIdentifiers(a, b) == 0
  {
    match a
    case Numeric(n) => b.Numeric? && CompareInteger(n, b.number) == 0
    case AlphaNumeric(t) => b.AlphaNumeric? && t == b.text
  }

  /** Every character is in the identifier alphabet `[0-9A-Za-z-]`. */
  predicate IdentifierChars(t: string) {
    forall i :: 0 <= i < |t| ==> AlphaNumericChar(t[i])
  }

  /** Some character is a letter or `-`: the text cannot be read as a number. */
  predicate HasNonDigit(t: string)
    decreases |t|
  {
    |t| > 0 && (LetterChar(t[0]) || t[0] == '-' || HasNonDigit(t[1..]))
  }

  /** A string of digits has no letter and no `-`. */
  lemma {:induction false} AllDigitsHasNoNonDigit(t: string)
    requires AllDigits(t)
    ensures !HasNonDigit(t)
    decreases |t|
  {
    if |t| > 0 {
      assert AllDigits(t[1..]) by {
        forall i | 0 <= i < |t[1..]|
          ensures DigitChar(t[1..][i])
        {
          assert t[1..][i] == t[i + 1];
        }
      }
      AllDigitsHasNoNonDigit(t[1..]);
    }
  }

  /**
    * Item 9 of Semantic Versioning 2.0.0: an identifier is non-empty, drawn from
    * `[0-9A-Za-z-]`, and has no leading zero when it is numeric.
    */
  predicate IdentifierText(t: string) {
    && |t| > 0
    && IdentifierChars(t)
    && (HasNonDigit(t) || Canonical(t))
  }

  /** An identifier the parser can produce: valid text, and alphanumeric exactly when that text is not all digits. */
  predicate ValidIdentifier(id: Identifier) {
    && IdentifierText(FormatIdentifier(id))
    && (id.AlphaNumeric? <==> HasNonDigit(FormatIdentifier(id)))
  }

  /** Every number is a valid numeric identifier. */
  lemma NumericIdentifierValid(n: nat)
    ensures ValidIdentifier(Numeric(n))
  {
    AllDigitsHasNoNonDigit(Decimal(n));
  }

  /** Valid identifiers are told apart by their formatted text. */
  lemma FormatIdentifierInjective(a: Identifier, b: Identifier)
    requires ValidIdentifier(a) && ValidIdentifier(b)
    requires FormatIdentifier(a) == FormatIdentifier(b)
    ensures a == b
  {
    if a.Numeric? && b.Numeric? {
      DigitsValueOfDecimal(a.number);
      DigitsValueOfDecimal(b.number);
    }
  }

  /**
    * Items 11.4.1 to 11.4.3 of Semantic Versioning 2.0.0: numbers compare numerically,
    * texts lexically by character code, and every number is below every text.
    */
  ghost predicate IdentifierPrecedes(a: Identifier, b: Identifier) {
    || (a.Numeric? && b.Numeric? && a.number < b.number)
    || (a.Numeric? && b.AlphaNumeric?)
    || (a.AlphaNumeric? && b.AlphaNumeric? && LexLess(a.text, b.text))
  }

  /** `PreReleaseIdentifier.compareTo`. */
  function CompareIdentifiers(a: Identifier, b: Identifier): (r: int)
    ensures r < 0 <==> IdentifierPrecedes(a, b)
    ensures r == 0 <==> a == b
    ensures r > 0 <==> IdentifierPrecedes(b, a)
  {
    if a.AlphaNumeric? && b.AlphaNumeric? then
      CompareStringsSpec(a.text, b.text);
      CompareStringsSpec(b.text, a.text);
      CompareStrings(a.text, b.text)
    else if a.Numeric? then
      if b.Numeric? then CompareInteger(a.number, b.number) else -1
    else 1
  }

  /** Swapping the arguments negates the identifier comparison. */
  lemma CompareIdentifiersAntisymmetric(a: Identifier, b: Identifier)
    ensures CompareIdentifiers(a, b) == -CompareIdentifiers(b, a)
  {
    if a.AlphaNumeric? && b.AlphaNumeric? {
      CompareStringsSpec(a.text, b.text);
    }
  }

  lemma CompareIdentifiersTransitive(a: Identifier, b: Identifier, c: Identifier)
    requires CompareIdentifiers(a, b) < 0 && CompareIdentifiers(b, c) < 0
    ensures CompareIdentifiers(a, c) < 0
  {
    if a.AlphaNumeric? && b.AlphaNumeric? && c.AlphaNumeric? {
      CompareStringsTransitive(a.text, b.text, c.text);
    }
  }

  /** The dot-separated identifier list after the `-` of a version; empty means "no pre-release". */
  datatype PreRelease = PreRelease(identifiers: seq<Identifier>)

  /** `PreRelease.NULL` */
  const Null: PreRelease := PreRelease([])

  /** Every identifier is one the parser can produce. */
  predicate Valid(p: PreRelease) {
    ValidIdentifiers(p.identifiers)
  }

  predicate ValidIdentifiers(ids: seq<Identifier>)
    decreases |ids|
  {
    |ids| == 0 || (ValidIdentifier(ids[0]) && ValidIdentifiers(ids[1..]))
  }

  lemma ValidCons(id: Identifier, ids: seq<Identifier>)
    requires ValidIdentifier(id) && ValidIdentifiers(ids)
    ensures ValidIdentifiers([id] + ids)
  {
    assert ([id] + ids)[1..] == ids;
  }

  /** `PreRelease.equals`: `List.equals` over the identifiers, element by element. */
  function Equals(a: PreRelease, b: PreRelease): (r: bool)
    ensures r <==> a == b
    ensures r <==> Compare(a, b) == 0
  {
    CompareSpec(a, b);
    && |a.identifiers| == |b.identifiers|
    && forall i :: 0 <= i < |a.identifiers| ==> IdentifierEquals(a.identifiers[i], b.identifiers[i])
  }

  /**
    * `PreRelease.compareTo`: the empty list is above every non-empty one; otherwise the
    * first unequal identifier pair decides, and a proper prefix is below the longer list.
    */
  function Compare(a: PreRelease, b: PreRelease): int
  {
    if |a.identifiers| == 0 then
      if |b.identifiers| == 0 then 0 else 1
    else if |b.identifiers| == 0 then -1
    else CompareFrom(a.identifiers, b.identifiers, 0)
  }

  /** The `do ... while (comparison == 0)` loop of `PreRelease.compareTo`, from index `i` on. */
  function CompareFrom(a: seq<Identifier>, b: seq<Identifier>, i: nat): int
    decreases |a| - i
  {
    if |a| <= i then
      if |b| <= i then 0 else -1
    else if |b| <= i then 1
    else
      var comparison := CompareIdentifiers(a[i], b[i]);
      if comparison != 0 then comparison else CompareFrom(a, b, i + 1)
  }

  /** `k` is where the lists first differ with `a` smaller, or `a` is a proper prefix of `b` of length `k`. */
  ghost predicate ListPrecedesAt(a: seq<Identifier>, b: seq<Identifier>, k: int) {
    && 0 <= k <= |a| && k <= |b| && a[..k] == b[..k]
    && ((k == |a| && k < |b|) || (k < |a| && k < |b| && IdentifierPrecedes(a[k], b[k])))
  }

  /**
    * Item 11.3 and 11.4 of Semantic Versioning 2.0.0: a pre-release is below the release
    * (the empty list), and two pre-releases compare identifier by identifier, a longer list
    * being above its own prefix.
    */
  ghost predicate Precedes(a: PreRelease, b: PreRelease) {
    && |a.identifiers| > 0
    && (|b.identifiers| == 0 || exists k :: ListPrecedesAt(a.identifiers, b.identifiers, k))
  }

  /** The loop from index `i` decides the list order of two lists that agree below `i`. */
  lemma {:induction false} CompareFromSpec(a: seq<Identifier>, b: seq<Identifier>, i: nat)
    requires i <= |a| && i <= |b| && a[..i] == b[..i]
    ensures CompareFrom(a, b, i) < 0 <==> exists k :: ListPrecedesAt(a, b, k)
    ensures CompareFrom(a, b, i) == 0 <==> a == b
    ensures CompareFrom(a, b, i) == -CompareFrom(b, a, i)
    decreases |a| - i
  {
    if |a| <= i || |b| <= i {
      if |a| == i && i < |b| {
        assert ListPrecedesAt(a, b, i);
      }
      if exists k :: ListPrecedesAt(a, b, k) {
        var k :| ListPrecedesAt(a, b, k);
        AgreeingPrefixes(a, b, i, k);
      }
      if a == b {
        assert |a| == |b|;
      }
      if |a| == |b| {
        assert a == a[..i] && b == b[..i];
      }
    } else {
      var comparison := CompareIdentifiers(a[i], b[i]);
      CompareIdentifiersAntisymmetric(a[i], b[i]);
      if comparison != 0 {
        if comparison < 0 {
          assert ListPrecedesAt(a, b, i);
        }
        if exists k :: ListPrecedesAt(a, b, k) {
          var k :| ListPrecedesAt(a, b, k);
          AgreeingPrefixes(a, b, i, k);
        }
      } else {
        assert a[..i + 1] == a[..i] + [a[i]];
        assert b[..i + 1] == b[..i] + [b[i]];
        CompareFromSpec(a, b, i + 1);
        if exists k :: ListPrecedesAt(a, b, k) {
          var k :| ListPrecedesAt(a, b, k);
          AgreeingPrefixes(a, b, i, k);
        }
      }
    }
  }

  /** A witness of the list order cannot lie below an index up to which the lists agree. */
  lemma AgreeingPrefixes(a: seq<Identifier>, b: seq<Identifier>, i: nat, k: int)
    requires i <= |a| && i <= |b| && a[..i] == b[..i]
    requires ListPrecedesAt(a, b, k)
    ensures k >= i
  {
    if k < i {
      assert a[k] == a[..i][k] == b[..i][k] == b[k];
      CompareIdentifiersIrreflexive(a[k]);
    }
  }

  lemma CompareIdentifiersIrreflexive(a: Identifier)
    ensures !IdentifierPrecedes(a, a)
  {
    assert CompareIdentifiers(a, a) == 0;
  }

  /** `PreRelease.compareTo` is negative exactly for the SemVer order, zero exactly for equal lists, and antisymmetric. */
  lemma CompareSpec(a: PreRelease, b: PreRelease)
    ensures Compare(a, b) < 0 <==> Precedes(a, b)
    ensures Compare(a, b) == 0 <==> a == b
    ensures Compare(a, b) == -Compare(b, a)
  {
    if |a.identifiers| > 0 && |b.identifiers| > 0 {
      CompareFromSpec(a.identifiers, b.identifiers, 0);
    }
  }

  /** The loop from index `i` is transitive on its negative results. */
  lemma {:induction false} CompareFromTransitive(a: seq<Identifier>, b: seq<Identifier>, c: seq<Identifier>, i: nat)
    requires CompareFrom(a, b, i) < 0 && CompareFrom(b, c, i) < 0
    ensures CompareFrom(a, c, i) < 0
    decreases |a| - i
  {
    if i < |a| && i < |b| && i < |c| {
      var ab := CompareIdentifiers(a[i], b[i]);
      var bc := CompareIdentifiers(b[i], c[i]);
      if ab < 0 && bc < 0 {
        CompareIdentifiersTransitive(a[i], b[i], c[i]);
      } else if ab == 0 && bc == 0 {
        CompareFromTransitive(a, b, c, i + 1);
      }
    }
  }

  lemma CompareTransitive(a: PreRelease, b: PreRelease, c: PreRelease)
    requires Compare(a, b) < 0 && Compare(b, c) < 0
    ensures Compare(a, c) < 0
  {
    if |a.identifiers| > 0 && |b.identifiers| > 0 && |c.identifiers| > 0 {
      CompareFromTransitive(a.identifiers, b.identifiers, c.identifiers, 0);
    }
  }

  /** The identifiers formatted and joined with dots. */
  function JoinIdentifiers(ids: seq<Identifier>): string
  {
    if |ids| == 0 then ""
    else if |ids| == 1 then FormatIdentifier(ids[0])
    else FormatIdentifier(ids[0]) + "." + JoinIdentifiers(ids[1..])
  }

  /** Joining a longer list puts the first identifier and a dot before the rest. */
  lemma JoinCons(id: Identifier, rest: seq<Identifier>)
    requires |rest| > 0
    ensures JoinIdentifiers([id] + rest) == FormatIdentifier(id) + "." + JoinIdentifiers(rest)
  {
    assert ([id] + rest)[1..] == rest;
  }

  /** `PreRelease.getFormatted`: `""` when empty, otherwise `-` and the dot-joined identifiers. */
  function Format(p: PreRelease): string
  {
    if |p.identifiers| == 0 then "" else "-" + JoinIdentifiers(p.identifiers)
  }

  /** The builder loop of `getFormatted`: append `.` and each further identifier to `prefix`. */
  function AppendDotted(prefix: string, ids: seq<Identifier>): string
    decreases |ids|
  {
    if |ids| == 0 then prefix else AppendDotted(prefix + "." + FormatIdentifier(ids[0]), ids[1..])
  }

  /** The builder loop, started on `prefix` and a first identifier, leaves `prefix` and the dot-joined list. */
  lemma {:induction false} AppendDottedJoins(prefix: string, id: Identifier, ids: seq<Identifier>)
    ensures AppendDotted(prefix + FormatIdentifier(id), ids) == prefix + JoinIdentifiers([id] + ids)
    decreases |ids|
  {
    if |ids| == 0 {
      assert [id] + ids == [id];
    } else {
      var next := prefix + FormatIdentifier(id) + ".";
      AppendDottedJoins(next, ids[0], ids[1..]);
      assert [ids[0]] + ids[1..] == ids;
      JoinCons(id, ids);
    }
  }

  /**
    * `getFormatted` as the source builds it: `""` for no identifiers; otherwise `-` and
    * the first identifier, then `.` and each further identifier in order.
    */
  lemma FormatIsBuilderLoop(p: PreRelease)
    ensures |p.identifiers| == 0 ==> Format(p) == ""
    ensures |p.identifiers| > 0 ==> Format(p) == AppendDotted("-" + FormatIdentifier(p.identifiers[0]), p.identifiers[1..])
  {
    if |p.identifiers| > 0 {
      var ids := p.identifiers;
      AppendDottedJoins("-", ids[0], ids[1..]);
      assert [ids[0]] + ids[1..] == ids;
    }
  }
}

=== FILE: version.dfy ===
/** A complete version: core triple, pre-release and build metadata (`Version.java`). */
module Versions {
  import CoreVersions
  import PreReleases
  import BuildMetadatas

  datatype Version = Version(
    core: CoreVersions.CoreVersion,
    preRelease: PreReleases.PreRelease,
    buildMetadata: BuildMetadatas.BuildMetadata)

  /** `Versions.getVersion(major, minor, patch)`: a release with no pre-release and no build metadata. */
  function Release(major: nat, minor: nat, patch: nat): Version
  {
    Version(CoreVersions.CoreVersion(major, minor, patch), PreReleases.Null, BuildMetadatas.Null)
  }

  /** `getMajor`, `getMinor`, `getPatch`: the components of the core. */
  function Major(v: Version): nat
  {
    v.core.major
  }

  function Minor(v: Version): nat
  {
    v.core.minor
  }

  function Patch(v: Version): nat
  {
    v.core.patch
  }

  /** A version the parser can produce: valid pre-release identifiers and valid build metadata. */
  predicate Valid(v: Version) {
    PreReleases.Valid(v.preRelease) && BuildMetadatas.Valid(v.buildMetadata)
  }

  /** `Version.equals`: core, pre-release and build metadata all equal. */
  function Equals(a: Version, b: Version): (r: bool)
    ensures r <==> a == b
    ensures r ==> Compare(a, b) == 0
  {
    && CoreVersions.Equals(a.core, b.core)
    && PreReleases.Equals(a.preRelease, b.preRelease)
    && BuildMetadatas.Equals(a.buildMetadata, b.buildMetadata)
  }

  /**
    * Item 11 of Semantic Versioning 2.0.0: the core triple decides first, the pre-release
    * breaks ties, and build metadata takes no part.
    */
  ghost predicate Precedes(a: Version, b: Version) {
    || CoreVersions.Less(a.core, b.core)
    || (a.core == b.core && PreReleases.Precedes(a.preRelease, b.preRelease))
  }

  /** `Version.compareTo`: the core comparison, or the pre-release comparison when the cores are equal. */
  function Compare(a: Version, b: Version): int
  {
    var coreComparison := CoreVersions.Compare(a.core, b.core);
    if coreComparison != 0 then coreComparison else PreReleases.Compare(a.preRelease, b.preRelease)
  }

  /** `Version.getFormatted`: core, then pre-release, then build metadata, each in its own format. */
  function Format(v: Version): string
  {
    CoreVersions.Format(v.core) + PreReleases.Format(v.preRelease) + BuildMetadatas.Format(v.buildMetadata)
  }

  /**
    * `compareTo` is negative exactly for the SemVer precedence, zero exactly when core and
    * pre-release agree (whatever the build metadata), and antisymmetric.
    */
  lemma CompareSpec(a: Version, b: Version)
    ensures Compare(a, b) < 0 <==> Precedes(a, b)
    ensures Compare(a, b) == 0 <==> a.core == b.core && a.preRelease == b.preRelease
    ensures Compare(a, b) == -Compare(b, a)
  {
    CoreVersions.CompareAntisymmetric(a.core, b.core);
    PreReleases.CompareSpec(a.preRelease, b.preRelease);
  }

  /** Build metadata never affects the comparison. */
  lemma CompareIgnoresBuildMetadata(a: Version, b: Version, x: BuildMetadatas.BuildMetadata, y: BuildMetadatas.BuildMetadata)
    ensures Compare(a.(buildMetadata := x), b.(buildMetadata := y)) == Compare(a, b)
  {
  }

  /**
    * `equals` includes build metadata and `compareTo` does not: any two versions that
    * differ only in build metadata compare as 0 and are not equal.
    */
  lemma CompareZeroDoesNotImplyEquals(a: Version, b: Version)
    requires a.core == b.core && a.preRelease == b.preRelease && a.buildMetadata != b.buildMetadata
    ensures Compare(a, b) == 0 && !Equals(a, b)
  {
    PreReleases.CompareSpec(a.preRelease, b.preRelease);
  }

  /** The comparison is a strict order: transitive on negative results. */
  lemma CompareTransitive(a: Version, b: Version, c: Version)
    requires Compare(a, b) < 0 && Compare(b, c) < 0
    ensures Compare(a, c) < 0
  {
    PreReleases.CompareSpec(a.preRelease, b.preRelease);
    PreReleases.CompareSpec(b.preRelease, c.preRelease);
    if a.core == b.core && b.core == c.core {
      PreReleases.CompareTransitive(a.preRelease, b.preRelease, c.preRelease);
    }
  }

  /** ... and a total preorder: reflexive, total, and transitive on non-positive results. */
  lemma CompareTotalPreorder(a: Version, b: Version, c: Version)
    ensures Compare(a, a) == 0
    ensures Compare(a, b) <= 0 || Compare(b, a) <= 0
    ensures Compare(a, b) <= 0 && Compare(b, c) <= 0 ==> Compare(a, c) <= 0
  {
    CompareSpec(a, a);
    CompareSpec(a, b);
    CompareSpec(b, c);
    CompareSpec(a, c);
    if Compare(a, b) < 0 && Compare(b, c) < 0 {
      CompareTransitive(a, b, c);
    }
  }

  /** A release outranks every pre-release of the same core, and is outranked by every higher core. */
  lemma ReleaseOutranksPreRelease(v: Version, higher: CoreVersions.CoreVersion)
    requires |v.preRelease.identifiers| > 0 && CoreVersions.Less(v.core, higher)
    ensures Compare(v, v.(preRelease := PreReleases.Null)) < 0
    ensures Compare(v.(preRelease := PreReleases.Null), Version(higher, v.preRelease, v.buildMetadata)) < 0
  {
  }
}

=== FILE: version_errors.dfy ===
/**
  * Where `parse` of `VersionParser.java` fails. The parser stops at the first stage that
  * fails and reports that stage's error, whose column `VersionParser.ErrorAt` relates to
  * the input; once the core and the optional parts are read, any character but the end
  * of input is a trailing character at its own column.
  */
module VersionErrors {
  import opened Wrappers
  import opened Chars
  import opened Lookahead
  import opened ParseErrors
  import opened VersionParser
  import CoreVersions
  import PreReleases
  import BuildMetadatas
  import Versions
  import VersionRoundTrip

  /** `parse` on a core and optional parts read up to `e`, followed by a character other than the end of input. */
  lemma TrailingCharacterSteps(s: string, v: Versions.Version, a: nat, b: nat, e: nat)
    requires a <= b <= e <= |s|
    requires ParseCore(s, 0) == Success(Parsed(v.core, a))
    requires ParsePreReleasePart(s, a) == Success(Parsed(v.preRelease, b))
    requires ParseBuildMetadataPart(s, b) == Success(Parsed(v.buildMetadata, e))
    requires !IsEndOfInput(ItemAt(s, e))
    ensures Parse(s) == Failure(Error(TrailingCharacter, e))
  {
  }

  /**
    * A character that cannot continue the formatted text of `v`, because the last part
    * of `v` stops before it and no later part starts with it: after build metadata,
    * anything outside `[0-9A-Za-z-.]`; after a pre-release, anything outside
    * `[0-9A-Za-z-.]` but `+`; after a bare core, anything but a digit, `-` and `+`.
    */
  predicate CannotFollow(v: Versions.Version, c: char) {
    && c != EndOfInputValue
    && if v.buildMetadata != BuildMetadatas.Null then !AlphaNumericChar(c) && c != '.'
       else if v.preRelease != PreReleases.Null then !AlphaNumericChar(c) && c != '.' && c != '+'
       else !DigitChar(c) && c != '-' && c != '+'
  }

  /** Formatted valid build metadata, followed by neither `[0-9A-Za-z-]` nor a dot, is read back. */
  lemma ParseBuildMetadataPartBefore(s: string, pos: nat, b: BuildMetadatas.BuildMetadata)
    requires BuildMetadatas.Valid(b) && b != BuildMetadatas.Null && SpellsAt(s, pos, BuildMetadatas.Format(b))
    requires var e := pos + |BuildMetadatas.Format(b)|; !IsAlphaNumeric(ItemAt(s, e)) && !Is(ItemAt(s, e), '.')
    ensures ParseBuildMetadataPart(s, pos) == Success(Parsed(b, pos + |BuildMetadatas.Format(b)|))
  {
    SpellsAtConsParts(s, pos, '+', b.text);
    VersionRoundTrip.ParseBuildMetadataOf(s, pos + 1, b.text);
  }

  /** The core of a valid version, followed by its other parts and then `c`, is read up to its end. */
  lemma CoreBefore(s: string, v: Versions.Version, c: char)
    requires CannotFollow(v, c)
    requires var f := CoreVersions.Format(v.core) + PreReleases.Format(v.preRelease) + BuildMetadatas.Format(v.buildMetadata);
             SpellsAt(s, 0, f) && |f| < |s| && s[|f|] == c
    ensures ParseCore(s, 0) == Success(Parsed(v.core, |CoreVersions.Format(v.core)|))
  {
    var c1, p, b := CoreVersions.Format(v.core), PreReleases.Format(v.preRelease), BuildMetadatas.Format(v.buildMetadata);
    VersionRoundTrip.VersionParts(s, c1, p, b);
    BuildMetadatas.FormatSpec(v.buildMetadata);
    if |p| > 0 {
      SpellsAtItem(s, |c1|, p, 0);
    } else if |b| > 0 {
      SpellsAtItem(s, |c1| + |p|, b, 0);
    }
    VersionRoundTrip.ParseCoreOf(s, 0, v.core);
  }

  /** The pre-release of a valid version, followed by its build metadata and then `c`, is read up to its end. */
  lemma PreReleaseBefore(s: string, v: Versions.Version, c: char, a: nat)
    requires Versions.Valid(v) && CannotFollow(v, c) && a == |CoreVersions.Format(v.core)|
    requires var f := PreReleases.Format(v.preRelease) + BuildMetadatas.Format(v.buildMetadata);
             SpellsAt(s, a, f) && a + |f| < |s| && s[a + |f|] == c
    ensures ParsePreReleasePart(s, a) == Success(Parsed(v.preRelease, a + |PreReleases.Format(v.preRelease)|))
  {
    var p, b := PreReleases.Format(v.preRelease), BuildMetadatas.Format(v.buildMetadata);
    var k := a + |p|;
    assert SpellsAt(s, a, p) && k < |s| && s[k] == (if |b| > 0 then '+' else c) && (|b| > 0 <==> v.buildMetadata != BuildMetadatas.Null) by {
      SpellsAtSplit(s, a, p, b);
      BuildMetadatas.FormatSpec(v.buildMetadata);
      if |b| > 0 {
        SpellsAtItem(s, k, b, 0);
      }
    }
    assert PreReleases.Valid(v.preRelease);
    assert v.preRelease != PreReleases.Null ==> !AlphaNumericChar(s[k]) && s[k] != '.';
    assert v.preRelease == PreReleases.Null ==> s[k] != '-';
    PreReleasePartEndsAt(s, a, v.preRelease, a + |PreReleases.Format(v.preRelease)|);
  }

  /** A formatted valid pre-release at `a`, up to a character at `k` that ends it, or that does not start one when it is `NULL`. */
  lemma PreReleasePartEndsAt(s: string, a: nat, p: PreReleases.PreRelease, k: nat)
    requires PreReleases.Valid(p) && SpellsAt(s, a, PreReleases.Format(p)) && k == a + |PreReleases.Format(p)| && k < |s|
    requires p != PreReleases.Null ==> !AlphaNumericChar(s[k]) && s[k] != '.'
    requires p == PreReleases.Null ==> s[k] != '-'
    ensures ParsePreReleasePart(s, a) == Success(Parsed(p, k))
  {
    if p != PreReleases.Null {
      VersionRoundTrip.ParsePreReleasePartOf(s, a, p);
    }
  }

  /** The build metadata of a valid version, followed by `c`, is read up to its end. */
  lemma BuildMetadataBefore(s: string, v: Versions.Version, c: char, b: nat)
    requires Versions.Valid(v) && CannotFollow(v, c)
    requires var f := BuildMetadatas.Format(v.buildMetadata);
             SpellsAt(s, b, f) && b + |f| < |s| && s[b + |f|] == c
    ensures ParseBuildMetadataPart(s, b) == Success(Parsed(v.buildMetadata, b + |BuildMetadatas.Format(v.buildMetadata)|))
  {
    BuildMetadatas.FormatSpec(v.buildMetadata);
    if v.buildMetadata != BuildMetadatas.Null {
      ParseBuildMetadataPartBefore(s, b, v.buildMetadata);
    }
  }

  /** A valid version spelled from the start, followed by a character `x` that cannot continue it at `e`. */
  lemma TrailingAt(s: string, v: Versions.Version, x: char, e: nat)
    requires Versions.Valid(v) && CannotFollow(v, x)
    requires SpellsAt(s, 0, Versions.Format(v)) && e == |Versions.Format(v)| && e < |s| && s[e] == x
    ensures Parse(s) == Failure(Error(TrailingCharacter, e))
  {
    assert |Versions.Format(v)| == |CoreVersions.Format(v.core)| + |PreReleases.Format(v.preRelease)| + |BuildMetadatas.Format(v.buildMetadata)|;
    assert !IsEndOfInput(ItemAt(s, e)) by {
      assert x != EndOfInputValue;
    }
    CoreBefore(s, v, x);
    PreReleaseStage(s, v, x, e);
    BuildMetadataStage(s, v, x, e);
    TrailingCharacterSteps(s, v, |CoreVersions.Format(v.core)|, |CoreVersions.Format(v.core)| + |PreReleases.Format(v.preRelease)|, e);
  }

  /** The pre-release stage of `TrailingAt`: the pre-release is read from the end of the core to its own end. */
  lemma PreReleaseStage(s: string, v: Versions.Version, x: char, e: nat)
    requires Versions.Valid(v) && CannotFollow(v, x)
    requires SpellsAt(s, 0, Versions.Format(v)) && e == |Versions.Format(v)| && e < |s| && s[e] == x
    ensures var a := |CoreVersions.Format(v.core)|;
            ParsePreReleasePart(s, a) == Success(Parsed(v.preRelease, a + |PreReleases.Format(v.preRelease)|))
  {
    VersionTail(s, v, e);
    PreReleaseBefore(s, v, x, |CoreVersions.Format(v.core)|);
  }

  /** The build metadata stage of `TrailingAt`: the build metadata is read up to `e`, the end of the version. */
  lemma BuildMetadataStage(s: string, v: Versions.Version, x: char, e: nat)
    requires Versions.Valid(v) && CannotFollow(v, x)
    requires SpellsAt(s, 0, Versions.Format(v)) && e == |Versions.Format(v)| && e < |s| && s[e] == x
    ensures var b := |CoreVersions.Format(v.core)| + |PreReleases.Format(v.preRelease)|;
            ParseBuildMetadataPart(s, b) == Success(Parsed(v.buildMetadata, e))
  {
    VersionTail(s, v, e);
    BuildMetadataBefore(s, v, x, |CoreVersions.Format(v.core)| + |PreReleases.Format(v.preRelease)|);
  }

  /** The text of a valid version spelled from the start, split into its core, pre-release and build metadata. */
  lemma VersionTail(s: string, v: Versions.Version, e: nat)
    requires SpellsAt(s, 0, Versions.Format(v)) && e == |Versions.Format(v)|
    ensures var c, p, b := CoreVersions.Format(v.core), PreReleases.Format(v.preRelease), BuildMetadatas.Format(v.buildMetadata);
            && SpellsAt(s, |c|, p + b) && SpellsAt(s, |c| + |p|, b)
            && e == |c| + |p + b| && e == |c| + |p| + |b|
  {
    var c, p, b := CoreVersions.Format(v.core), PreReleases.Format(v.preRelease), BuildMetadatas.Format(v.buildMetadata);
    assert Versions.Format(v) == c + p + b;
    VersionRoundTrip.VersionParts(s, c, p, b);
    SpellsAtConcat(s, |c|, p, b);
  }

  /**
    * A valid version followed by a character that cannot continue it fails with a
    * trailing character at the end of the version, whatever comes after.
    */
  lemma TrailingAfterVersion(v: Versions.Version, t: string)
    requires Versions.Valid(v) && |t| > 0 && CannotFollow(v, t[0])
    ensures Parse(Versions.Format(v) + t) == Failure(Error(TrailingCharacter, |Versions.Format(v)|))
  {
    TrailingAfterVersionIn(Versions.Format(v) + t, v, t);
  }

  /** `TrailingAfterVersion` for any name `s` of the text: the version, then `t`. */
  lemma TrailingAfterVersionIn(s: string, v: Versions.Version, t: string)
    requires Versions.Valid(v) && s == Versions.Format(v) + t && |t| > 0 && CannotFollow(v, t[0])
    ensures Parse(s) == Failure(Error(TrailingCharacter, |Versions.Format(v)|))
  {
    SpellsAtJoined(s, Versions.Format(v), t);
    SpellsAtItem(s, |Versions.Format(v)|, t, 0);
    TrailingAt(s, v, t[0], |Versions.Format(v)|);
  }

  /*
   * Examples
   */

  /** A core whose formatted text starts the input, followed by a non-digit, is read up to its end. */
  lemma CoreFromText(s: string, c: CoreVersions.CoreVersion)
    requires var f := CoreVersions.Format(c); |f| < |s| && s[..|f|] == f && !DigitChar(s[|f|])
    ensures ParseCore(s, 0) == Success(Parsed(c, |CoreVersions.Format(c)|))
  {
    SpellsAtSlice(s, 0, CoreVersions.Format(c));
    VersionRoundTrip.ParseCoreOf(s, 0, c);
  }

  /** The core `1.2.3` of the examples below, followed by a non-digit. */
  lemma CoreOneTwoThree(s: string)
    requires 5 < |s| && s[..5] == "1.2.3" && !DigitChar(s[5])
    ensures ParseCore(s, 0) == Success(Parsed(CoreVersions.CoreVersion(1, 2, 3), 5))
  {
    assert CoreVersions.Format(CoreVersions.CoreVersion(1, 2, 3)) == "1.2.3";
    CoreFromText(s, CoreVersions.CoreVersion(1, 2, 3));
  }

  /** A missing number in the core is reported where the number should start. */
  lemma MissingNumberExample()
    ensures Parse("1.2.?") == Failure(Error(NumericExpected, 4))
  {
    var s := "1.2.?";
    assert ConsumeNumber(s, 0) == Success(Parsed(1, 1));
    assert ConsumeNumber(s, 2) == Success(Parsed(2, 3));
    assert ConsumeNumber(s, 4) == Failure(Error(NumericExpected, 4));
    assert ParseCore(s, 0) == Failure(Error(NumericExpected, 4));
  }

  /** A leading zero is reported at the zero, in any component of the core. */
  lemma LeadingZeroExamples()
    ensures Parse("01.1.1") == Failure(Error(LeadingZero, 0))
    ensures Parse("1.01.1") == Failure(Error(LeadingZero, 2))
    ensures Parse("1.1.01") == Failure(Error(LeadingZero, 4))
  {
    assert ConsumeNumber("01.1.1", 0) == Failure(Error(LeadingZero, 0));
    assert ConsumeNumber("1.01.1", 0) == Success(Parsed(1, 1));
    assert ConsumeNumber("1.01.1", 2) == Failure(Error(LeadingZero, 2));
    assert ConsumeNumber("1.1.01", 0) == Success(Parsed(1, 1));
    assert ConsumeNumber("1.1.01", 2) == Success(Parsed(1, 3));
    assert ConsumeNumber("1.1.01", 4) == Failure(Error(LeadingZero, 4));
  }

  /** A leading zero in a numeric pre-release identifier is reported at the zero. */
  lemma LeadingZeroIdentifierExample()
    ensures Parse("1.2.3-0123") == Failure(Error(LeadingZero, 6))
  {
    var s := "1.2.3-0123";
    CoreOneTwoThree(s);
    assert !LookaheadAlphaNumeric(s, 10);
    assert !LookaheadAlphaNumeric(s, 9);
    assert !LookaheadAlphaNumeric(s, 8);
    assert !LookaheadAlphaNumeric(s, 7);
    assert !LookaheadAlphaNumeric(s, 6);
    assert ConsumeNumber(s, 6) == Failure(Error(LeadingZero, 6));
    assert ParsePreReleaseIdentifier(s, 6) == Failure(Error(LeadingZero, 6));
    assert ParsePreRelease(s, 6) == Failure(Error(LeadingZero, 6));
    PreReleasePartFails(s, CoreVersions.CoreVersion(1, 2, 3), 5, Error(LeadingZero, 6));
  }

  /** `alpha`, the identifier of the examples below, is a valid alphanumeric identifier. */
  lemma AlphaValid()
    ensures PreReleases.ValidIdentifier(PreReleases.AlphaNumeric("alpha"))
    ensures PreReleases.FormatIdentifier(PreReleases.AlphaNumeric("alpha")) == "alpha"
  {
    var t := "alpha";
    assert PreReleases.IdentifierChars(t) by {
      forall i | 0 <= i < |t|
        ensures AlphaNumericChar(t[i])
      {
        assert LetterChar(t[i]);
      }
    }
    assert PreReleases.HasNonDigit(t);
  }

  /** `alpha` is read as the first identifier of a pre-release that starts at column 6, up to a dot. */
  lemma AlphaFirst(s: string)
    requires 12 <= |s| && s[..12] == "1.0.0-alpha."
    ensures ParsePreReleaseIdentifier(s, 6) == Success(Parsed(PreReleases.AlphaNumeric("alpha"), 11))
    ensures Is(ItemAt(s, 11), '.')
  {
    AlphaValid();
    assert s[11] == s[..12][11];
    assert SpellsAt(s, 6, "alpha") by {
      forall i | 0 <= i < 5
        ensures s[6 + i] == "alpha"[i]
      {
        assert s[6 + i] == s[..12][6 + i];
      }
    }
    VersionRoundTrip.ParseIdentifierOf(s, 6, PreReleases.AlphaNumeric("alpha"));
  }

  /** A pre-release whose first identifier is read up to a dot fails where the rest after the dot fails. */
  lemma PreReleaseFailsAfterFirst(s: string, pos: nat, id: PreReleases.Identifier, next: nat, e: ParseError)
    requires pos <= |s| && ParsePreReleaseIdentifier(s, pos) == Success(Parsed(id, next))
    requires Is(ItemAt(s, next), '.') && ParsePreRelease(s, next + 1) == Failure(e)
    ensures ParsePreRelease(s, pos) == Failure(e)
  {
  }

  /** `parse` on a core read up to a `-` whose pre-release fails reports the pre-release's error. */
  lemma PreReleasePartFails(s: string, core: CoreVersions.CoreVersion, a: nat, e: ParseError)
    requires a < |s| && ParseCore(s, 0) == Success(Parsed(core, a)) && s[a] == '-'
    requires ParsePreRelease(s, a + 1) == Failure(e)
    ensures Parse(s) == Failure(e)
  {
    assert Is(ItemAt(s, a), '-');
    assert ParsePreReleasePart(s, a) == Failure(e);
  }

  /** When a `+` follows the core and the build metadata after it fails, `parse` fails with that error. */
  lemma BuildMetadataPartFails(s: string, core: CoreVersions.CoreVersion, a: nat, e: ParseError)
    requires a < |s| && ParseCore(s, 0) == Success(Parsed(core, a)) && s[a] == '+'
    requires ParseBuildMetadata(s, a + 1) == Failure(e)
    ensures Parse(s) == Failure(e)
  {
    assert Is(ItemAt(s, a), '+') && !Is(ItemAt(s, a), '-');
    assert ParsePreReleasePart(s, a) == Success(Parsed(PreReleases.Null, a));
    assert ParseBuildMetadataPart(s, a) == Failure(e);
  }

  /** No `[0-9A-Za-z-]` character at `p`: the pre-release loop finds no identifier there. */
  lemma EmptyIdentifierFails(s: string, p: nat)
    requires p <= |s| && (p == |s| || !AlphaNumericChar(s[p]))
    ensures ParsePreRelease(s, p) == Failure(Error(NumericExpected, p))
  {
    assert AlphaNumericRunEnd(s, p) == p;
  }

  /** A dot at the end of a pre-release is reported at the end of input, where the next identifier should start. */
  lemma FinalDotExample()
    ensures Parse("1.0.0-alpha.") == Failure(Error(NumericExpected, 12))
  {
    var s := "1.0.0-alpha.";
    assert CoreVersions.Format(CoreVersions.CoreVersion(1, 0, 0)) == "1.0.0";
    CoreFromText(s, CoreVersions.CoreVersion(1, 0, 0));
    AlphaFirst(s);
    EmptyIdentifierFails(s, 12);
    PreReleaseFailsAfterFirst(s, 6, PreReleases.AlphaNumeric("alpha"), 11, Error(NumericExpected, 12));
    PreReleasePartFails(s, CoreVersions.CoreVersion(1, 0, 0), 5, Error(NumericExpected, 12));
  }

  /** Two dots in a row in a pre-release are reported at the second dot. */
  lemma DoubleDotExample()
    ensures Parse("1.0.0-alpha..1") == Failure(Error(NumericExpected, 12))
  {
    var s := "1.0.0-alpha..1";
    assert CoreVersions.Format(CoreVersions.CoreVersion(1, 0, 0)) == "1.0.0";
    CoreFromText(s, CoreVersions.CoreVersion(1, 0, 0));
    AlphaFirst(s);
    EmptyIdentifierFails(s, 12);
    PreReleaseFailsAfterFirst(s, 6, PreReleases.AlphaNumeric("alpha"), 11, Error(NumericExpected, 12));
    PreReleasePartFails(s, CoreVersions.CoreVersion(1, 0, 0), 5, Error(NumericExpected, 12));
  }

  /** A pre-release with no identifier at all is reported just after the `-`. */
  lemma MissingIdentifierExample()
    ensures Parse("1.2.3-+") == Failure(Error(NumericExpected, 6))
  {
    var s := "1.2.3-+";
    CoreOneTwoThree(s);
    assert ParsePreRelease(s, 6) == Failure(Error(NumericExpected, 6));
  }

  /** Nothing after the `+` is reported just after it. */
  lemma EmptyBuildMetadataExample()
    ensures Parse("1.2.3+") == Failure(Error(AlphaNumericExpected, 6))
  {
    var s := "1.2.3+";
    CoreOneTwoThree(s);
  }

  /** Two dots in a row in build metadata are reported at the second dot, a final dot at the end of input. */
  lemma BuildMetadataPeriodExamples()
    ensures Parse("1.2.3+a..b") == Failure(Error(PeriodAfterPeriod, 8))
    ensures Parse("1.2.3+a.") == Failure(Error(EndAfterPeriod, 8))
  {
    var s, u := "1.2.3+a..b", "1.2.3+a.";
    CoreOneTwoThree(s);
    assert BuildMetadataRun(s, 7) == Failure(Error(PeriodAfterPeriod, 8));
    assert ParseBuildMetadata(s, 6) == Failure(Error(PeriodAfterPeriod, 8));
    BuildMetadataPartFails(s, CoreVersions.CoreVersion(1, 2, 3), 5, Error(PeriodAfterPeriod, 8));
    CoreOneTwoThree(u);
    assert BuildMetadataRun(u, 7) == Failure(Error(EndAfterPeriod, 8));
    assert ParseBuildMetadata(u, 6) == Failure(Error(EndAfterPeriod, 8));
    BuildMetadataPartFails(u, CoreVersions.CoreVersion(1, 2, 3), 5, Error(EndAfterPeriod, 8));
  }

  /** A fourth component is a trailing character at its dot. */
  lemma FourthComponentExample()
    ensures Parse("1.2.3.DEV") == Failure(Error(TrailingCharacter, 5))
  {
    var s := "1.2.3.DEV";
    CoreOneTwoThree(s);
  }

  /** A second `+` ends the build metadata and is a trailing character. */
  lemma SecondBuildMetadataExample()
    ensures Parse("1.2.3+b1+b2") == Failure(Error(TrailingCharacter, 8))
  {
    var s := "1.2.3+b1+b2";
    CoreOneTwoThree(s);
    assert BuildMetadataRun(s, 7) == Success(8);
    assert ParseBuildMetadataPart(s, 5).Success? && ParseBuildMetadataPart(s, 5).value.next == 8;
  }
}

=== FILE: version_parser.dfy ===
/**
  * `VersionParser.java`: a single-pass recursive-descent parser from a string to a
  * `Version`, written as pure functions over a cursor into the input.
  *
  * The character under the cursor `pos` is `ItemAt(s, pos)`, which is what `current()`
  * of a fresh lookahead stream over `s` returns once `pos` items have been consumed;
  * `next(i)` is `ItemAt(s, pos + i)`, and `consume()` moves the cursor with `Advance`.
  * Every error carries the position of the character that caused it.
  *
  * The parser functions state their bounds and error cases; what the consumed text
  * means is stated by the "...Sound" and "...Spec" lemmas next to each of them.
  */
module VersionParser {
  import opened Wrappers
  import opened Chars
  import opened JavaLib
  import opened Lookahead
  import opened ParseErrors
  import CoreVersions
  import PreReleases
  import BuildMetadatas
  import Versions

  /** The end of the run of decimal digits that starts at `k`. */
  function DigitRunEnd(s: string, k: nat): (j: nat)
    requires k <= |s|
    ensures k <= j <= |s|
    decreases |s| - k
  {
    if k < |s| && DigitChar(s[k]) then DigitRunEnd(s, k + 1) else k
  }

  /** The run is all digits and is followed by a non-digit or the end of input ... */
  lemma {:induction false} DigitRunEndSpec(s: string, k: nat)
    requires k <= |s|
    ensures forall i :: k <= i < DigitRunEnd(s, k) ==> DigitChar(s[i])
    ensures !IsDigit(ItemAt(s, DigitRunEnd(s, k)))
    decreases |s| - k
  {
    if k < |s| && DigitChar(s[k]) {
      DigitRunEndSpec(s, k + 1);
    }
  }

  /** ... and no other position has both properties. */
  lemma {:induction false} DigitRunEndIs(s: string, k: nat, j: nat)
    requires k <= j <= |s|
    requires forall i :: k <= i < j ==> DigitChar(s[i])
    requires !IsDigit(ItemAt(s, j))
    ensures DigitRunEnd(s, k) == j
    decreases j - k
  {
    if k < j {
      DigitRunEndIs(s, k + 1, j);
    }
  }

  /** The end of the run of `[0-9A-Za-z-]` characters that starts at `k`. */
  function AlphaNumericRunEnd(s: string, k: nat): (j: nat)
    requires k <= |s|
    ensures k <= j <= |s|
    decreases |s| - k
  {
    if k < |s| && AlphaNumericChar(s[k]) then AlphaNumericRunEnd(s, k + 1) else k
  }

  /** The run is all `[0-9A-Za-z-]` and is followed by another character or the end of input ... */
  lemma {:induction false} AlphaNumericRunEndSpec(s: string, k: nat)
    requires k <= |s|
    ensures forall i :: k <= i < AlphaNumericRunEnd(s, k) ==> AlphaNumericChar(s[i])
    ensures !IsAlphaNumeric(ItemAt(s, AlphaNumericRunEnd(s, k)))
    decreases |s| - k
  {
    if k < |s| && AlphaNumericChar(s[k]) {
      AlphaNumericRunEndSpec(s, k + 1);
    }
  }

  /** ... and no other position has both properties. */
  lemma {:induction false} AlphaNumericRunEndIs(s: string, k: nat, j: nat)
    requires k <= j <= |s|
    requires forall i :: k <= i < j ==> AlphaNumericChar(s[i])
    requires !IsAlphaNumeric(ItemAt(s, j))
    ensures AlphaNumericRunEnd(s, k) == j
    decreases j - k
  {
    if k < j {
      AlphaNumericRunEndIs(s, k + 1, j);
    }
  }

  /** The characters from `pos` up to `end`, as the `StringBuilder` of a consuming loop collects them. */
  function Text(s: string, pos: nat, end: nat): (r: string)
    requires pos <= end <= |s|
    ensures |r| == end - pos
    decreases end - pos
  {
    if pos == end then [] else [s[pos]] + Text(s, pos + 1, end)
  }

  /** The collected text is what the input reads from `pos` on. */
  lemma {:induction false} TextSpells(s: string, pos: nat, end: nat)
    requires pos <= end <= |s|
    ensures SpellsAt(s, pos, Text(s, pos, end))
    decreases end - pos
  {
    if pos < end {
      TextSpells(s, pos + 1, end);
      var t := Text(s, pos, end);
      forall i | 0 <= i < |t|
        ensures s[pos + i] == t[i]
      {
        if i > 0 {
          assert t[i] == Text(s, pos + 1, end)[i - 1];
        }
      }
    }
  }

  /** Collecting over a spelled text gives that text back. */
  lemma TextOf(s: string, pos: nat, t: string)
    requires SpellsAt(s, pos, t)
    ensures Text(s, pos, pos + |t|) == t
  {
    var u := Text(s, pos, pos + |t|);
    TextSpells(s, pos, pos + |t|);
    assert forall i :: 0 <= i < |t| ==> u[i] == s[pos + i];
  }

  /** The value of the digits from `pos` up to `end`, most significant first. */
  function NumberValue(s: string, pos: nat, end: nat): nat
    requires pos <= end <= |s|
    requires forall i :: pos <= i < end ==> DigitChar(s[i])
    decreases end
  {
    if end == pos then 0 else NumberValue(s, pos, end - 1) * 10 + ValueOf(s[end - 1])
  }

  /** The value is `new BigInteger(..)` of the collected digits. */
  lemma {:induction false} NumberValueOfText(s: string, pos: nat, end: nat)
    requires pos <= end <= |s|
    requires forall i :: pos <= i < end ==> DigitChar(s[i])
    ensures AllDigits(Text(s, pos, end))
    ensures NumberValue(s, pos, end) == DigitsValue(Text(s, pos, end))
    decreases end
  {
    var t := Text(s, pos, end);
    TextSpells(s, pos, end);
    assert forall i :: 0 <= i < |t| ==> t[i] == s[pos + i];
    if end > pos {
      NumberValueOfText(s, pos, end - 1);
      SpellsAtSplit(s, pos, t[..|t| - 1], [t[|t| - 1]]);
      assert t[..|t| - 1] + [t[|t| - 1]] == t;
      TextOf(s, pos, t[..|t| - 1]);
    }
  }

  /**
    * `consumeNumber`, together with the `new BigInteger(..)` its callers apply: an error
    * when the cursor is not on a digit, or is on a `0` followed by another digit;
    * otherwise the value of the whole digit run.
    */
  function ConsumeNumber(s: string, pos: nat): (r: Outcome<nat>)
    requires pos <= |s|
    ensures r.Failure? <==> !IsDigit(ItemAt(s, pos)) || (Is(ItemAt(s, pos), '0') && IsDigit(ItemAt(s, pos + 1)))
    ensures r.Failure? ==> r.error == Error(if IsDigit(ItemAt(s, pos)) then LeadingZero else NumericExpected, pos)
    ensures r.Success? ==> r.value.next == DigitRunEnd(s, pos) > pos
  {
    var current := ItemAt(s, pos);
    if !IsDigit(current) then
      Failure(Error(NumericExpected, current.pos))
    else if Is(current, '0') && IsDigit(ItemAt(s, pos + 1)) then
      Failure(Error(LeadingZero, current.pos))
    else
      var next := DigitRunEnd(s, pos);
      DigitRunEndSpec(s, pos);
      Success(Parsed(NumberValue(s, pos, next), next))
  }

  /**
    * What `consumeNumber` consumes is the canonical decimal numeral of the value it
    * yields, and it stops on a non-digit.
    */
  lemma ConsumeNumberSound(s: string, pos: nat)
    requires pos <= |s| && ConsumeNumber(s, pos).Success?
    ensures var r := ConsumeNumber(s, pos).value;
            SpellsAt(s, pos, Decimal(r.value)) && r.next == pos + |Decimal(r.value)| && !IsDigit(ItemAt(s, r.next))
  {
    var r := ConsumeNumber(s, pos).value;
    var t := Text(s, pos, r.next);
    DigitRunEndSpec(s, pos);
    NumberValueOfText(s, pos, r.next);
    TextSpells(s, pos, r.next);
    assert t[0] == s[pos];
    if t[0] == '0' {
      assert !IsDigit(ItemAt(s, pos + 1));
      assert DigitRunEnd(s, pos + 1) == pos + 1;
    }
    DecimalOfDigitsValue(t);
  }

  /** `consumeCharacter`: consumes the expected character; anything else is an error at the cursor. */
  function ConsumeCharacter(s: string, pos: nat, expected: char): (r: Result<nat, ParseError>)
    requires pos <= |s|
    ensures r.Success? <==> pos < |s| && s[pos] == expected && expected != EndOfInputValue
    ensures r.Success? ==> r.value == pos + 1
    ensures r.Failure? ==> r.error == Error(CharacterExpected(expected), pos)
  {
    var current := ItemAt(s, pos);
    if Is(current, expected) then Success(Advance(s, pos))
    else Failure(Error(CharacterExpected(expected), current.pos))
  }

  /**
    * What an error of the version grammar says about the character at its column: no
    * digit where a number is expected, a `0` followed by a digit, no `.` where one is
    * expected, no `[0-9A-Za-z-]` after a `+`, a dot after a dot or before the end of
    * input, and anything but the end of input after a complete version.
    */
  predicate ErrorAt(s: string, e: ParseError)
  {
    && e.cause.None? && e.column <= |s|
    && match e.kind
       case NumericExpected => !IsDigit(ItemAt(s, e.column))
       case LeadingZero => Is(ItemAt(s, e.column), '0') && IsDigit(ItemAt(s, e.column + 1))
       case CharacterExpected(c) => c == '.' && !Is(ItemAt(s, e.column), '.')
       case AlphaNumericExpected => 0 < e.column && s[e.column - 1] == '+' && !IsAlphaNumeric(ItemAt(s, e.column))
       case PeriodAfterPeriod => 0 < e.column < |s| && s[e.column - 1] == '.' && s[e.column] == '.'
       case EndAfterPeriod => 0 < e.column && s[e.column - 1] == '.' && IsEndOfInput(ItemAt(s, e.column))
       case TrailingCharacter => !IsEndOfInput(ItemAt(s, e.column))
       case _ => false
  }

  /** `parseCoreVersion`: a number, `.`, a number, `.`, a number. */
  function ParseCore(s: string, pos: nat): (r: Outcome<CoreVersions.CoreVersion>)
    requires pos <= |s|
    ensures r.Success? ==> pos < r.value.next <= |s|
    ensures r.Failure? ==> r.error.column <= |s| && r.error.cause.None?
    ensures r.Failure? ==> pos <= r.error.column && ErrorAt(s, r.error)
    ensures r.Failure? ==> r.error.kind in {NumericExpected, LeadingZero, CharacterExpected('.')}
  {
    var major :- ConsumeNumber(s, pos);
    var afterMajor :- ConsumeCharacter(s, major.next, '.');
    var minor :- ConsumeNumber(s, afterMajor);
    var afterMinor :- ConsumeCharacter(s, minor.next, '.');
    var patch :- ConsumeNumber(s, afterMinor);
    Success(Parsed(CoreVersions.CoreVersion(major.value, minor.value, patch.value), patch.next))
  }

  /** What `parseCoreVersion` consumes is the formatted core it yields, and it stops on a non-digit. */
  lemma ParseCoreSound(s: string, pos: nat)
    requires pos <= |s| && ParseCore(s, pos).Success?
    ensures var r := ParseCore(s, pos).value;
            && SpellsAt(s, pos, CoreVersions.Format(r.value)) && r.next == pos + |CoreVersions.Format(r.value)|
            && !IsDigit(ItemAt(s, r.next))
  {
    var major := ConsumeNumber(s, pos).value;
    var minor := ConsumeNumber(s, major.next + 1).value;
    var patch := ConsumeNumber(s, minor.next + 1).value;
    ConsumeNumberSound(s, pos);
    ConsumeNumberSound(s, major.next + 1);
    ConsumeNumberSound(s, minor.next + 1);
    CoreSpelled(s, pos, Decimal(major.value), Decimal(minor.value), Decimal(patch.value));
  }

  /** Three numerals separated by dots spell the formatted core. */
  lemma CoreSpelled(s: string, pos: nat, d1: string, d2: string, d3: string)
    requires SpellsAt(s, pos, d1) && pos + |d1| < |s| && s[pos + |d1|] == '.'
    requires var b := pos + |d1| + 1 + |d2|; SpellsAt(s, pos + |d1| + 1, d2) && b < |s| && s[b] == '.'
    requires SpellsAt(s, pos + |d1| + 1 + |d2| + 1, d3)
    ensures SpellsAt(s, pos, d1 + "." + d2 + "." + d3)
  {
    SpellsAtSeparated(s, pos, d1, '.', d2);
    SpellsAtSeparated(s, pos, d1 + "." + d2, '.', d3);
  }

  /**
    * `lookaheadAlphaNumeric`: peeks along the `[0-9A-Za-z-]` run at the cursor and
    * answers whether a letter or `-` occurs in it.
    */
  function LookaheadAlphaNumeric(s: string, pos: nat): bool
    requires pos <= |s|
    decreases |s| - pos
  {
    var next := ItemAt(s, pos);
    var foundNonDigit := IsLetter(next) || Is(next, '-');
    if !IsAlphaNumeric(next) then foundNonDigit
    else if foundNonDigit then true
    else LookaheadAlphaNumeric(s, pos + 1)
  }

  /** The lookahead answers exactly whether the run at the cursor is not all digits. */
  lemma {:induction false} LookaheadAlphaNumericSpec(s: string, pos: nat)
    requires pos <= |s|
    ensures LookaheadAlphaNumeric(s, pos) <==> PreReleases.HasNonDigit(Text(s, pos, AlphaNumericRunEnd(s, pos)))
    decreases |s| - pos
  {
    if pos < |s| && AlphaNumericChar(s[pos]) {
      LookaheadAlphaNumericSpec(s, pos + 1);
      var t := Text(s, pos, AlphaNumericRunEnd(s, pos));
      assert t[0] == s[pos] && t[1..] == Text(s, pos + 1, AlphaNumericRunEnd(s, pos + 1));
    }
  }

  /** Where the `[0-9A-Za-z-]` run at `k` holds no letter and no `-`, it is the digit run. */
  lemma {:induction false} RunEndsAgree(s: string, k: nat)
    requires k <= |s| && !LookaheadAlphaNumeric(s, k)
    ensures DigitRunEnd(s, k) == AlphaNumericRunEnd(s, k)
    decreases |s| - k
  {
    if k < |s| && DigitChar(s[k]) {
      RunEndsAgree(s, k + 1);
    }
  }

  /** `consumeAlphaNumeric`: at least one `[0-9A-Za-z-]` character, then the rest of the run. */
  function ConsumeAlphaNumeric(s: string, pos: nat): (r: Outcome<string>)
    requires pos <= |s|
    ensures r.Failure? <==> !IsAlphaNumeric(ItemAt(s, pos))
    ensures r.Failure? ==> r.error == Error(AlphaNumericExpected, pos)
    ensures r.Success? ==> r.value.next == AlphaNumericRunEnd(s, pos) > pos
  {
    var current := ItemAt(s, pos);
    if !IsAlphaNumeric(current) then
      Failure(Error(AlphaNumericExpected, current.pos))
    else
      var next := AlphaNumericRunEnd(s, pos);
      Success(Parsed(Text(s, pos, next), next))
  }

  /** `parsePreReleaseIdentifier`: alphanumeric when the lookahead finds a non-digit, numeric otherwise. */
  function ParsePreReleaseIdentifier(s: string, pos: nat): (r: Outcome<PreReleases.Identifier>)
    requires pos <= |s|
    ensures r.Success? ==> r.value.next == AlphaNumericRunEnd(s, pos) > pos
    ensures r.Failure? ==> r.error == Error(if AlphaNumericRunEnd(s, pos) == pos then NumericExpected else LeadingZero, pos)
    ensures r.Failure? ==> ErrorAt(s, r.error)
  {
    if LookaheadAlphaNumeric(s, pos) then
      match ConsumeAlphaNumeric(s, pos)
      case Success(text) => Success(Parsed(PreReleases.AlphaNumeric(text.value), text.next))
      case Failure(e) => Failure(e)
    else
      RunEndsAgree(s, pos);
      var number :- ConsumeNumber(s, pos);
      Success(Parsed(PreReleases.Numeric(number.value), number.next))
  }

  /**
    * `parsePreReleaseIdentifier` succeeds exactly when the `[0-9A-Za-z-]` run at the
    * cursor is an identifier in the sense of item 9 of Semantic Versioning 2.0.0, and
    * then yields the one valid identifier that formats as that run.
    */
  lemma ParseIdentifierSpec(s: string, pos: nat)
    requires pos <= |s|
    ensures var t := Text(s, pos, AlphaNumericRunEnd(s, pos));
            ParsePreReleaseIdentifier(s, pos).Success? <==> PreReleases.IdentifierText(t)
    ensures var r := ParsePreReleaseIdentifier(s, pos);
            r.Success? ==> PreReleases.ValidIdentifier(r.value.value)
                           && PreReleases.FormatIdentifier(r.value.value) == Text(s, pos, r.value.next)
  {
    var e := AlphaNumericRunEnd(s, pos);
    var t := Text(s, pos, e);
    AlphaNumericRunEndSpec(s, pos);
    TextSpells(s, pos, e);
    LookaheadAlphaNumericSpec(s, pos);
    assert PreReleases.IdentifierChars(t) by {
      assert forall i :: 0 <= i < |t| ==> t[i] == s[pos + i];
    }
    if !LookaheadAlphaNumeric(s, pos) {
      RunEndsAgree(s, pos);
      DigitRunEndSpec(s, pos);
      if |t| > 0 {
        assert t[0] == s[pos];
      }
      if ConsumeNumber(s, pos).Success? {
        var n := ConsumeNumber(s, pos).value.value;
        ConsumeNumberSound(s, pos);
        TextOf(s, pos, Decimal(n));
        PreReleases.NumericIdentifierValid(n);
      } else if |t| > 0 && t[0] == '0' {
        assert IsDigit(ItemAt(s, pos + 1));
      }
    }
  }

  /**
    * `parsePreRelease`, with the cursor just after the `-`: an identifier, then another
    * one after each `.` that follows.
    */
  function ParsePreRelease(s: string, pos: nat): (r: Outcome<PreReleases.PreRelease>)
    requires pos <= |s|
    ensures r.Success? ==> pos < r.value.next <= |s| && |r.value.value.identifiers| > 0
    ensures r.Failure? ==> r.error.column <= |s| && r.error.cause.None?
    ensures r.Failure? ==> pos <= r.error.column && ErrorAt(s, r.error) && r.error.kind in {NumericExpected, LeadingZero}
    decreases |s| - pos
  {
    var first :- ParsePreReleaseIdentifier(s, pos);
    if Is(ItemAt(s, first.next), '.') then
      var rest :- ParsePreRelease(s, first.next + 1);
      Success(Parsed(PreReleases.PreRelease([first.value] + rest.value.identifiers), rest.next))
    else
      Success(Parsed(PreReleases.PreRelease([first.value]), first.next))
  }

  /**
    * What `parsePreReleaseIdentifier` consumes is the formatted text of the valid
    * identifier it yields, and it stops on a character outside `[0-9A-Za-z-]`.
    */
  lemma ParseIdentifierSound(s: string, pos: nat)
    requires pos <= |s| && ParsePreReleaseIdentifier(s, pos).Success?
    ensures var r := ParsePreReleaseIdentifier(s, pos).value;
            var f := PreReleases.FormatIdentifier(r.value);
            && SpellsAt(s, pos, f) && r.next == pos + |f| && PreReleases.ValidIdentifier(r.value)
            && !IsAlphaNumeric(ItemAt(s, r.next))
  {
    var r := ParsePreReleaseIdentifier(s, pos).value;
    ParseIdentifierSpec(s, pos);
    TextSpells(s, pos, r.next);
    AlphaNumericRunEndSpec(s, pos);
  }

  /**
    * What `parsePreRelease` consumes is exactly the dot-joined text of the identifiers it
    * returns, every one of them valid, and it stops on a character that can neither
    * continue an identifier nor start another one.
    */
  lemma {:induction false} ParsePreReleaseSound(s: string, pos: nat)
    requires pos <= |s| && ParsePreRelease(s, pos).Success?
    ensures var r := ParsePreRelease(s, pos).value;
            var j := PreReleases.JoinIdentifiers(r.value.identifiers);
            SpellsAt(s, pos, j) && r.next == pos + |j| && PreReleases.Valid(r.value)
    ensures var r := ParsePreRelease(s, pos).value;
            !IsAlphaNumeric(ItemAt(s, r.next)) && !Is(ItemAt(s, r.next), '.')
    decreases |s| - pos
  {
    var first := ParsePreReleaseIdentifier(s, pos).value;
    var r := ParsePreRelease(s, pos).value;
    ParseIdentifierSound(s, pos);
    if Is(ItemAt(s, first.next), '.') {
      var rest := ParsePreRelease(s, first.next + 1).value;
      assert r == Parsed(PreReleases.PreRelease([first.value] + rest.value.identifiers), rest.next);
      ParsePreReleaseSound(s, first.next + 1);
      PreReleaseSoundStep(s, pos, first, rest, r);
    } else {
      assert r == Parsed(PreReleases.PreRelease([first.value]), first.next);
      PreReleases.ValidCons(first.value, []);
    }
  }

  /** One turn of `ParsePreReleaseSound`: a spelled identifier, a dot, and a spelled list give the spelled longer list. */
  lemma PreReleaseSoundStep(s: string, pos: nat, first: Parsed<PreReleases.Identifier>, rest: Parsed<PreReleases.PreRelease>, r: Parsed<PreReleases.PreRelease>)
    requires var f := PreReleases.FormatIdentifier(first.value);
             SpellsAt(s, pos, f) && first.next == pos + |f| && PreReleases.ValidIdentifier(first.value)
    requires Is(ItemAt(s, first.next), '.')
    requires var j := PreReleases.JoinIdentifiers(rest.value.identifiers);
             SpellsAt(s, first.next + 1, j) && rest.next == first.next + 1 + |j| && PreReleases.Valid(rest.value)
    requires |rest.value.identifiers| > 0
    requires r == Parsed(PreReleases.PreRelease([first.value] + rest.value.identifiers), rest.next)
    ensures var j := PreReleases.JoinIdentifiers(r.value.identifiers);
            SpellsAt(s, pos, j) && r.next == pos + |j| && PreReleases.Valid(r.value)
  {
    var ids := rest.value.identifiers;
    JoinSpelled(s, pos, first.value, ids);
    PreReleases.ValidCons(first.value, ids);
    PreReleases.JoinCons(first.value, ids);
  }

  /** An identifier, a dot and a joined list spell the joined longer list. */
  lemma JoinSpelled(s: string, pos: nat, id: PreReleases.Identifier, rest: seq<PreReleases.Identifier>)
    requires |rest| > 0
    requires var f := PreReleases.FormatIdentifier(id);
             SpellsAt(s, pos, f) && pos + |f| < |s| && s[pos + |f|] == '.'
    requires SpellsAt(s, pos + |PreReleases.FormatIdentifier(id)| + 1, PreReleases.JoinIdentifiers(rest))
    ensures SpellsAt(s, pos, PreReleases.JoinIdentifiers([id] + rest))
  {
    SpellsAtSeparated(s, pos, PreReleases.FormatIdentifier(id), '.', PreReleases.JoinIdentifiers(rest));
    PreReleases.JoinCons(id, rest);
  }

  /**
    * The `do ... while` loop of `parseBuildMetadata`, entered with the cursor on a
    * character of `[0-9A-Za-z-.]`: a consumed `.` must not be followed by another `.` or
    * by the end of input; the loop stops at the first character outside that alphabet.
    */
  function BuildMetadataRun(s: string, k: nat): (r: Result<nat, ParseError>)
    requires k < |s| && (AlphaNumericChar(s[k]) || s[k] == '.')
    ensures r.Success? ==> k < r.value <= |s|
    ensures r.Failure? ==> r.error.column <= |s| && r.error.cause.None?
    ensures r.Failure? ==> k < r.error.column && ErrorAt(s, r.error) && r.error.kind in {PeriodAfterPeriod, EndAfterPeriod}
    decreases |s| - k
  {
    var consumed := ItemAt(s, k);
    var current := ItemAt(s, k + 1);
    if Is(consumed, '.') && Is(current, '.') then
      Failure(Error(PeriodAfterPeriod, current.pos))
    else if Is(consumed, '.') && IsEndOfInput(current) then
      Failure(Error(EndAfterPeriod, current.pos))
    else if IsAlphaNumeric(current) || Is(current, '.') then
      BuildMetadataRun(s, k + 1)
    else
      Success(k + 1)
  }

  /**
    * The loop consumes only `[0-9A-Za-z-.]`, never two dots in a row, and stops on a
    * character outside that alphabet, which is not the end of input after a dot.
    */
  lemma {:induction false} BuildMetadataRunSound(s: string, k: nat)
    requires k < |s| && (AlphaNumericChar(s[k]) || s[k] == '.')
    requires BuildMetadataRun(s, k).Success?
    ensures var e := BuildMetadataRun(s, k).value;
            && (forall i :: k <= i < e ==> AlphaNumericChar(s[i]) || s[i] == '.')
            && (forall i :: k <= i < e - 1 ==> !(s[i] == '.' && s[i + 1] == '.'))
            && !IsAlphaNumeric(ItemAt(s, e)) && !Is(ItemAt(s, e), '.')
            && (s[e - 1] == '.' ==> !IsEndOfInput(ItemAt(s, e)))
    decreases |s| - k
  {
    var current := ItemAt(s, k + 1);
    if IsAlphaNumeric(current) || Is(current, '.') {
      BuildMetadataRunSound(s, k + 1);
    }
  }

  /** `parseBuildMetadata`, with the cursor just after the `+`: the text kept verbatim, dots included. */
  function ParseBuildMetadata(s: string, pos: nat): (r: Outcome<BuildMetadatas.BuildMetadata>)
    requires pos <= |s|
    ensures r.Success? ==> pos < r.value.next <= |s|
    ensures r.Failure? ==> r.error.column <= |s| && r.error.cause.None?
    ensures r.Failure? && r.error.kind == AlphaNumericExpected ==> r.error.column == pos && !IsAlphaNumeric(ItemAt(s, pos))
    ensures r.Failure? && r.error.kind != AlphaNumericExpected ==> pos < r.error.column && ErrorAt(s, r.error)
    ensures r.Failure? ==> r.error.kind in {AlphaNumericExpected, PeriodAfterPeriod, EndAfterPeriod}
  {
    var current := ItemAt(s, pos);
    if !IsAlphaNumeric(current) then
      Failure(Error(AlphaNumericExpected, current.pos))
    else
      var end :- BuildMetadataRun(s, pos);
      Success(Parsed(BuildMetadatas.BuildMetadata(Text(s, pos, end)), end))
  }

  /**
    * What `parseBuildMetadata` consumes is the text it keeps; it stops on a character
    * that is neither in `[0-9A-Za-z-]` nor a dot, and followed by the end of input the
    * text is valid build metadata.
    */
  lemma ParseBuildMetadataSound(s: string, pos: nat)
    requires pos <= |s| && ParseBuildMetadata(s, pos).Success?
    ensures var r := ParseBuildMetadata(s, pos).value;
            SpellsAt(s, pos, r.value.text) && r.next == pos + |r.value.text|
    ensures var r := ParseBuildMetadata(s, pos).value;
            !IsAlphaNumeric(ItemAt(s, r.next)) && !Is(ItemAt(s, r.next), '.')
    ensures var r := ParseBuildMetadata(s, pos).value;
            IsEndOfInput(ItemAt(s, r.next)) ==> BuildMetadatas.ValidText(r.value.text)
  {
    var e := BuildMetadataRun(s, pos).value;
    var t := Text(s, pos, e);
    BuildMetadataRunSound(s, pos);
    TextSpells(s, pos, e);
    assert forall i :: 0 <= i < |t| ==> t[i] == s[pos + i];
    if IsEndOfInput(ItemAt(s, e)) {
      forall i | 0 <= i < |t| - 1
        ensures !(t[i] == '.' && t[i + 1] == '.')
      {
        assert t[i + 1] == s[pos + i + 1];
      }
    }
  }

  /** The optional `-` and pre-release of `parse`: absent unless the cursor is on a `-`. */
  function ParsePreReleasePart(s: string, pos: nat): (r: Outcome<PreReleases.PreRelease>)
    requires pos <= |s|
    ensures r.Success? ==> pos <= r.value.next <= |s|
    ensures r.Success? ==> !Is(ItemAt(s, pos), '-') ==> r.value == Parsed(PreReleases.Null, pos)
    ensures r.Failure? ==> r.error.column <= |s| && r.error.cause.None?
    ensures r.Failure? ==> pos < r.error.column && ErrorAt(s, r.error)
  {
    if Is(ItemAt(s, pos), '-') then
      var pre :- ParsePreRelease(s, pos + 1);
      Success(pre)
    else
      Success(Parsed(PreReleases.Null, pos))
  }

  /** What the pre-release part consumes is the formatted pre-release it yields, which is valid. */
  lemma ParsePreReleasePartSound(s: string, pos: nat)
    requires pos <= |s| && ParsePreReleasePart(s, pos).Success?
    ensures var r := ParsePreReleasePart(s, pos).value;
            var f := PreReleases.Format(r.value);
            SpellsAt(s, pos, f) && r.next == pos + |f| && PreReleases.Valid(r.value)
  {
    if Is(ItemAt(s, pos), '-') {
      var pre := ParsePreRelease(s, pos + 1).value;
      ParsePreReleaseSound(s, pos + 1);
      SpellsAtCons(s, pos, '-', PreReleases.JoinIdentifiers(pre.value.identifiers));
    }
  }

  /** The optional `+` and build metadata of `parse`: absent unless the cursor is on a `+`. */
  function ParseBuildMetadataPart(s: string, pos: nat): (r: Outcome<BuildMetadatas.BuildMetadata>)
    requires pos <= |s|
    ensures r.Success? ==> pos <= r.value.next <= |s|
    ensures r.Success? ==> !Is(ItemAt(s, pos), '+') ==> r.value == Parsed(BuildMetadatas.Null, pos)
    ensures r.Failure? ==> r.error.column <= |s| && r.error.cause.None?
    ensures r.Failure? ==> pos < r.error.column && ErrorAt(s, r.error)
  {
    if Is(ItemAt(s, pos), '+') then
      var build :- ParseBuildMetadata(s, pos + 1);
      Success(build)
    else
      Success(Parsed(BuildMetadatas.Null, pos))
  }

  /**
    * What the build metadata part consumes is the formatted build metadata it yields,
    * which is valid when the end of input follows.
    */
  lemma ParseBuildMetadataPartSound(s: string, pos: nat)
    requires pos <= |s| && ParseBuildMetadataPart(s, pos).Success?
    ensures var r := ParseBuildMetadataPart(s, pos).value;
            var f := BuildMetadatas.Format(r.value);
            && SpellsAt(s, pos, f) && r.next == pos + |f|
            && (IsEndOfInput(ItemAt(s, r.next)) ==> BuildMetadatas.Valid(r.value))
  {
    if Is(ItemAt(s, pos), '+') {
      var build := ParseBuildMetadata(s, pos + 1).value;
      ParseBuildMetadataSound(s, pos + 1);
      SpellsAtCons(s, pos, '+', build.value.text);
    }
  }

  /**
    * `parse`: the core version, then optionally `-` and a pre-release, then optionally
    * `+` and build metadata, then the end of input; any other character is an error at
    * its column.
    */
  function Parse(s: string): (r: Result<Versions.Version, ParseError>)
    ensures r.Failure? ==> r.error.column <= |s| && r.error.cause.None?
    ensures r.Failure? ==> ErrorAt(s, r.error)
  {
    var core :- ParseCore(s, 0);
    var pre :- ParsePreReleasePart(s, core.next);
    var build :- ParseBuildMetadataPart(s, pre.next);
    var next := ItemAt(s, build.next);
    if IsEndOfInput(next) then
      Success(Versions.Version(core.value, pre.value, build.value))
    else
      Failure(Error(TrailingCharacter, next.pos))
  }

  /**
    * What `parse` accepts is a valid version whose formatted text is the input up to its
    * end, or up to a `'\0'`, which the stream cannot tell from the end.
    */
  lemma ParseSound(s: string)
    requires Parse(s).Success?
    ensures Versions.Valid(Parse(s).value)
    ensures var f := Versions.Format(Parse(s).value);
            |f| <= |s| && s[..|f|] == f && IsEndOfInput(ItemAt(s, |f|))
  {
    var core := ParseCore(s, 0).value;
    var pre := ParsePreReleasePart(s, core.next).value;
    var build := ParseBuildMetadataPart(s, pre.next).value;
    var c, p, b := CoreVersions.Format(core.value), PreReleases.Format(pre.value), BuildMetadatas.Format(build.value);
    ParseCoreSound(s, 0);
    assert SpellsAt(s, 0, c) && core.next == |c|;
    ParsePreReleasePartSound(s, core.next);
    assert SpellsAt(s, |c|, p) && pre.next == |c| + |p|;
    ParseBuildMetadataPartSound(s, pre.next);
    assert SpellsAt(s, |c| + |p|, b);
    VersionSpelled(s, c, p, b);
    ParsedParts(s, core, pre, build);
    assert Versions.Format(Parse(s).value) == c + p + b;
    assert build.next == |c + p + b|;
  }

  /** `parse` succeeds with the three parts it read, the last one followed by the end of input. */
  lemma ParsedParts(s: string, core: Parsed<CoreVersions.CoreVersion>, pre: Parsed<PreReleases.PreRelease>,
                    build: Parsed<BuildMetadatas.BuildMetadata>)
    requires Parse(s).Success? && ParseCore(s, 0) == Success(core) && core.next <= |s|
    requires ParsePreReleasePart(s, core.next) == Success(pre) && pre.next <= |s|
    requires ParseBuildMetadataPart(s, pre.next) == Success(build)
    ensures Parse(s).value == Versions.Version(core.value, pre.value, build.value)
    ensures IsEndOfInput(ItemAt(s, build.next))
  {
  }

  /** The three formatted parts, one after the other from the start, are a prefix of the input. */
  lemma VersionSpelled(s: string, c: string, p: string, b: string)
    requires SpellsAt(s, 0, c) && SpellsAt(s, |c|, p) && SpellsAt(s, |c| + |p|, b)
    ensures |c + p + b| <= |s| && s[..|c + p + b|] == c + p + b
  {
    SpellsAtConcat(s, 0, c, p);
    SpellsAtConcat(s, 0, c + p, b);
    SpellsAtSlice(s, 0, c + p + b);
  }
}

=== FILE: version_range.dfy ===
/**
  * A range of versions with optional, inclusive or exclusive bounds (`VersionRange.java`).
  *
  * Membership looks only at the core triple of the versions involved: pre-release and
  * build metadata of both the bounds and the candidate are ignored.
  */
module VersionRanges {
  import opened Wrappers
  import opened ParseErrors
  import CoreVersions
  import Versions
  import VersionParser
  import VersionRoundTrip

  /** A missing bound (`None`, the source's `null`) leaves that side of the range open. */
  datatype VersionRange = VersionRange(
    start: Option<Versions.Version>,
    startInclusive: bool,
    end: Option<Versions.Version>,
    endInclusive: bool)

  /** An optional bound the range parser can produce: absent, or a valid version. */
  predicate ValidBound(b: Option<Versions.Version>) {
    b.None? || Versions.Valid(b.value)
  }

  /** A range whose bounds are both absent or valid versions. */
  predicate Valid(r: VersionRange) {
    ValidBound(r.start) && ValidBound(r.end)
  }

  /** Core `c` is not below the start bound: at or above it when inclusive, strictly above when exclusive. */
  ghost predicate AboveStart(r: VersionRange, c: CoreVersions.CoreVersion) {
    r.start.None?
    || (if r.startInclusive then !CoreVersions.Less(c, r.start.value.core)
        else CoreVersions.Less(r.start.value.core, c))
  }

  /** Core `c` is not above the end bound: at or below it when inclusive, strictly below when exclusive. */
  ghost predicate BelowEnd(r: VersionRange, c: CoreVersions.CoreVersion) {
    r.end.None?
    || (if r.endInclusive then !CoreVersions.Less(r.end.value.core, c)
        else CoreVersions.Less(c, r.end.value.core))
  }

  /**
    * `isSatisfiedBy(Version)`: the start bound is checked first and can only reject; the
    * end bound, if any, then decides.
    */
  function IsSatisfiedBy(r: VersionRange, v: Versions.Version): (b: bool)
    ensures b <==> AboveStart(r, v.core) && BelowEnd(r, v.core)
  {
    if r.start.Some? && r.startInclusive && 0 < CoreVersions.Compare(r.start.value.core, v.core) then false
    else if r.start.Some? && !r.startInclusive && 0 <= CoreVersions.Compare(r.start.value.core, v.core) then false
    else if r.end.Some? then
      if r.endInclusive then 0 <= CoreVersions.Compare(r.end.value.core, v.core)
      else 0 < CoreVersions.Compare(r.end.value.core, v.core)
    else true
  }

  /** Two versions with the same core triple are in exactly the same ranges. */
  lemma SatisfiedByCoreOnly(r: VersionRange, v: Versions.Version, w: Versions.Version)
    requires v.core == w.core
    ensures IsSatisfiedBy(r, v) == IsSatisfiedBy(r, w)
  {
  }

  /** Membership is also blind to the pre-release and build metadata of the bounds. */
  lemma SatisfiedByBoundCoresOnly(r: VersionRange, q: VersionRange, v: Versions.Version)
    requires r.startInclusive == q.startInclusive && r.endInclusive == q.endInclusive
    requires r.start.Some? == q.start.Some? && (r.start.Some? ==> r.start.value.core == q.start.value.core)
    requires r.end.Some? == q.end.Some? && (r.end.Some? ==> r.end.value.core == q.end.value.core)
    ensures IsSatisfiedBy(r, v) == IsSatisfiedBy(q, v)
  {
  }

  /** A range with neither bound contains every version, whatever its inclusivity flags. */
  lemma UnboundedSatisfiedByAll(r: VersionRange, v: Versions.Version)
    requires r.start.None? && r.end.None?
    ensures IsSatisfiedBy(r, v)
  {
  }

  /** A bound that is present and inclusive is itself in the range, provided the range is not empty there. */
  lemma InclusiveStartContained(r: VersionRange)
    requires r.start.Some? && r.startInclusive
    requires r.end.None? || (if r.endInclusive then !CoreVersions.Less(r.end.value.core, r.start.value.core)
                             else CoreVersions.Less(r.start.value.core, r.end.value.core))
    ensures IsSatisfiedBy(r, r.start.value)
  {
  }

  /** An exclusive bound is never in the range. */
  lemma ExclusiveBoundsExcluded(r: VersionRange)
    ensures r.start.Some? && !r.startInclusive ==> !IsSatisfiedBy(r, r.start.value)
    ensures r.end.Some? && !r.endInclusive ==> !IsSatisfiedBy(r, r.end.value)
  {
  }

  /** `isSatisfiedBy(String)`: the string is parsed as a version first, and a parse error propagates. */
  function IsSatisfiedByText(r: VersionRange, s: string): (res: Result<bool, ParseError>)
    ensures res.Failure? <==> VersionParser.Parse(s).Failure?
    ensures res.Failure? ==> res.error == VersionParser.Parse(s).error
  {
    match VersionParser.Parse(s)
    case Success(v) => Success(IsSatisfiedBy(r, v))
    case Failure(e) => Failure(e)
  }

  /** On the formatted text of a valid version, the string form answers as the version form does. */
  lemma IsSatisfiedByFormatted(r: VersionRange, v: Versions.Version)
    requires Versions.Valid(v)
    ensures IsSatisfiedByText(r, Versions.Format(v)) == Success(IsSatisfiedBy(r, v))
  {
    VersionRoundTrip.ParseFormatted(v);
  }

  /** `Objects.equals` on an optional version: both absent, or both present and equal. */
  function OptionEquals(a: Option<Versions.Version>, b: Option<Versions.Version>): (r: bool)
    ensures r <==> a == b
  {
    match (a, b)
    case (None, None) => true
    case (Some(x), Some(y)) => Versions.Equals(x, y)
    case _ => false
  }

  /** `VersionRange.equals`: both flags and both bounds equal. */
  function Equals(a: VersionRange, b: VersionRange): (r: bool)
    ensures r <==> a == b
  {
    && a.startInclusive == b.startInclusive
    && a.endInclusive == b.endInclusive
    && OptionEquals(a.start, b.start)
    && OptionEquals(a.end, b.end)
  }

  /** The formatted text of an optional bound: the version's, or nothing. */
  function FormatBound(b: Option<Versions.Version>): string
  {
    match b
    case None => ""
    case Some(v) => Versions.Format(v)
  }

  /**
    * `getFormatted`: interval notation, `[` or `(`, the start bound, a comma, the end
    * bound, then `]` or `)`; an absent bound is left empty.
    */
  function Format(r: VersionRange): string
  {
    (if r.startInclusive then "[" else "(")
    + FormatBound(r.start) + "," + FormatBound(r.end)
    + (if r.endInclusive then "]" else ")")
  }
}

=== FILE: version_range_errors.dfy ===
/**
  * Where `parse` of `VersionRangeParser.java` fails: after a complete interval or glob,
  * any character but the end of input is an `EndExpected` error at its own column. After
  * a comparison or a caret the version runs to the end of input, so a trailing character
  * is reported by the version parser instead, re-positioned into the range string.
  */
module VersionRangeErrors {
  import opened Wrappers
  import opened Chars
  import opened JavaLib
  import opened Lookahead
  import opened ParseErrors
  import CoreVersions
  import PreReleases
  import BuildMetadatas
  import Versions
  import VersionParser
  import VersionRoundTrip
  import VersionErrors
  import opened VersionRanges
  import opened VersionRangeParser
  import opened VersionRangeRoundTrip

  /*
   * Interval notation
   */

  /** `parseVersionRange` on a start bound, a comma and an end bound with its bracket, then another character. */
  lemma IntervalTrailingSteps(s: string, r: VersionRange, b: nat, d: nat)
    requires 0 < |s| && s[0] == OpenChar(r.startInclusive)
    requires StartBound(s, 1) == Success(Parsed(r.start, b)) && b < |s| && s[b] == ','
    requires EndBound(s, b + 1) == Success(Parsed((r.end, r.endInclusive), d + 1)) && d < |s|
    requires !IsEndOfInput(ItemAt(s, d + 1))
    ensures ParseInterval(s) == Failure(Error(EndExpected, d + 1))
  {
    assert Advance(s, 0) == 1;
    assert VersionParser.ConsumeCharacter(s, b, ',') == Success(b + 1);
    assert ConsumeEndOfInput(s, d + 1) == Failure(Error(EndExpected, d + 1));
  }

  /** A formatted range spelled from the start, its bounds read back, then a character at `d + 1`. */
  lemma IntervalTrailingAt(s: string, r: VersionRange, b: nat, d: nat)
    requires VersionRanges.Valid(r) && 0 < |s| && s[0] == OpenChar(r.startInclusive)
    requires SpellsAt(s, 1, FormatBound(r.start)) && b == 1 + |FormatBound(r.start)| && b < |s| && s[b] == ','
    requires SpellsAt(s, b + 1, FormatBound(r.end)) && d == b + 1 + |FormatBound(r.end)|
    requires d < |s| && s[d] == CloseChar(r.endInclusive) && !IsEndOfInput(ItemAt(s, d + 1))
    ensures ParseInterval(s) == Failure(Error(EndExpected, d + 1))
  {
    IntervalBoundsOf(s, r, b, d);
    IntervalTrailingSteps(s, r, b, d);
  }

  /** The two bounds of a formatted valid range, read back between its brackets and its comma. */
  lemma IntervalBoundsOf(s: string, r: VersionRange, b: nat, d: nat)
    requires VersionRanges.Valid(r)
    requires SpellsAt(s, 1, FormatBound(r.start)) && b == 1 + |FormatBound(r.start)| && b < |s| && s[b] == ','
    requires SpellsAt(s, b + 1, FormatBound(r.end)) && d == b + 1 + |FormatBound(r.end)|
    requires d < |s| && s[d] == CloseChar(r.endInclusive)
    ensures StartBound(s, 1) == Success(Parsed(r.start, b))
    ensures EndBound(s, b + 1) == Success(Parsed((r.end, r.endInclusive), d + 1))
  {
    assert StartBound(s, 1) == Success(Parsed(r.start, b)) by {
      StartBoundOf(s, 1, r.start, b);
    }
    assert EndBound(s, b + 1) == Success(Parsed((r.end, r.endInclusive), d + 1)) by {
      EndBoundOf(s, b + 1, r.end, r.endInclusive, d);
    }
  }

  /**
    * A range in interval notation followed by anything but the end of input fails with
    * `EndExpected` just after its closing bracket.
    */
  lemma IntervalTrailing(r: VersionRange, t: string)
    requires VersionRanges.Valid(r) && |t| > 0 && t[0] != EndOfInputValue
    ensures Parse(Format(r) + t) == Failure(Error(EndExpected, |Format(r)|))
  {
    var s := Format(r) + t;
    IntervalTrailingIn(s, r, t);
    IntervalDispatch(s);
  }

  /** `parseVersionRange` on a formatted range followed by `t`, and the bracket that opens it. */
  lemma IntervalTrailingIn(s: string, r: VersionRange, t: string)
    requires VersionRanges.Valid(r) && s == Format(r) + t && |t| > 0 && t[0] != EndOfInputValue
    ensures |s| > 0 && (s[0] == '[' || s[0] == '(')
    ensures ParseInterval(s) == Failure(Error(EndExpected, |Format(r)|))
  {
    var b, d := IntervalLayoutBefore(s, r, t);
    IntervalTrailingAt(s, r, b, d);
  }

  /** The places in a formatted range followed by `t`: the comma at `b`, the closing bracket at `d`, then `t`. */
  lemma IntervalLayoutBefore(s: string, r: VersionRange, t: string) returns (b: nat, d: nat)
    requires s == Format(r) + t && |t| > 0 && t[0] != EndOfInputValue
    ensures 0 < |s| && (s[0] == '[' || s[0] == '(') && s[0] == OpenChar(r.startInclusive)
    ensures SpellsAt(s, 1, FormatBound(r.start)) && b == 1 + |FormatBound(r.start)| && b < |s| && s[b] == ','
    ensures SpellsAt(s, b + 1, FormatBound(r.end)) && d == b + 1 + |FormatBound(r.end)|
    ensures d < |s| && s[d] == CloseChar(r.endInclusive) && !IsEndOfInput(ItemAt(s, d + 1))
    ensures d + 1 == |Format(r)|
  {
    var f := Format(r);
    b, d := IntervalLayout(f, r);
    SpellsAtJoined(s, f, t);
    SpellsAtWithin(s, 0, f, 1, FormatBound(r.start));
    SpellsAtWithin(s, 0, f, b + 1, FormatBound(r.end));
    SpellsAtItem(s, 0, f, 0);
    SpellsAtItem(s, 0, f, b);
    SpellsAtItem(s, 0, f, d);
    SpellsAtItem(s, |f|, t, 0);
  }

  /*
   * Globs
   */

  /** `parseVersionGlob` on numbered bounds read up to `e`, then another character. */
  lemma GlobTrailingSteps(s: string, low: Versions.Version, high: Versions.Version, e: nat)
    requires 0 < |s| && DigitChar(s[0])
    requires GlobBounds(s) == Success(Parsed((low, high), e)) && !IsEndOfInput(ItemAt(s, e))
    ensures ParseGlob(s) == Failure(Error(EndExpected, e))
  {
  }

  /** `+` or `*` followed by anything but the end of input fails with `EndExpected` at the second character. */
  lemma BareGlobTrailing(g: char, t: string)
    requires (g == '+' || g == '*') && |t| > 0 && t[0] != EndOfInputValue
    ensures Parse([g] + t) == Failure(Error(EndExpected, 1))
  {
    var s := [g] + t;
    assert s[0] == g && s[1] == t[0];
    GlobDispatch(s);
  }

  /** `GlobBounds` on `M.+` with the major number read up to `a`, whatever follows. */
  lemma MajorGlobBounds(s: string, m: nat, a: nat)
    requires SpellsAt(s, 0, Decimal(m)) && a == |Decimal(m)| && a + 1 < |s| && s[a] == '.' && s[a + 1] == '+'
    ensures GlobBounds(s) == Success(Parsed((Versions.Release(m, 0, 0), Versions.Release(m + 1, 0, 0)), a + 2))
  {
    VersionRoundTrip.ConsumeNumberOf(s, 0, m);
  }

  /** `M.+` followed by anything but the end of input fails with `EndExpected` just after the `+`. */
  lemma MajorGlobTrailing(m: nat, t: string)
    requires |t| > 0 && t[0] != EndOfInputValue
    ensures Parse(MajorGlob(m) + t) == Failure(Error(EndExpected, |MajorGlob(m)|))
  {
    var s := MajorGlob(m) + t;
    MajorGlobTrailingIn(s, m, t);
    GlobDispatch(s);
  }

  /** `M.+` followed by `t`, read at the place of its number. */
  lemma MajorGlobTrailingIn(s: string, m: nat, t: string)
    requires s == MajorGlob(m) + t && |t| > 0 && t[0] != EndOfInputValue
    ensures 0 < |s| && DigitChar(s[0]) && ParseGlob(s) == Failure(Error(EndExpected, |MajorGlob(m)|))
  {
    var a := |Decimal(m)|;
    assert |MajorGlob(m)| == a + 2;
    assert SpellsAt(s, 0, Decimal(m)) && a + 2 < |s| && s[a] == '.' && s[a + 1] == '+'
        && DigitChar(s[0]) && !IsEndOfInput(ItemAt(s, a + 2)) by {
      SpellsAtJoined(s, MajorGlob(m), t);
      SpellsAtItem(s, a + 2, t, 0);
      MajorGlobParts(s, Decimal(m));
      SpellsAtItem(s, 0, Decimal(m), 0);
    }
    MajorGlobBounds(s, m, a);
    GlobTrailingSteps(s, Versions.Release(m, 0, 0), Versions.Release(m + 1, 0, 0), a + 2);
  }

  /** `GlobBounds` on `M.m.+` with the numbers read up to `a` and `b`, whatever follows. */
  lemma MinorGlobBoundsBefore(s: string, m: nat, n: nat, a: nat, b: nat)
    requires a < |s| && s[a] == '.' && b + 1 < |s| && s[b] == '.' && s[b + 1] == '+'
    requires VersionParser.ConsumeNumber(s, 0) == Success(Parsed(m, a))
    requires VersionParser.ConsumeNumber(s, a + 1) == Success(Parsed(n, b))
    ensures GlobBounds(s) == Success(Parsed((Versions.Release(m, n, 0), Versions.Release(m, n + 1, 0)), b + 2))
  {
  }

  /** `M.m.+` followed by anything but the end of input fails with `EndExpected` just after the `+`. */
  lemma MinorGlobTrailing(m: nat, n: nat, t: string)
    requires |t| > 0 && t[0] != EndOfInputValue
    ensures Parse(MinorGlob(m, n) + t) == Failure(Error(EndExpected, |MinorGlob(m, n)|))
  {
    var s := MinorGlob(m, n) + t;
    var a := |Decimal(m)|;
    MinorGlobLayoutIn(s, m, n, t);
    MinorGlobTrailingAt(s, m, n, a, a + 1 + |Decimal(n)|, |MinorGlob(m, n)|);
    GlobDispatch(s);
  }

  /** `M.m.+` followed by `t`, read at the places of its numbers. */
  lemma MinorGlobLayoutIn(s: string, m: nat, n: nat, t: string)
    requires s == MinorGlob(m, n) + t && |t| > 0 && t[0] != EndOfInputValue
    ensures var a := |Decimal(m)|;
            var b := a + 1 + |Decimal(n)|;
            && SpellsAt(s, 0, Decimal(m)) && a < |s| && s[a] == '.'
            && SpellsAt(s, a + 1, Decimal(n))
            && b + 2 < |s| && s[b] == '.' && s[b + 1] == '+' && s[b + 2] != EndOfInputValue
            && |MinorGlob(m, n)| == b + 2
  {
    var d1, d2 := Decimal(m), Decimal(n);
    assert MinorGlob(m, n) == d1 + "." + d2 + ".+";
    MinorGlobLayoutBefore(s, d1, d2, t);
  }

  /** The places in `d1.d2.+` followed by `t`: the dots after the two numerals, the `+`, then `t`. */
  lemma MinorGlobLayoutBefore(s: string, d1: string, d2: string, t: string)
    requires s == d1 + "." + d2 + ".+" + t && |t| > 0
    ensures var a, b := |d1|, |d1| + 1 + |d2|;
            && SpellsAt(s, 0, d1) && a < |s| && s[a] == '.' && SpellsAt(s, a + 1, d2)
            && b + 2 < |s| && s[b] == '.' && s[b + 1] == '+' && s[b + 2] == t[0]
            && |d1 + "." + d2 + ".+"| == b + 2
  {
    var g := d1 + "." + d2 + ".+";
    SpellsAtJoined(s, g, t);
    SpellsAtItem(s, |g|, t, 0);
    MinorGlobParts(s, d1, d2);
  }

  /** `M.m.+` read at its places: the numbers up to `a` and `b`, then `.+` and another character. */
  lemma MinorGlobTrailingAt(s: string, m: nat, n: nat, a: nat, b: nat, e: nat)
    requires SpellsAt(s, 0, Decimal(m)) && a == |Decimal(m)| && a < |s| && s[a] == '.'
    requires SpellsAt(s, a + 1, Decimal(n)) && b == a + 1 + |Decimal(n)|
    requires b + 2 < |s| && s[b] == '.' && s[b + 1] == '+' && s[b + 2] != EndOfInputValue && e == b + 2
    ensures 0 < |s| && DigitChar(s[0]) && ParseGlob(s) == Failure(Error(EndExpected, e))
  {
    SpellsAtItem(s, 0, Decimal(m), 0);
    VersionRoundTrip.ConsumeNumberOf(s, 0, m);
    VersionRoundTrip.ConsumeNumberOf(s, a + 1, n);
    MinorGlobBoundsBefore(s, m, n, a, b);
    GlobTrailingSteps(s, Versions.Release(m, n, 0), Versions.Release(m, n + 1, 0), e);
  }

  /** `GlobBounds` on `M.m.p` with the numbers read up to `a`, `b` and `e`. */
  lemma PatchGlobBoundsBefore(s: string, c: CoreVersions.CoreVersion, a: nat, b: nat, e: nat)
    requires a < |s| && s[a] == '.' && b < |s| && s[b] == '.'
    requires VersionParser.ConsumeNumber(s, 0) == Success(Parsed(c.major, a))
    requires VersionParser.ConsumeNumber(s, a + 1) == Success(Parsed(c.minor, b))
    requires VersionParser.ConsumeNumber(s, b + 1) == Success(Parsed(c.patch, e))
    ensures GlobBounds(s) == Success(Parsed((Versions.Release(c.major, c.minor, c.patch), Versions.Release(c.major, c.minor, c.patch + 1)), e))
  {
  }

  /**
    * A plain core `M.m.p` followed by a character that is neither a digit nor the end of
    * input fails with `EndExpected` at that character: a glob takes no pre-release.
    */
  lemma PatchGlobTrailing(c: CoreVersions.CoreVersion, t: string)
    requires |t| > 0 && t[0] != EndOfInputValue && !DigitChar(t[0])
    ensures Parse(CoreVersions.Format(c) + t) == Failure(Error(EndExpected, |CoreVersions.Format(c)|))
  {
    var s := CoreVersions.Format(c) + t;
    PatchGlobTrailingIn(s, c, t);
    GlobDispatch(s);
  }

  /** A plain core followed by `t`, read at the places of its numbers. */
  lemma PatchGlobTrailingIn(s: string, c: CoreVersions.CoreVersion, t: string)
    requires s == CoreVersions.Format(c) + t && |t| > 0 && t[0] != EndOfInputValue && !DigitChar(t[0])
    ensures 0 < |s| && DigitChar(s[0]) && ParseGlob(s) == Failure(Error(EndExpected, |CoreVersions.Format(c)|))
  {
    var f := CoreVersions.Format(c);
    var d1, d2, d3 := Decimal(c.major), Decimal(c.minor), Decimal(c.patch);
    var a, b := |d1|, |d1| + 1 + |d2|;
    assert |f| == b + 1 + |d3|;
    assert && SpellsAt(s, 0, d1) && a < |s| && s[a] == '.'
           && SpellsAt(s, a + 1, d2) && b < |s| && s[b] == '.'
           && SpellsAt(s, b + 1, d3) && |f| < |s| && s[|f|] == t[0] by {
      assert f == d1 + "." + d2 + "." + d3;
      SpellsAtJoined(s, f, t);
      SpellsAtItem(s, |f|, t, 0);
      VersionRoundTrip.CoreParts(s, 0, d1, d2, d3);
    }
    PatchGlobTrailingAt(s, c, a, b, |f|);
  }

  /** `M.m.p` read at its places: the numbers up to `a`, `b` and `e`, then a character that is no digit. */
  lemma PatchGlobTrailingAt(s: string, c: CoreVersions.CoreVersion, a: nat, b: nat, e: nat)
    requires SpellsAt(s, 0, Decimal(c.major)) && a == |Decimal(c.major)| && a < |s| && s[a] == '.'
    requires SpellsAt(s, a + 1, Decimal(c.minor)) && b == a + 1 + |Decimal(c.minor)| && b < |s| && s[b] == '.'
    requires SpellsAt(s, b + 1, Decimal(c.patch)) && e == b + 1 + |Decimal(c.patch)|
    requires e < |s| && s[e] != EndOfInputValue && !DigitChar(s[e])
    ensures 0 < |s| && DigitChar(s[0]) && ParseGlob(s) == Failure(Error(EndExpected, e))
  {
    SpellsAtItem(s, 0, Decimal(c.major), 0);
    VersionRoundTrip.ConsumeNumberOf(s, 0, c.major);
    VersionRoundTrip.ConsumeNumberOf(s, a + 1, c.minor);
    VersionRoundTrip.ConsumeNumberOf(s, b + 1, c.patch);
    PatchGlobBoundsBefore(s, c, a, b, e);
    GlobTrailingSteps(s, Versions.Release(c.major, c.minor, c.patch), Versions.Release(c.major, c.minor, c.patch + 1), e);
  }

  /*
   * Comparison and caret
   */

  /**
    * A version that runs to the end of input, followed by text that cannot continue it:
    * the version parser's trailing-character error, moved by `pos` and kept as the cause.
    */
  lemma VersionToEndFails(s: string, pos: nat, v: Versions.Version, t: string, e: ParseError)
    requires Versions.Valid(v) && |t| > 0 && VersionErrors.CannotFollow(v, t[0]) && EndOfInputValue !in t
    requires SpellsAt(s, pos, Versions.Format(v) + t) && |s| == pos + |Versions.Format(v) + t|
    requires e == ParseError(TrailingCharacter, pos + |Versions.Format(v)|, Some(Error(TrailingCharacter, |Versions.Format(v)|)))
    ensures ConsumeVersionUntil(s, pos, []) == Failure(e)
  {
    VersionRunsToEnd(s, pos, v, t);
    VersionTextTrailing(s, pos, v, t);
    VersionTextFails(s, pos, |Versions.Format(v)|, e);
  }

  /** The text the version parser is given, read from `pos` to the end of input, holds the version and then `t`. */
  lemma VersionTextTrailing(s: string, pos: nat, v: Versions.Version, t: string)
    requires Versions.Valid(v) && |t| > 0 && VersionErrors.CannotFollow(v, t[0])
    requires SpellsAt(s, pos, Versions.Format(v) + t) && |s| == pos + |Versions.Format(v) + t|
    ensures VersionParser.Parse(VersionParser.Text(s, pos, |s|)) == Failure(Error(TrailingCharacter, |Versions.Format(v)|))
  {
    VersionParser.TextOf(s, pos, Versions.Format(v) + t);
    VersionErrors.TrailingAfterVersionIn(VersionParser.Text(s, pos, |s|), v, t);
  }

  /** `consumeVersionUntil` with no stops on a version text that runs to the end of input and has a trailing character at `n`. */
  lemma VersionTextFails(s: string, pos: nat, n: nat, e: ParseError)
    requires pos <= |s| && VersionTextEnd(s, pos, []) == Success(|s|)
    requires VersionParser.Parse(VersionParser.Text(s, pos, |s|)) == Failure(Error(TrailingCharacter, n))
    requires e == ParseError(TrailingCharacter, pos + n, Some(Error(TrailingCharacter, n)))
    ensures ConsumeVersionUntil(s, pos, []) == Failure(e)
  {
  }

  /** A valid version followed by text free of `'\0'` is read by the loop of `consumeVersionUntil` with no stops up to the end of input. */
  lemma VersionRunsToEnd(s: string, pos: nat, v: Versions.Version, t: string)
    requires Versions.Valid(v) && |t| > 0 && EndOfInputValue !in t
    requires SpellsAt(s, pos, Versions.Format(v) + t) && |s| == pos + |Versions.Format(v) + t|
    ensures VersionTextEnd(s, pos, []) == Success(|s|)
  {
    var f := Versions.Format(v);
    FormatVersionText(v);
    forall i | pos <= i < |s|
      ensures s[i] != EndOfInputValue
    {
      assert s[i] == (f + t)[i - pos];
      if i - pos < |f| {
        assert VersionChar(f[i - pos]);
      } else {
        assert (f + t)[i - pos] == t[i - pos - |f|];
      }
    }
    VersionTextEndIs(s, pos, |s|, []);
  }

  /** `parse` on a comparison with the operator read up to `pos` and a version that fails to parse from there. */
  lemma ComparisonFails(s: string, greaterThan: bool, inclusive: bool, pos: nat, e: ParseError)
    requires 0 < |s| && s[0] == (if greaterThan then '>' else '<')
    requires pos == |Operator(greaterThan, inclusive)| && pos <= |s|
    requires inclusive ==> s[1] == '='
    requires !inclusive ==> !Is(ItemAt(s, 1), '=')
    requires ConsumeVersionUntil(s, pos, []) == Failure(e)
    ensures Parse(s) == Failure(e)
  {
    ComparisonDispatch(s);
  }

  /**
    * An operator and a valid version followed by text that cannot continue the version:
    * the version reaches to the end of input, so the error is the version parser's
    * trailing character, re-positioned past the operator, and never `EndExpected`.
    */
  lemma ComparisonTrailing(v: Versions.Version, greaterThan: bool, inclusive: bool, t: string)
    requires Versions.Valid(v) && |t| > 0 && VersionErrors.CannotFollow(v, t[0]) && EndOfInputValue !in t
    ensures var op, n := Operator(greaterThan, inclusive), |Versions.Format(v)|;
            Parse(op + Versions.Format(v) + t)
            == Failure(ParseError(TrailingCharacter, |op| + n, Some(Error(TrailingCharacter, n))))
  {
    ComparisonTrailingIn(Operator(greaterThan, inclusive) + Versions.Format(v) + t, v, greaterThan, inclusive, t);
  }

  /** `ComparisonTrailing` for any name `s` of the text: the operator, the version, then `t`. */
  lemma ComparisonTrailingIn(s: string, v: Versions.Version, greaterThan: bool, inclusive: bool, t: string)
    requires Versions.Valid(v) && |t| > 0 && VersionErrors.CannotFollow(v, t[0]) && EndOfInputValue !in t
    requires s == Operator(greaterThan, inclusive) + Versions.Format(v) + t
    ensures Parse(s) == Failure(ParseError(TrailingCharacter, |Operator(greaterThan, inclusive)| + |Versions.Format(v)|,
                                           Some(Error(TrailingCharacter, |Versions.Format(v)|))))
  {
    assert s == Operator(greaterThan, inclusive) + (Versions.Format(v) + t);
    assert (Versions.Format(v) + t)[0] != '=' by {
      FormatNotEmpty(v);
    }
    OperatorLayout(s, greaterThan, inclusive, Versions.Format(v) + t);
    var e := ParseError(TrailingCharacter, |Operator(greaterThan, inclusive)| + |Versions.Format(v)|,
                        Some(Error(TrailingCharacter, |Versions.Format(v)|)));
    ComparisonTrailingAt(s, v, greaterThan, inclusive, t, e);
  }

  /** An operator at the start, then a valid version and `t` up to the end of input. */
  lemma ComparisonTrailingAt(s: string, v: Versions.Version, greaterThan: bool, inclusive: bool, t: string, e: ParseError)
    requires Versions.Valid(v) && |t| > 0 && VersionErrors.CannotFollow(v, t[0]) && EndOfInputValue !in t
    requires 0 < |s| && s[0] == (if greaterThan then '>' else '<')
    requires (inclusive ==> 1 < |s| && s[1] == '=') && (!inclusive ==> !Is(ItemAt(s, 1), '='))
    requires var pos := |Operator(greaterThan, inclusive)|;
             SpellsAt(s, pos, Versions.Format(v) + t) && |s| == pos + |Versions.Format(v) + t|
    requires e == ParseError(TrailingCharacter, |Operator(greaterThan, inclusive)| + |Versions.Format(v)|,
                             Some(Error(TrailingCharacter, |Versions.Format(v)|)))
    ensures Parse(s) == Failure(e)
  {
    VersionToEndFails(s, |Operator(greaterThan, inclusive)|, v, t, e);
    ComparisonFails(s, greaterThan, inclusive, |Operator(greaterThan, inclusive)|, e);
  }

  /** The input: an operator, then a non-empty `u` that does not start with `=`; read at its places. */
  lemma OperatorLayout(s: string, greaterThan: bool, inclusive: bool, u: string)
    requires s == Operator(greaterThan, inclusive) + u && 0 < |u| && u[0] != '='
    ensures var pos := |Operator(greaterThan, inclusive)|;
            && 0 < |s| && s[0] == (if greaterThan then '>' else '<')
            && (inclusive ==> 1 < |s| && s[1] == '=') && (!inclusive ==> !Is(ItemAt(s, 1), '='))
            && SpellsAt(s, pos, u) && |s| == pos + |u|
  {
    var op := Operator(greaterThan, inclusive);
    SpellsAtJoined(s, op, u);
    SpellsAtItem(s, |op|, u, 0);
    SpellsAtItem(s, 0, op, 0);
    if inclusive {
      SpellsAtItem(s, 0, op, 1);
    }
  }

  /** `^` and a valid version followed by text that cannot continue it: as for a comparison, the re-positioned trailing character. */
  lemma CaretTrailing(v: Versions.Version, t: string)
    requires Versions.Valid(v) && |t| > 0 && VersionErrors.CannotFollow(v, t[0]) && EndOfInputValue !in t
    ensures var n := |Versions.Format(v)|;
            Parse("^" + Versions.Format(v) + t) == Failure(ParseError(TrailingCharacter, 1 + n, Some(Error(TrailingCharacter, n))))
  {
    CaretTrailingIn("^" + Versions.Format(v) + t, v, t);
  }

  /** `CaretTrailing` for any name `s` of the text: `^`, the version, then `t`. */
  lemma CaretTrailingIn(s: string, v: Versions.Version, t: string)
    requires Versions.Valid(v) && |t| > 0 && VersionErrors.CannotFollow(v, t[0]) && EndOfInputValue !in t
    requires s == "^" + Versions.Format(v) + t
    ensures Parse(s) == Failure(ParseError(TrailingCharacter, 1 + |Versions.Format(v)|, Some(Error(TrailingCharacter, |Versions.Format(v)|))))
  {
    assert s == "^" + (Versions.Format(v) + t);
    CaretLayout(s, Versions.Format(v) + t);
    CaretTrailingAt(s, v, t);
  }

  /** `^` at the start, then a valid version and `t` up to the end of input. */
  lemma CaretTrailingAt(s: string, v: Versions.Version, t: string)
    requires Versions.Valid(v) && |t| > 0 && VersionErrors.CannotFollow(v, t[0]) && EndOfInputValue !in t
    requires 0 < |s| && s[0] == '^' && SpellsAt(s, 1, Versions.Format(v) + t) && |s| == 1 + |Versions.Format(v) + t|
    ensures Parse(s) == Failure(ParseError(TrailingCharacter, 1 + |Versions.Format(v)|, Some(Error(TrailingCharacter, |Versions.Format(v)|))))
  {
    var e := ParseError(TrailingCharacter, 1 + |Versions.Format(v)|, Some(Error(TrailingCharacter, |Versions.Format(v)|)));
    VersionToEndFails(s, 1, v, t, e);
    CaretFailSteps(s, e);
  }

  /** The input `^` followed by `u` starts with `^` and reads `u` from its second character to its end. */
  lemma CaretLayout(s: string, u: string)
    requires s == "^" + u
    ensures 0 < |s| && s[0] == '^' && SpellsAt(s, 1, u) && |s| == 1 + |u|
  {
    SpellsAtJoined(s, "^", u);
  }

  /** `parse`, dispatched on a leading `^`, with a version after it that fails to parse. */
  lemma CaretFailSteps(s: string, e: ParseError)
    requires 0 < |s| && s[0] == '^' && ConsumeVersionUntil(s, 1, []) == Failure(e)
    ensures Parse(s) == Failure(e)
  {
    assert "[("[0] == '[' && "[("[1] == '(';
    assert "><"[0] == '>' && "><"[1] == '<';
  }

  /**
    * A failing comparison or caret reports an error of its version: one the version
    * parser raised, re-positioned, or the end of input inside the version; never
    * `EndExpected`, since the version reaches to the end of input.
    */
  lemma VersionToEndNeverEndExpected(s: string)
    requires 0 < |s| && (s[0] == '>' || s[0] == '<' || s[0] == '^') && Parse(s).Failure?
    ensures Parse(s).error.cause.Some? || Parse(s).error.kind == UnexpectedEnd
    ensures Parse(s).error.kind != EndExpected
  {
    if s[0] == '^' {
      CaretNeverEndExpected(s);
    } else {
      ComparisonNeverEndExpected(s);
    }
  }

  /** `VersionToEndNeverEndExpected` for a comparison. */
  lemma ComparisonNeverEndExpected(s: string)
    requires 0 < |s| && (s[0] == '>' || s[0] == '<') && Parse(s).Failure?
    ensures Parse(s).error.cause.Some? || Parse(s).error.kind == UnexpectedEnd
    ensures Parse(s).error.kind != EndExpected
  {
    ComparisonDispatch(s);
    ComparisonFailure(s);
  }

  /** `VersionToEndNeverEndExpected` for a caret. */
  lemma CaretNeverEndExpected(s: string)
    requires 0 < |s| && s[0] == '^' && Parse(s).Failure?
    ensures Parse(s).error.cause.Some? || Parse(s).error.kind == UnexpectedEnd
    ensures Parse(s).error.kind != EndExpected
  {
    CaretFailure(s);
  }

  /** A failing comparison fails in `consumeVersionUntil`, which runs to the end of input when it succeeds. */
  lemma ComparisonFailure(s: string)
    requires ParseComparison(s).Failure?
    ensures ParseComparison(s).error.cause.Some? || ParseComparison(s).error.kind == UnexpectedEnd
    ensures ParseComparison(s).error.kind != EndExpected
  {
    var afterOperator := Advance(s, 0);
    var pos := if Is(ItemAt(s, afterOperator), '=') then afterOperator + 1 else afterOperator;
    if ConsumeVersionUntil(s, pos, []).Success? {
      ConsumeVersionUntilSound(s, pos, []);
    }
  }

  /** A failing caret, dispatched on its `^`, fails in `consumeVersionUntil` in the same way. */
  lemma CaretFailure(s: string)
    requires 0 < |s| && s[0] == '^' && Parse(s).Failure?
    ensures Parse(s) == ParseCaret(s)
    ensures ParseCaret(s).error.cause.Some? || ParseCaret(s).error.kind == UnexpectedEnd
    ensures ParseCaret(s).error.kind != EndExpected
  {
    assert "[("[0] == '[' && "[("[1] == '(';
    assert "><"[0] == '>' && "><"[1] == '<';
    if ConsumeVersionUntil(s, 1, []).Success? {
      ConsumeVersionUntilSound(s, 1, []);
    }
  }

  /*
   * Examples
   */

  /** Text after the closing bracket of an interval is reported just after the bracket. */
  lemma IntervalTrailingExample()
    ensures Parse("[1.0.0,2.0.0]x") == Failure(Error(EndExpected, 13))
  {
    var r := VersionRange(Some(Versions.Release(1, 0, 0)), true, Some(Versions.Release(2, 0, 0)), true);
    assert VersionRanges.Valid(r) by {
      ReleaseValid(1, 0, 0);
      ReleaseValid(2, 0, 0);
    }
    assert Format(r) + "x" == "[1.0.0,2.0.0]x" by {
      assert Versions.Format(Versions.Release(1, 0, 0)) == "1.0.0";
      assert Versions.Format(Versions.Release(2, 0, 0)) == "2.0.0";
      assert Format(r) == "[1.0.0,2.0.0]";
    }
    IntervalTrailing(r, "x");
  }

  /** An interval with no closing bracket is reported at the end of input, where the end bound's version runs out. */
  lemma MissingCloseExample()
    ensures Parse("(1.0.0,2.0.0") == Failure(Error(UnexpectedEnd, 12))
  {
    var v := Versions.Release(1, 0, 0);
    var s := [OpenChar(false)] + Versions.Format(v) + "," + "2.0.0";
    assert s == "(1.0.0,2.0.0" by {
      assert Versions.Format(v) == "1.0.0";
    }
    ReleaseValid(1, 0, 0);
    MissingClose(v, false, "2.0.0");
  }

  /**
    * An interval with a valid start bound and its comma, followed by text with no closing
    * bracket and no `'\0'`, fails with `UnexpectedEnd` at the end of input: the loop of
    * `consumeVersionUntil` for the end bound runs out before any stop.
    */
  lemma MissingClose(v: Versions.Version, inclusive: bool, t: string)
    requires Versions.Valid(v) && ']' !in t && ')' !in t && EndOfInputValue !in t
    ensures var s := [OpenChar(inclusive)] + Versions.Format(v) + "," + t;
            Parse(s) == Failure(Error(UnexpectedEnd, |s|))
  {
    var f := Versions.Format(v);
    var s := [OpenChar(inclusive)] + f + "," + t;
    var b := 1 + |f|;
    assert SpellsAt(s, 1, FormatBound(Some(v))) && b < |s| && s[b] == ',' && s[b + 1..] == t by {
      assert s[1..b] == f;
      SpellsAtSlice(s, 1, f);
    }
    StartBoundOf(s, 1, Some(v), b);
    MissingCloseAfter(s, Some(v), b);
  }

  /** An interval whose start bound and comma are read, with no closing bracket and no `'\0'` after them, runs into the end of input. */
  lemma MissingCloseAfter(s: string, start: Option<Versions.Version>, b: nat)
    requires 0 < |s| && (s[0] == '[' || s[0] == '(')
    requires StartBound(s, 1) == Success(Parsed(start, b)) && b < |s| && s[b] == ','
    requires ']' !in s[b + 1..] && ')' !in s[b + 1..] && EndOfInputValue !in s[b + 1..]
    ensures Parse(s) == Failure(Error(UnexpectedEnd, |s|))
  {
    NoCloseRunsOut(s, b + 1);
    if b + 1 < |s| {
      assert s[b + 1] == s[b + 1..][0];
    }
    IsAnyOfCloses(ItemAt(s, b + 1));
    EndBoundRunsOut(s, b + 1, Error(UnexpectedEnd, |s|));
    IntervalEndFails(s, start, b, Error(UnexpectedEnd, |s|));
  }

  /** With no closing bracket and no `'\0'` from `k` on, the loop for an end bound runs into the end of input. */
  lemma {:induction false} NoCloseRunsOut(s: string, k: nat)
    requires k <= |s| && ']' !in s[k..] && ')' !in s[k..] && EndOfInputValue !in s[k..]
    ensures VersionTextEnd(s, k, "])") == Failure(Error(UnexpectedEnd, |s|))
    decreases |s| - k
  {
    if k < |s| {
      assert s[k] == s[k..][0];
      assert s[k + 1..] == s[k..][1..];
      if k + 1 < |s| {
        assert s[k + 1] == s[k..][1];
      }
      IsAnyOfCloses(ItemAt(s, k + 1));
      NoCloseRunsOut(s, k + 1);
    }
  }

  /** An end bound whose version text runs into the end of input fails where the loop does. */
  lemma EndBoundRunsOut(s: string, pos: nat, e: ParseError)
    requires pos <= |s| && !IsAnyOf(ItemAt(s, pos), "])") && VersionTextEnd(s, pos, "])") == Failure(e)
    ensures EndBound(s, pos) == Failure(e)
  {
  }

  /** An interval whose start bound and comma are read, and whose end bound fails, fails with that error. */
  lemma IntervalEndFails(s: string, start: Option<Versions.Version>, b: nat, e: ParseError)
    requires 0 < |s| && (s[0] == '[' || s[0] == '(')
    requires StartBound(s, 1) == Success(Parsed(start, b)) && b < |s| && s[b] == ','
    requires EndBound(s, b + 1) == Failure(e)
    ensures Parse(s) == Failure(e)
  {
    IntervalDispatch(s);
    assert Advance(s, 0) == 1;
    assert VersionParser.ConsumeCharacter(s, b, ',') == Success(b + 1);
  }

  /** After a comparison, a character that cannot continue the version is reported by the version parser, moved past the operator. */
  lemma ComparisonTrailingExample()
    ensures Parse(">1.0.0x") == Failure(ParseError(TrailingCharacter, 6, Some(Error(TrailingCharacter, 5))))
  {
    var v := Versions.Release(1, 0, 0);
    var s := Operator(true, false) + Versions.Format(v) + "x";
    assert s == ">1.0.0x" && |Operator(true, false)| == 1 && |Versions.Format(v)| == 5 by {
      assert Versions.Format(v) == "1.0.0";
    }
    ReleaseValid(1, 0, 0);
    ComparisonTrailing(v, true, false, "x");
  }

  /** After a glob, any further character is reported where it stands: a bare glob takes nothing after it, a core glob no pre-release. */
  lemma BareGlobTrailingExample()
    ensures Parse("+x") == Failure(Error(EndExpected, 1))
  {
    BareGlobTrailing('+', "x");
    assert ['+'] + "x" == "+x";
  }

  /** A glob of a whole core version followed by a pre-release is reported after the core. */
  lemma PatchGlobTrailingExample()
    ensures Parse("1.2.3-beta") == Failure(Error(EndExpected, 5))
  {
    var c := CoreVersions.CoreVersion(1, 2, 3);
    assert CoreVersions.Format(c) + "-beta" == "1.2.3-beta" && |CoreVersions.Format(c)| == 5 by {
      assert CoreVersions.Format(c) == "1.2.3";
    }
    PatchGlobTrailing(c, "-beta");
  }
}

=== FILE: version_range_parser.dfy ===
/**
  * `VersionRangeParser.java`: reads a version range in one of four notations, chosen by
  * the first character:
  *
  *   - interval notation `[1.0.0,2.0.0)`, with `[`/`]` inclusive, `(`/`)` exclusive and
  *     either bound possibly empty;
  *   - a comparison `>1.0.0`, `>=1.0.0`, `<1.0.0` or `<=1.0.0`;
  *   - a caret `^1.2.3`, up to the next increment of the first non-zero component;
  *   - a glob `1.+`, `1.2.+`, `1.2.3`, or `+`/`*` for every version.
  *
  * As in `VersionParser`, the cursor `pos` stands for the stream state after `pos`
  * consumed characters, and `ItemAt(s, pos)` is its current character. A version inside
  * a range is cut out of the input and handed to the version parser; an error there is
  * re-positioned into the range string and keeps the original error as its cause.
  */
module VersionRangeParser {
  import opened Wrappers
  import opened Chars
  import opened JavaLib
  import opened Lookahead
  import opened ParseErrors
  import CoreVersions
  import PreReleases
  import BuildMetadatas
  import Versions
  import VersionParser
  import VersionRoundTrip
  import opened VersionRanges

  /*
   * The alphabet of formatted versions
   */

  /** A character a formatted valid version can contain: `[0-9A-Za-z-]`, `.` or `+`. */
  predicate VersionChar(c: char) {
    AlphaNumericChar(c) || c == '.' || c == '+'
  }

  predicate VersionText(t: string) {
    forall i :: 0 <= i < |t| ==> VersionChar(t[i])
  }

  lemma VersionTextConcat(a: string, b: string)
    requires VersionText(a) && VersionText(b)
    ensures VersionText(a + b)
  {
    forall i | 0 <= i < |a + b|
      ensures VersionChar((a + b)[i])
    {
      if i >= |a| {
        assert (a + b)[i] == b[i - |a|];
      }
    }
  }

  lemma DecimalVersionText(n: nat)
    ensures VersionText(Decimal(n))
  {
    var d := Decimal(n);
    assert forall i :: 0 <= i < |d| ==> DigitChar(d[i]);
  }

  lemma {:induction false} JoinVersionText(ids: seq<PreReleases.Identifier>)
    requires PreReleases.ValidIdentifiers(ids)
    ensures VersionText(PreReleases.JoinIdentifiers(ids))
    decreases |ids|
  {
    if |ids| > 0 {
      var f := PreReleases.FormatIdentifier(ids[0]);
      assert PreReleases.IdentifierChars(f);
      assert VersionText(f);
      if |ids| > 1 {
        JoinVersionText(ids[1..]);
        VersionTextConcat(f, ".");
        VersionTextConcat(f + ".", PreReleases.JoinIdentifiers(ids[1..]));
      }
    }
  }

  /** The formatted text of a valid version is made of version characters only; in particular it holds no `,`, `]`, `)` or `'\0'`. */
  lemma FormatVersionText(v: Versions.Version)
    requires Versions.Valid(v)
    ensures VersionText(Versions.Format(v))
  {
    var c := v.core;
    DecimalVersionText(c.major);
    DecimalVersionText(c.minor);
    DecimalVersionText(c.patch);
    VersionTextConcat(Decimal(c.major), ".");
    VersionTextConcat(Decimal(c.major) + ".", Decimal(c.minor));
    VersionTextConcat(Decimal(c.major) + "." + Decimal(c.minor), ".");
    VersionTextConcat(Decimal(c.major) + "." + Decimal(c.minor) + ".", Decimal(c.patch));
    var p := PreReleases.Format(v.preRelease);
    if |v.preRelease.identifiers| > 0 {
      JoinVersionText(v.preRelease.identifiers);
      VersionTextConcat("-", PreReleases.JoinIdentifiers(v.preRelease.identifiers));
    }
    var b := BuildMetadatas.Format(v.buildMetadata);
    if |v.buildMetadata.text| > 0 {
      VersionTextConcat("+", v.buildMetadata.text);
    }
    VersionTextConcat(CoreVersions.Format(c), p);
    VersionTextConcat(CoreVersions.Format(c) + p, b);
  }

  /*
   * consumeVersionUntil
   */

  /**
    * What an error of the range grammar says about the character at its column: the
    * number and dot errors of the numbered globs, a missing expected character or closing
    * bracket, the end of input inside a version, and anything but the end of input after
    * a complete range. An error re-positioned from the version parser keeps the kind of
    * its cause and points at or after the cause's column.
    */
  predicate ErrorAt(s: string, e: ParseError)
  {
    && e.column <= |s|
    && match e.cause
       case Some(inner) => e.kind == inner.kind && inner.cause.None? && inner.column <= e.column
       case None =>
         match e.kind
         case NumericExpected => !IsDigit(ItemAt(s, e.column))
         case LeadingZero => Is(ItemAt(s, e.column), '0') && IsDigit(ItemAt(s, e.column + 1))
         case CharacterExpected(c) => !Is(ItemAt(s, e.column), c)
         case CloseExpected => !Is(ItemAt(s, e.column), ']') && !Is(ItemAt(s, e.column), ')')
         case UnexpectedEnd => IsEndOfInput(ItemAt(s, e.column))
         case EndExpected => !IsEndOfInput(ItemAt(s, e.column))
         case _ => false
  }

  /** The loop condition of `consumeVersionUntil`: one of `stops`, or the end of input when there are none. */
  predicate AtStop(c: Char, stops: seq<char>) {
    if |stops| > 0 then IsAnyOf(c, stops) else IsEndOfInput(c)
  }

  /**
    * The `do`/`while` loop of `consumeVersionUntil`: consume the character at `k`, failing
    * at the end of input, until the character under the cursor is a stop. The result is
    * the cursor after the version text.
    */
  function VersionTextEnd(s: string, k: nat, stops: seq<char>): (r: Result<nat, ParseError>)
    requires k <= |s|
    ensures r.Success? ==> k < r.value <= |s|
    ensures r.Failure? ==> r.error.kind == UnexpectedEnd && k <= r.error.column <= |s| && r.error.cause.None?
    ensures r.Failure? ==> IsEndOfInput(ItemAt(s, r.error.column))
    decreases |s| - k
  {
    var consumed := ItemAt(s, k);
    if IsEndOfInput(consumed) then Failure(Error(UnexpectedEnd, consumed.pos))
    else if AtStop(ItemAt(s, k + 1), stops) then Success(k + 1)
    else VersionTextEnd(s, k + 1, stops)
  }

  /** The version text is non-empty, free of `'\0'`, holds no stop after its first character, and is followed by a stop. */
  lemma {:induction false} VersionTextEndSound(s: string, k: nat, stops: seq<char>)
    requires k <= |s| && VersionTextEnd(s, k, stops).Success?
    ensures var e := VersionTextEnd(s, k, stops).value;
            && (forall i :: k <= i < e ==> s[i] != EndOfInputValue)
            && (forall i :: k < i < e ==> !AtStop(ItemAt(s, i), stops))
            && AtStop(ItemAt(s, e), stops)
    decreases |s| - k
  {
    if !AtStop(ItemAt(s, k + 1), stops) {
      VersionTextEndSound(s, k + 1, stops);
    }
  }

  /** Conversely, a non-empty stretch of that shape is exactly what the loop consumes. */
  lemma {:induction false} VersionTextEndIs(s: string, k: nat, e: nat, stops: seq<char>)
    requires k < e <= |s|
    requires forall i :: k <= i < e ==> s[i] != EndOfInputValue
    requires forall i :: k < i < e ==> !AtStop(ItemAt(s, i), stops)
    requires AtStop(ItemAt(s, e), stops)
    ensures VersionTextEnd(s, k, stops) == Success(e)
    decreases e - k
  {
    if k + 1 < e {
      VersionTextEndIs(s, k + 1, e, stops);
    }
  }

  /**
    * `consumeVersionUntil(test...)`: the text up to the next stop, parsed as a version. An
    * error of the version parser is moved by the offset of the text in the range string
    * and keeps the original error as its cause.
    */
  function ConsumeVersionUntil(s: string, pos: nat, stops: seq<char>): (r: Outcome<Versions.Version>)
    requires pos <= |s|
    ensures r.Success? ==> pos < r.value.next <= |s|
    ensures r.Failure? ==> r.error.column <= |s|
    ensures r.Failure? && r.error.cause.Some? ==> pos <= r.error.column
    ensures r.Failure? ==> ErrorAt(s, r.error) && (r.error.cause.None? ==> r.error.kind == UnexpectedEnd)
    ensures r.Failure? ==> r.error.kind != EndExpected
  {
    match VersionTextEnd(s, pos, stops)
    case Failure(e) => Failure(e)
    case Success(end) =>
      match VersionParser.Parse(VersionParser.Text(s, pos, end))
      case Success(v) => Success(Parsed(v, end))
      case Failure(e) => Failure(ParseError(e.kind, e.column + pos, Some(e)))
  }

  /** A version read by `consumeVersionUntil` is valid, is spelled by the input, and ends at a stop. */
  lemma ConsumeVersionUntilSound(s: string, pos: nat, stops: seq<char>)
    requires pos <= |s| && ConsumeVersionUntil(s, pos, stops).Success?
    ensures var r := ConsumeVersionUntil(s, pos, stops).value;
            var f := Versions.Format(r.value);
            && Versions.Valid(r.value) && SpellsAt(s, pos, f) && r.next == pos + |f|
            && AtStop(ItemAt(s, r.next), stops)
  {
    var e := VersionTextEnd(s, pos, stops).value;
    var t := VersionParser.Text(s, pos, e);
    VersionTextEndSound(s, pos, stops);
    VersionParser.TextSpells(s, pos, e);
    TextIsFormat(s, pos, e, t);
  }

  /** Text free of `'\0'` that the version parser accepts is the formatted text of its result. */
  lemma TextIsFormat(s: string, pos: nat, e: nat, t: string)
    requires pos <= e <= |s| && SpellsAt(s, pos, t) && |t| == e - pos
    requires forall i :: pos <= i < e ==> s[i] != EndOfInputValue
    requires VersionParser.Parse(t).Success?
    ensures Versions.Valid(VersionParser.Parse(t).value) && Versions.Format(VersionParser.Parse(t).value) == t
  {
    var f := Versions.Format(VersionParser.Parse(t).value);
    VersionParser.ParseSound(t);
  }

  /**
    * The error of a version that does not parse points at the same character of the range
    * string as the original error points at in the version text; an error at the end of
    * the version text points at the stop that ended it.
    */
  lemma VersionErrorRepositioned(s: string, pos: nat, stops: seq<char>)
    requires pos <= |s| && VersionTextEnd(s, pos, stops).Success?
    requires VersionParser.Parse(VersionParser.Text(s, pos, VersionTextEnd(s, pos, stops).value)).Failure?
    ensures var e := VersionTextEnd(s, pos, stops).value;
            var t := VersionParser.Text(s, pos, e);
            var inner := VersionParser.Parse(t).error;
            var outer := ConsumeVersionUntil(s, pos, stops).error;
            && outer.kind == inner.kind && outer.cause == Some(inner)
            && (inner.column < |t| ==> ItemAt(s, outer.column) == Char(t[inner.column], outer.column))
            && (inner.column == |t| ==> outer.column == e && AtStop(ItemAt(s, e), stops))
  {
    var e := VersionTextEnd(s, pos, stops).value;
    var t := VersionParser.Text(s, pos, e);
    var inner := VersionParser.Parse(t).error;
    VersionParser.TextSpells(s, pos, e);
    VersionTextEndSound(s, pos, stops);
    if inner.column < |t| {
      assert t[inner.column] == s[pos + inner.column];
    }
  }

  /** The stops of the interval notation cannot occur inside a formatted valid version. */
  predicate StopsOutsideVersions(stops: seq<char>) {
    forall j :: 0 <= j < |stops| ==> !VersionChar(stops[j])
  }

  /** A formatted valid version, followed by a stop, is read back by `consumeVersionUntil`. */
  lemma ConsumeVersionUntilOf(s: string, pos: nat, v: Versions.Version, stops: seq<char>, e: nat)
    requires Versions.Valid(v) && SpellsAt(s, pos, Versions.Format(v)) && e == pos + |Versions.Format(v)|
    requires StopsOutsideVersions(stops) && AtStop(ItemAt(s, e), stops)
    ensures ConsumeVersionUntil(s, pos, stops) == Success(Parsed(v, e))
  {
    VersionTextEndOf(s, pos, v, stops, e);
    TextIsFormatOf(s, pos, v, e);
    ConsumeVersionUntilSteps(s, pos, stops, v, e);
  }

  /** The formatted text of a valid version, cut out of the input, parses back as that version. */
  lemma TextIsFormatOf(s: string, pos: nat, v: Versions.Version, e: nat)
    requires Versions.Valid(v) && SpellsAt(s, pos, Versions.Format(v)) && e == pos + |Versions.Format(v)|
    ensures VersionParser.Parse(VersionParser.Text(s, pos, e)) == Success(v)
  {
    var t := VersionParser.Text(s, pos, e);
    assert t == Versions.Format(v) by { VersionParser.TextOf(s, pos, Versions.Format(v)); }
    VersionRoundTrip.ParseFormattedAs(v, t);
  }

  /** `consumeVersionUntil` when the loop stops at `e` and the text up to there parses as `v`. */
  lemma ConsumeVersionUntilSteps(s: string, pos: nat, stops: seq<char>, v: Versions.Version, e: nat)
    requires pos <= e <= |s| && VersionTextEnd(s, pos, stops) == Success(e)
    requires VersionParser.Parse(VersionParser.Text(s, pos, e)) == Success(v)
    ensures ConsumeVersionUntil(s, pos, stops) == Success(Parsed(v, e))
  {
  }

  /** The loop of `consumeVersionUntil` stops right after a formatted valid version followed by a stop. */
  lemma VersionTextEndOf(s: string, pos: nat, v: Versions.Version, stops: seq<char>, e: nat)
    requires Versions.Valid(v) && SpellsAt(s, pos, Versions.Format(v)) && e == pos + |Versions.Format(v)|
    requires StopsOutsideVersions(stops) && AtStop(ItemAt(s, e), stops)
    ensures VersionTextEnd(s, pos, stops) == Success(e)
  {
    FormatVersionText(v);
    FormatNotEmpty(v);
    NoStopsWithin(s, pos, Versions.Format(v), stops, e);
    VersionTextEndIs(s, pos, e, stops);
  }

  /** Where the input reads version characters, it holds neither `'\0'` nor a stop. */
  lemma NoStopsWithin(s: string, pos: nat, f: string, stops: seq<char>, e: nat)
    requires VersionText(f) && SpellsAt(s, pos, f) && e == pos + |f| && StopsOutsideVersions(stops)
    ensures forall i :: pos <= i < e ==> s[i] != EndOfInputValue
    ensures forall i :: pos < i < e ==> !AtStop(ItemAt(s, i), stops)
  {
    forall i | pos <= i < e
      ensures s[i] != EndOfInputValue && !AtStop(ItemAt(s, i), stops)
    {
      assert s[i] == f[i - pos];
      NotAStop(s[i], i, stops);
    }
  }

  /** A version character neither ends the input nor is one of the stops. */
  lemma NotAStop(c: char, i: nat, stops: seq<char>)
    requires VersionChar(c) && StopsOutsideVersions(stops)
    ensures c != EndOfInputValue && !AtStop(Char(c, i), stops)
  {
  }

  /** Every formatted version starts with a digit of its major component. */
  lemma FormatNotEmpty(v: Versions.Version)
    ensures |Versions.Format(v)| > 0 && DigitChar(Versions.Format(v)[0])
  {
    var d := Decimal(v.core.major);
    assert Versions.Format(v)[0] == d[0];
  }

  /*
   * Small consumers
   */

  /** `consumeEndOfInput`: succeeds exactly at the end of input; otherwise the error names the character found. */
  function ConsumeEndOfInput(s: string, pos: nat): (r: Result<nat, ParseError>)
    requires pos <= |s|
    ensures r.Success? <==> IsEndOfInput(ItemAt(s, pos))
    ensures r.Failure? ==> r.error == Error(EndExpected, pos)
  {
    var current := ItemAt(s, pos);
    if IsEndOfInput(current) then Success(Advance(s, pos)) else Failure(Error(EndExpected, current.pos))
  }

  /*
   * Interval notation
   */

  /** The start bound of `parseVersionRange`: empty when a comma follows the opening bracket, else a version up to the comma. */
  function StartBound(s: string, pos: nat): (r: Outcome<Option<Versions.Version>>)
    requires pos <= |s|
    ensures r.Success? ==> pos <= r.value.next <= |s|
    ensures r.Failure? ==> r.error.column <= |s|
    ensures r.Failure? ==> ErrorAt(s, r.error)
  {
    if Is(ItemAt(s, pos), ',') then Success(Parsed(None, pos))
    else
      match ConsumeVersionUntil(s, pos, [','])
      case Failure(e) => Failure(e)
      case Success(start) => Success(Parsed(Some(start.value), start.next))
  }

  /**
    * The end bound of `parseVersionRange` with its closing bracket: the bracket at once, or
    * a version up to `]` or `)` and then the bracket. `]` makes the end inclusive.
    */
  function EndBound(s: string, pos: nat): (r: Outcome<(Option<Versions.Version>, bool)>)
    requires pos <= |s|
    ensures r.Success? ==> pos < r.value.next <= |s|
    ensures r.Failure? ==> r.error.column <= |s|
    ensures r.Failure? ==> ErrorAt(s, r.error)
  {
    var current := ItemAt(s, pos);
    if IsAnyOf(current, "])") then Success(Parsed((None, Is(current, ']')), pos + 1))
    else
      match ConsumeVersionUntil(s, pos, "])")
      case Failure(e) => Failure(e)
      case Success(end) =>
        var next := ItemAt(s, end.next);
        if Is(next, ']') then Success(Parsed((Some(end.value), true), Advance(s, end.next)))
        else if Is(next, ')') then Success(Parsed((Some(end.value), false), Advance(s, end.next)))
        else Failure(Error(CloseExpected, next.pos))
  }

  /** Being one of the two closing brackets is being the one or the other. */
  lemma IsAnyOfCloses(c: Char)
    ensures IsAnyOf(c, "])") <==> Is(c, ']') || Is(c, ')')
  {
    assert "])"[0] == ']' && "])"[1] == ')';
  }

  /**
    * The "looking for `]` or `)`" error is unreachable: the version text always stops at
    * one of them, so the end bound fails only where its version fails.
    */
  lemma EndBoundNeverMissesClose(s: string, pos: nat)
    requires pos <= |s| && EndBound(s, pos).Failure?
    ensures ConsumeVersionUntil(s, pos, "])").Failure?
    ensures EndBound(s, pos).error == ConsumeVersionUntil(s, pos, "])").error
  {
    if !IsAnyOf(ItemAt(s, pos), "])") && ConsumeVersionUntil(s, pos, "])").Success? {
      var end := ConsumeVersionUntil(s, pos, "])").value;
      ConsumeVersionUntilSound(s, pos, "])");
      IsAnyOfCloses(ItemAt(s, end.next));
    }
  }

  /** `parseVersionRange`: opening bracket, start bound, comma, end bound with its bracket, end of input. */
  function ParseInterval(s: string): (r: Result<VersionRange, ParseError>)
    ensures r.Failure? ==> r.error.column <= |s|
    ensures r.Failure? ==> ErrorAt(s, r.error)
  {
    var startInclusive := Is(ItemAt(s, 0), '[');
    var afterOpen := Advance(s, 0);
    match StartBound(s, afterOpen)
    case Failure(e) => Failure(e)
    case Success(start) =>
      match VersionParser.ConsumeCharacter(s, start.next, ',')
      case Failure(e) => Failure(e)
      case Success(afterComma) =>
        match EndBound(s, afterComma)
        case Failure(e) => Failure(e)
        case Success(end) =>
          match ConsumeEndOfInput(s, end.next)
          case Failure(e) => Failure(e)
          case Success(_) => Success(VersionRange(start.value, startInclusive, end.value.0, end.value.1))
  }

  /*
   * Comparison and caret
   */

  /**
    * `parseVersionComparison`: `>` or `<`, an optional `=` making the bound inclusive, then
    * a version up to the end of input. `>` gives a start bound with an open, inclusive-flagged
    * end; `<` gives an end bound with an open, inclusive-flagged start.
    */
  function ParseComparison(s: string): (r: Result<VersionRange, ParseError>)
    ensures r.Failure? ==> r.error.column <= |s|
    ensures r.Failure? ==> ErrorAt(s, r.error)
  {
    var greaterThan := Is(ItemAt(s, 0), '>');
    var afterOperator := Advance(s, 0);
    var inclusive := Is(ItemAt(s, afterOperator), '=');
    match (if inclusive then VersionParser.ConsumeCharacter(s, afterOperator, '=') else Success(afterOperator))
    case Failure(e) => Failure(e)
    case Success(pos) =>
      match ConsumeVersionUntil(s, pos, [])
      case Failure(e) => Failure(e)
      case Success(version) =>
        match ConsumeEndOfInput(s, version.next)
        case Failure(e) => Failure(e)
        case Success(_) =>
          if greaterThan then Success(VersionRange(Some(version.value), inclusive, None, true))
          else Success(VersionRange(None, true, Some(version.value), inclusive))
  }

  /**
    * `highVersionForCaret`: the release after the first non-zero component of `low` is
    * incremented and the components after it are zeroed; `0.0.p` goes to `0.0.(p+1)`.
    */
  function HighVersionForCaret(low: Versions.Version): (high: Versions.Version)
    ensures CoreVersions.Less(low.core, high.core)
    ensures high.preRelease == PreReleases.Null && high.buildMetadata == BuildMetadatas.Null
  {
    if low.core.major != 0 then Versions.Release(low.core.major + 1, 0, 0)
    else if low.core.minor != 0 then Versions.Release(0, low.core.minor + 1, 0)
    else Versions.Release(0, 0, low.core.patch + 1)
  }

  /** The range a caret denotes: from `low` inclusive to its caret bound exclusive. */
  function CaretRange(low: Versions.Version): VersionRange
  {
    VersionRange(Some(low), true, Some(HighVersionForCaret(low)), false)
  }

  /**
    * A caret range holds the versions at or above `low` that keep its first non-zero
    * component (and the zeros before it); `^0.0.p` holds the cores `0.0.p` only.
    */
  lemma CaretSpec(low: Versions.Version, v: Versions.Version)
    ensures IsSatisfiedBy(CaretRange(low), v)
        <==> !CoreVersions.Less(v.core, low.core)
             && (if low.core.major != 0 then v.core.major == low.core.major
                 else if low.core.minor != 0 then v.core.major == 0 && v.core.minor == low.core.minor
                 else v.core == low.core)
  {
  }

  /** `parseVersionCaret`: `^`, then a version up to the end of input. */
  function ParseCaret(s: string): (r: Result<VersionRange, ParseError>)
    ensures r.Failure? ==> r.error.column <= |s|
    ensures r.Failure? ==> ErrorAt(s, r.error)
  {
    match VersionParser.ConsumeCharacter(s, 0, '^')
    case Failure(e) => Failure(e)
    case Success(pos) =>
      match ConsumeVersionUntil(s, pos, [])
      case Failure(e) => Failure(e)
      case Success(low) =>
        var high := HighVersionForCaret(low.value);
        match ConsumeEndOfInput(s, low.next)
        case Failure(e) => Failure(e)
        case Success(_) => Success(VersionRange(Some(low.value), true, Some(high), false))
  }

  /*
   * Globs
   */

  /**
    * The numbered globs of `parseVersionGlob`, as the pair of bounds: `M.+` is
    * `[M.0.0, (M+1).0.0)`, `M.m.+` is `[M.m.0, M.(m+1).0)` and `M.m.p` is `[M.m.p, M.m.(p+1))`.
    */
  function GlobBounds(s: string): (r: Outcome<(Versions.Version, Versions.Version)>)
    ensures r.Success? ==> 0 < r.value.next <= |s|
    ensures r.Failure? ==> r.error.column <= |s|
    ensures r.Failure? ==> ErrorAt(s, r.error) && r.error.cause.None?
    ensures r.Failure? ==> r.error.kind in {NumericExpected, LeadingZero, CharacterExpected('.')}
  {
    var major :- VersionParser.ConsumeNumber(s, 0);
    var afterMajor :- VersionParser.ConsumeCharacter(s, major.next, '.');
    if Is(ItemAt(s, afterMajor), '+') then
      var m := major.value;
      Success(Parsed((Versions.Release(m, 0, 0), Versions.Release(m + 1, 0, 0)), afterMajor + 1))
    else
      var minor :- VersionParser.ConsumeNumber(s, afterMajor);
      var afterMinor :- VersionParser.ConsumeCharacter(s, minor.next, '.');
      if Is(ItemAt(s, afterMinor), '+') then
        var m, n := major.value, minor.value;
        Success(Parsed((Versions.Release(m, n, 0), Versions.Release(m, n + 1, 0)), afterMinor + 1))
      else
        var patch :- VersionParser.ConsumeNumber(s, afterMinor);
        var m, n, p := major.value, minor.value, patch.value;
        Success(Parsed((Versions.Release(m, n, p), Versions.Release(m, n, p + 1)), patch.next))
  }

  /** `parseVersionGlob`: `+` or `*` for the unbounded range, otherwise a numbered glob; then the end of input. */
  function ParseGlob(s: string): (r: Result<VersionRange, ParseError>)
    ensures r.Failure? ==> r.error.column <= |s|
    ensures r.Failure? ==> ErrorAt(s, r.error) && r.error.cause.None?
  {
    var current := ItemAt(s, 0);
    if Is(current, '+') || Is(current, '*') then
      match ConsumeEndOfInput(s, Advance(s, 0))
      case Failure(e) => Failure(e)
      case Success(_) => Success(VersionRange(None, true, None, false))
    else
      match GlobBounds(s)
      case Failure(e) => Failure(e)
      case Success(bounds) =>
        match ConsumeEndOfInput(s, bounds.next)
        case Failure(e) => Failure(e)
        case Success(_) => Success(VersionRange(Some(bounds.value.0), true, Some(bounds.value.1), false))
  }

  /** `M.+` holds exactly the versions with major component `M`. */
  lemma GlobMajorSpec(m: nat, v: Versions.Version)
    ensures IsSatisfiedBy(VersionRange(Some(Versions.Release(m, 0, 0)), true, Some(Versions.Release(m + 1, 0, 0)), false), v)
        <==> v.core.major == m
  {
  }

  /** `M.m.+` holds exactly the versions with major `M` and minor `m`. */
  lemma GlobMinorSpec(m: nat, n: nat, v: Versions.Version)
    ensures IsSatisfiedBy(VersionRange(Some(Versions.Release(m, n, 0)), true, Some(Versions.Release(m, n + 1, 0)), false), v)
        <==> v.core.major == m && v.core.minor == n
  {
  }

  /** `M.m.p` holds exactly the versions with core `M.m.p`, whatever their pre-release and build metadata. */
  lemma GlobPatchSpec(m: nat, n: nat, p: nat, v: Versions.Version)
    ensures IsSatisfiedBy(VersionRange(Some(Versions.Release(m, n, p)), true, Some(Versions.Release(m, n, p + 1)), false), v)
        <==> v.core == CoreVersions.CoreVersion(m, n, p)
  {
  }

  /*
   * parse
   */

  /** `parse`: the notation is chosen by the first character. */
  function Parse(s: string): (r: Result<VersionRange, ParseError>)
    ensures r.Failure? ==> r.error.column <= |s|
    ensures r.Failure? ==> ErrorAt(s, r.error)
  {
    var current := ItemAt(s, 0);
    if IsAnyOf(current, "[(") then ParseInterval(s)
    else if IsAnyOf(current, "><") then ParseComparison(s)
    else if Is(current, '^') then ParseCaret(s)
    else ParseGlob(s)
  }
}

=== FILE: version_range_round_trip.dfy ===
/**
  * What the range parser returns for each notation: interval notation is read back from
  * `VersionRange.getFormatted`, comparisons and carets from their operator and a
  * formatted version, globs from their numbers; and whatever the parser accepts has
  * valid bounds.
  */
module VersionRangeRoundTrip {
  import opened Wrappers
  import opened Chars
  import opened JavaLib
  import opened Lookahead
  import opened ParseErrors
  import CoreVersions
  import PreReleases
  import BuildMetadatas
  import Versions
  import VersionParser
  import VersionRoundTrip
  import opened VersionRanges
  import opened VersionRangeParser

  /*
   * Dispatch
   */

  /** Input starting with `[` or `(` is read in interval notation. */
  lemma IntervalDispatch(s: string)
    requires |s| > 0 && (s[0] == '[' || s[0] == '(')
    ensures Parse(s) == ParseInterval(s)
  {
    assert "[("[0] == '[' && "[("[1] == '(';
  }

  /** Input starting with `>` or `<` is read as a comparison. */
  lemma ComparisonDispatch(s: string)
    requires |s| > 0 && (s[0] == '>' || s[0] == '<')
    ensures Parse(s) == ParseComparison(s)
  {
    assert "><"[0] == '>' && "><"[1] == '<';
  }

  /** Input starting with a digit, `+` or `*` is read as a glob. */
  lemma GlobDispatch(s: string)
    requires |s| > 0 && (DigitChar(s[0]) || s[0] == '+' || s[0] == '*')
    ensures Parse(s) == ParseGlob(s)
  {
  }

  /*
   * Validity of what is parsed
   */

  /** A release built from three numbers has a valid (empty) pre-release and build metadata. */
  lemma ReleaseValid(major: nat, minor: nat, patch: nat)
    ensures Versions.Valid(Versions.Release(major, minor, patch))
  {
    assert PreReleases.Valid(PreReleases.Null);
  }

  lemma StartBoundValid(s: string, pos: nat)
    requires pos <= |s| && StartBound(s, pos).Success?
    ensures ValidBound(StartBound(s, pos).value.value)
  {
    if !Is(ItemAt(s, pos), ',') {
      ConsumeVersionUntilSound(s, pos, [',']);
    }
  }

  lemma EndBoundValid(s: string, pos: nat)
    requires pos <= |s| && EndBound(s, pos).Success?
    ensures ValidBound(EndBound(s, pos).value.value.0)
  {
    if !IsAnyOf(ItemAt(s, pos), "])") {
      ConsumeVersionUntilSound(s, pos, "])");
    }
  }

  lemma IntervalValid(s: string)
    requires ParseInterval(s).Success?
    ensures VersionRanges.Valid(ParseInterval(s).value)
  {
    var start := StartBound(s, Advance(s, 0)).value;
    StartBoundValid(s, Advance(s, 0));
    EndBoundValid(s, start.next + 1);
  }

  lemma ComparisonValid(s: string)
    requires ParseComparison(s).Success?
    ensures VersionRanges.Valid(ParseComparison(s).value)
  {
    var afterOperator := Advance(s, 0);
    var pos := if Is(ItemAt(s, afterOperator), '=') then afterOperator + 1 else afterOperator;
    ConsumeVersionUntilSound(s, pos, []);
  }

  lemma CaretValid(s: string)
    requires ParseCaret(s).Success?
    ensures VersionRanges.Valid(ParseCaret(s).value)
  {
    var low := ConsumeVersionUntil(s, 1, []).value;
    ConsumeVersionUntilSound(s, 1, []);
    var high := HighVersionForCaret(low.value);
    ReleaseValid(high.core.major, high.core.minor, high.core.patch);
  }

  lemma GlobValid(s: string)
    requires ParseGlob(s).Success?
    ensures VersionRanges.Valid(ParseGlob(s).value)
  {
    var current := ItemAt(s, 0);
    if !(Is(current, '+') || Is(current, '*')) {
      var bounds := GlobBounds(s).value.value;
      ReleaseValid(bounds.0.core.major, bounds.0.core.minor, bounds.0.core.patch);
      ReleaseValid(bounds.1.core.major, bounds.1.core.minor, bounds.1.core.patch);
    }
  }

  /** Every range the parser produces has valid versions as its bounds. */
  lemma ParseValid(s: string)
    requires Parse(s).Success?
    ensures VersionRanges.Valid(Parse(s).value)
  {
    var current := ItemAt(s, 0);
    if IsAnyOf(current, "[(") {
      IntervalValid(s);
    } else if IsAnyOf(current, "><") {
      ComparisonValid(s);
    } else if Is(current, '^') {
      CaretValid(s);
    } else {
      GlobValid(s);
    }
  }

  /*
   * Interval notation
   */

  /** Where the input reads a formatted range, it reads its brackets, bounds and comma at their places. */
  lemma IntervalParts(s: string, o: char, b1: string, b2: string, c: char)
    requires SpellsAt(s, 0, [o] + b1 + "," + b2 + [c])
    ensures 0 < |s| && s[0] == o && SpellsAt(s, 1, b1)
    ensures 1 + |b1| < |s| && s[1 + |b1|] == ','
    ensures SpellsAt(s, 2 + |b1|, b2)
    ensures 2 + |b1| + |b2| < |s| && s[2 + |b1| + |b2|] == c
  {
    SpellsAtSplit(s, 0, [o] + b1 + "," + b2, [c]);
    assert s[|[o] + b1 + "," + b2| + 0] == [c][0];
    SpellsAtSeparatedParts(s, 0, [o] + b1, ',', b2);
    SpellsAtConsParts(s, 0, o, b1);
  }

  /** The bracket that closes an interval: `]` when the end bound is inclusive, `)` when it is not. */
  function CloseChar(inclusive: bool): char
  {
    if inclusive then ']' else ')'
  }

  /** The bracket that opens an interval: `[` when the start bound is inclusive, `(` when it is not. */
  function OpenChar(inclusive: bool): char
  {
    if inclusive then '[' else '('
  }

  /** A formatted valid start bound followed by a comma is read back. */
  lemma StartBoundOf(s: string, pos: nat, b: Option<Versions.Version>, e: nat)
    requires ValidBound(b) && SpellsAt(s, pos, FormatBound(b)) && e == pos + |FormatBound(b)|
    requires e < |s| && s[e] == ','
    ensures StartBound(s, pos) == Success(Parsed(b, e))
  {
    if b.Some? {
      FormatNotEmpty(b.value);
      SpellsAtItem(s, pos, FormatBound(b), 0);
      assert [','][0] == ',';
      ConsumeVersionUntilOf(s, pos, b.value, [','], e);
    }
  }

  /** A formatted valid end bound followed by its closing bracket is read back, with the bracket. */
  lemma EndBoundOf(s: string, pos: nat, b: Option<Versions.Version>, inclusive: bool, e: nat)
    requires ValidBound(b) && SpellsAt(s, pos, FormatBound(b)) && e == pos + |FormatBound(b)|
    requires e < |s| && s[e] == CloseChar(inclusive)
    ensures EndBound(s, pos) == Success(Parsed((b, inclusive), e + 1))
  {
    IsAnyOfCloses(ItemAt(s, pos));
    if b.Some? {
      assert !IsAnyOf(ItemAt(s, pos), "])") by {
        FormatNotEmpty(b.value);
        SpellsAtItem(s, pos, FormatBound(b), 0);
      }
      assert ConsumeVersionUntil(s, pos, "])") == Success(Parsed(b.value, e)) by {
        IsAnyOfCloses(ItemAt(s, e));
        assert "])"[0] == ']' && "])"[1] == ')';
        ConsumeVersionUntilOf(s, pos, b.value, "])", e);
      }
      assert Is(ItemAt(s, e), ']') <==> inclusive;
    }
  }

  /** `parseVersionRange` on a start bound, a comma, an end bound with its bracket, and the end of input. */
  lemma IntervalSteps(s: string, r: VersionRange, b: nat, d: nat)
    requires 0 < |s| && s[0] == OpenChar(r.startInclusive)
    requires StartBound(s, 1) == Success(Parsed(r.start, b)) && b < |s| && s[b] == ','
    requires EndBound(s, b + 1) == Success(Parsed((r.end, r.endInclusive), d + 1)) && |s| == d + 1
    ensures ParseInterval(s) == Success(r)
  {
    assert Advance(s, 0) == 1;
    assert Is(ItemAt(s, 0), '[') == r.startInclusive;
    assert VersionParser.ConsumeCharacter(s, b, ',') == Success(b + 1);
    assert ConsumeEndOfInput(s, d + 1).Success?;
  }

  /** The places in the formatted text of a range: the comma at `b` and the closing bracket at `d`, the last character. */
  lemma IntervalLayout(s: string, r: VersionRange) returns (b: nat, d: nat)
    requires s == Format(r)
    ensures 0 < |s| && (s[0] == '[' || s[0] == '(') && s[0] == OpenChar(r.startInclusive)
    ensures SpellsAt(s, 1, FormatBound(r.start)) && b == 1 + |FormatBound(r.start)| && b < |s| && s[b] == ','
    ensures SpellsAt(s, b + 1, FormatBound(r.end)) && d == b + 1 + |FormatBound(r.end)|
    ensures d < |s| && s[d] == CloseChar(r.endInclusive) && |s| == d + 1
  {
    var o, c := OpenChar(r.startInclusive), CloseChar(r.endInclusive);
    var b1, b2 := FormatBound(r.start), FormatBound(r.end);
    assert s == [o] + b1 + "," + b2 + [c];
    SpellsAtSlice(s, 0, s);
    IntervalParts(s, o, b1, b2, c);
    b, d := 1 + |b1|, 2 + |b1| + |b2|;
  }

  /** The bounds of a range, read between their brackets and the comma at `b` up to the closing bracket at `d`. */
  lemma IntervalAt(s: string, r: VersionRange, b: nat, d: nat)
    requires VersionRanges.Valid(r) && 0 < |s| && s[0] == OpenChar(r.startInclusive)
    requires SpellsAt(s, 1, FormatBound(r.start)) && b == 1 + |FormatBound(r.start)| && b < |s| && s[b] == ','
    requires SpellsAt(s, b + 1, FormatBound(r.end)) && d == b + 1 + |FormatBound(r.end)|
    requires d < |s| && s[d] == CloseChar(r.endInclusive) && |s| == d + 1
    ensures ParseInterval(s) == Success(r)
  {
    assert StartBound(s, 1) == Success(Parsed(r.start, b)) by {
      StartBoundOf(s, 1, r.start, b);
    }
    assert EndBound(s, b + 1) == Success(Parsed((r.end, r.endInclusive), d + 1)) by {
      EndBoundOf(s, b + 1, r.end, r.endInclusive, d);
    }
    IntervalSteps(s, r, b, d);
  }

  /** Round trip: every range with valid bounds is read back from its formatted text. */
  lemma ParseFormatted(r: VersionRange)
    requires VersionRanges.Valid(r)
    ensures Parse(Format(r)) == Success(r)
  {
    var s := Format(r);
    var b, d := IntervalLayout(s, r);
    IntervalAt(s, r, b, d);
    IntervalDispatch(s);
  }

  /** A start bound read from `pos` up to `next` is spelled there and is followed by the comma. */
  lemma StartBoundSound(s: string, pos: nat, b: Option<Versions.Version>, next: nat)
    requires pos <= |s| && StartBound(s, pos) == Success(Parsed(b, next))
    ensures SpellsAt(s, pos, FormatBound(b)) && next == pos + |FormatBound(b)| && next < |s| && s[next] == ','
  {
    if !Is(ItemAt(s, pos), ',') {
      ConsumeVersionUntilSound(s, pos, [',']);
    }
  }

  /** An end bound read from `pos` is spelled there and is followed by the bracket that sets its inclusivity. */
  lemma EndBoundSound(s: string, pos: nat, b: Option<Versions.Version>, inclusive: bool, next: nat) returns (c: nat)
    requires pos <= |s| && EndBound(s, pos) == Success(Parsed((b, inclusive), next))
    ensures SpellsAt(s, pos, FormatBound(b)) && c == pos + |FormatBound(b)| && next == c + 1
    ensures c < |s| && s[c] == CloseChar(inclusive)
  {
    c := pos + |FormatBound(b)|;
    if !IsAnyOf(ItemAt(s, pos), "])") {
      var e := EndBoundVersion(s, pos, b, inclusive, next);
      VersionBoundSpelled(s, pos, b.value, inclusive, e);
      assert FormatBound(b) == Versions.Format(b.value);
    } else {
      EndBoundBracket(s, pos, b, inclusive, next);
      assert FormatBound(b) == [];
    }
  }

  /** An end bound that starts at a bracket is empty, and the bracket sets its inclusivity. */
  lemma EndBoundBracket(s: string, pos: nat, b: Option<Versions.Version>, inclusive: bool, next: nat)
    requires pos <= |s| && IsAnyOf(ItemAt(s, pos), "])")
    requires EndBound(s, pos) == Success(Parsed((b, inclusive), next))
    ensures b.None? && next == pos + 1 && pos < |s| && s[pos] == CloseChar(inclusive)
  {
    IsAnyOfCloses(ItemAt(s, pos));
  }

  /** An end bound that does not start at a bracket is a version read up to `e`, followed by the bracket. */
  lemma EndBoundVersion(s: string, pos: nat, b: Option<Versions.Version>, inclusive: bool, next: nat) returns (e: nat)
    requires pos <= |s| && !IsAnyOf(ItemAt(s, pos), "])")
    requires EndBound(s, pos) == Success(Parsed((b, inclusive), next))
    ensures b.Some? && ConsumeVersionUntil(s, pos, "])") == Success(Parsed(b.value, e))
    ensures next == e + 1 && (inclusive <==> Is(ItemAt(s, e), ']'))
  {
    e := ConsumeVersionUntil(s, pos, "])").value.next;
  }

  /** A version read up to a closing bracket is spelled up to that bracket. */
  lemma VersionBoundSpelled(s: string, pos: nat, v: Versions.Version, inclusive: bool, e: nat)
    requires pos <= |s| && ConsumeVersionUntil(s, pos, "])") == Success(Parsed(v, e))
    requires inclusive <==> Is(ItemAt(s, e), ']')
    ensures SpellsAt(s, pos, Versions.Format(v)) && e == pos + |Versions.Format(v)|
    ensures e < |s| && s[e] == CloseChar(inclusive)
  {
    ConsumeVersionUntilSound(s, pos, "])");
    IsAnyOfCloses(ItemAt(s, e));
  }

  /** Input that reads a bracket, a bound, a comma at `b`, a bound and a bracket at `d`, and nothing more, is exactly that text. */
  lemma IntervalSpelled(s: string, o: char, b1: string, b2: string, c: char, b: nat, d: nat)
    requires 0 < |s| && s[0] == o && SpellsAt(s, 1, b1)
    requires b == 1 + |b1| && b < |s| && s[b] == ',' && SpellsAt(s, b + 1, b2)
    requires d == b + 1 + |b2| && |s| == d + 1 && s[d] == c
    ensures s == [o] + b1 + "," + b2 + [c]
  {
    SpellsAtCons(s, 0, o, b1);
    SpellsAtSeparated(s, 0, [o] + b1, ',', b2);
    SpellsAtCons(s, d, c, []);
    SpellsAtConcat(s, 0, [o] + b1 + "," + b2, [c] + []);
    assert [c] + [] == [c];
    SpellsAtSlice(s, 0, [o] + b1 + "," + b2 + [c]);
  }

  /** The cursor positions of a successful `parseVersionRange`: the comma at `b`, and the end of input at `d`. */
  lemma IntervalPieces(s: string, r: VersionRange) returns (b: nat, d: nat)
    requires 0 < |s| && ParseInterval(s) == Success(r)
    ensures r.startInclusive <==> s[0] == '['
    ensures StartBound(s, 1) == Success(Parsed(r.start, b)) && b < |s| && s[b] == ','
    ensures EndBound(s, b + 1) == Success(Parsed((r.end, r.endInclusive), d)) && d <= |s|
    ensures IsEndOfInput(ItemAt(s, d))
  {
    assert Advance(s, 0) == 1;
    var start := StartBound(s, 1);
    assert start.Success?;
    b := start.value.next;
    var end := EndBound(s, b + 1);
    assert end.Success?;
    d := end.value.next;
  }

  /** On input free of `'\0'`, the end of input is the end of the string. */
  lemma EndOfInputAtLength(s: string, d: nat)
    requires EndOfInputValue !in s && d <= |s| && IsEndOfInput(ItemAt(s, d))
    ensures d == |s|
  {
  }

  /** The bounds spelled around the comma at `b`, up to the closing bracket before `d`, the length, spell out the formatted range. */
  lemma IntervalSpelledAt(s: string, r: VersionRange, b: nat, c: nat)
    requires 0 < |s| && (s[0] == '[' || s[0] == '(') && (r.startInclusive <==> s[0] == '[')
    requires SpellsAt(s, 1, FormatBound(r.start)) && b == 1 + |FormatBound(r.start)| && b < |s| && s[b] == ','
    requires SpellsAt(s, b + 1, FormatBound(r.end)) && c == b + 1 + |FormatBound(r.end)|
    requires c < |s| && s[c] == CloseChar(r.endInclusive) && |s| == c + 1
    ensures Format(r) == s
  {
    var o := OpenChar(r.startInclusive);
    var b1, b2 := FormatBound(r.start), FormatBound(r.end);
    IntervalSpelled(s, o, b1, b2, CloseChar(r.endInclusive), b, c);
    assert Format(r) == [o] + b1 + "," + b2 + [CloseChar(r.endInclusive)];
  }

  /** `parseVersionRange`, when it succeeds on input free of `'\0'`, reads the whole input as the formatted range. */
  lemma ParseIntervalSound(s: string, r: VersionRange)
    requires EndOfInputValue !in s && 0 < |s| && (s[0] == '[' || s[0] == '(')
    requires ParseInterval(s) == Success(r)
    ensures Format(r) == s
  {
    var b, d := IntervalPieces(s, r);
    IntervalPiecesSound(s, r, b, d);
  }

  /** Bounds read around the comma at `b` up to the end of input at `d` spell out the formatted range. */
  lemma IntervalPiecesSound(s: string, r: VersionRange, b: nat, d: nat)
    requires EndOfInputValue !in s && 0 < |s| && (s[0] == '[' || s[0] == '(')
    requires r.startInclusive <==> s[0] == '['
    requires StartBound(s, 1) == Success(Parsed(r.start, b)) && b < |s| && s[b] == ','
    requires EndBound(s, b + 1) == Success(Parsed((r.end, r.endInclusive), d)) && d <= |s|
    requires IsEndOfInput(ItemAt(s, d))
    ensures Format(r) == s
  {
    StartBoundSound(s, 1, r.start, b);
    var c := EndBoundSound(s, b + 1, r.end, r.endInclusive, d);
    EndOfInputAtLength(s, d);
    IntervalSpelledAt(s, r, b, c);
  }

  /**
    * Interval notation characterized: on input free of `'\0'` that starts with `[` or `(`,
    * the parser returns `r` exactly when the input is the formatted text of `r` and the
    * bounds of `r` are valid.
    */
  lemma ParseIntervalCharacterized(s: string, r: VersionRange)
    requires EndOfInputValue !in s && 0 < |s| && (s[0] == '[' || s[0] == '(')
    ensures Parse(s) == Success(r) <==> VersionRanges.Valid(r) && Format(r) == s
  {
    IntervalDispatch(s);
    if Parse(s) == Success(r) {
      ParseIntervalSound(s, r);
      ParseValid(s);
    }
    if VersionRanges.Valid(r) && Format(r) == s {
      ParseFormatted(r);
    }
  }

  /** Distinct ranges with valid bounds are formatted differently. */
  lemma FormatInjective(a: VersionRange, b: VersionRange)
    requires VersionRanges.Valid(a) && VersionRanges.Valid(b) && Format(a) == Format(b)
    ensures a == b
  {
    ParseFormatted(a);
    ParseFormatted(b);
  }

  /*
   * Comparisons and carets
   */

  /** The comparison operator text: `>`, `>=`, `<` or `<=`. */
  function Operator(greaterThan: bool, inclusive: bool): string
  {
    (if greaterThan then ">" else "<") + (if inclusive then "=" else "")
  }

  /** The range a comparison denotes: a start bound for `>`, an end bound for `<`. */
  function ComparisonRange(v: Versions.Version, greaterThan: bool, inclusive: bool): VersionRange
  {
    if greaterThan then VersionRange(Some(v), inclusive, None, true)
    else VersionRange(None, true, Some(v), inclusive)
  }

  /** `parseVersionComparison` with the operator read up to `pos` and a version from there to the end of input. */
  lemma ComparisonSteps(s: string, v: Versions.Version, greaterThan: bool, inclusive: bool, pos: nat)
    requires 0 < |s| && s[0] == (if greaterThan then '>' else '<')
    requires pos == |Operator(greaterThan, inclusive)| && pos <= |s|
    requires inclusive ==> s[1] == '='
    requires !inclusive ==> !Is(ItemAt(s, 1), '=')
    requires ConsumeVersionUntil(s, pos, []) == Success(Parsed(v, |s|))
    ensures ParseComparison(s) == Success(ComparisonRange(v, greaterThan, inclusive))
  {
  }

  /** An operator followed by a formatted valid version reads as the comparison range of that version. */
  lemma ParseComparisonOf(v: Versions.Version, greaterThan: bool, inclusive: bool)
    requires Versions.Valid(v)
    ensures Parse(Operator(greaterThan, inclusive) + Versions.Format(v)) == Success(ComparisonRange(v, greaterThan, inclusive))
  {
    var s := Operator(greaterThan, inclusive) + Versions.Format(v);
    ComparisonOf(s, v, greaterThan, inclusive);
    ComparisonDispatch(s);
  }

  /** `parseVersionComparison` on an operator followed by a formatted valid version. */
  lemma ComparisonOf(s: string, v: Versions.Version, greaterThan: bool, inclusive: bool)
    requires Versions.Valid(v) && s == Operator(greaterThan, inclusive) + Versions.Format(v)
    ensures 0 < |s| && s[0] == (if greaterThan then '>' else '<')
    ensures ParseComparison(s) == Success(ComparisonRange(v, greaterThan, inclusive))
  {
    var op, f := Operator(greaterThan, inclusive), Versions.Format(v);
    assert SpellsAt(s, |op|, f) && |s| == |op| + |f| by {
      SpellsAtSlice(s, 0, s);
      SpellsAtSplit(s, 0, op, f);
    }
    assert 0 < |s| && s[0] == (if greaterThan then '>' else '<') && (inclusive ==> s[1] == '=')
        && (!inclusive ==> !Is(ItemAt(s, 1), '=')) by {
      FormatNotEmpty(v);
      SpellsAtItem(s, |op|, f, 0);
      assert s[0] == op[0];
      if inclusive {
        assert s[1] == op[1];
      }
    }
    assert ConsumeVersionUntil(s, |op|, []) == Success(Parsed(v, |s|)) by {
      ConsumeVersionUntilOf(s, |op|, v, [], |s|);
    }
    ComparisonSteps(s, v, greaterThan, inclusive, |op|);
  }

  /** `^` followed by a formatted valid version reads as the caret range of that version. */
  lemma ParseCaretOf(v: Versions.Version)
    requires Versions.Valid(v)
    ensures Parse("^" + Versions.Format(v)) == Success(CaretRange(v))
  {
    var f := Versions.Format(v);
    var s := "^" + f;
    assert s[0] == '^';
    assert ConsumeVersionUntil(s, 1, []) == Success(Parsed(v, |s|)) by {
      SpellsAtSlice(s, 0, s);
      SpellsAtSplit(s, 0, "^", f);
      ConsumeVersionUntilOf(s, 1, v, [], |s|);
    }
    CaretSteps(s, v);
  }

  /** `parseVersionCaret`, dispatched on a leading `^`, with its version read to the end of input. */
  lemma CaretSteps(s: string, v: Versions.Version)
    requires 0 < |s| && s[0] == '^' && ConsumeVersionUntil(s, 1, []) == Success(Parsed(v, |s|))
    ensures Parse(s) == Success(CaretRange(v))
  {
    assert "[("[0] == '[' && "[("[1] == '(';
    assert "><"[0] == '>' && "><"[1] == '<';
  }

  /*
   * Globs
   */

  /** The range of every version, as `+` and `*` are read. */
  const Everything: VersionRange := VersionRange(None, true, None, false)

  /** `+` and `*` read as the range with no bounds. */
  lemma ParseBareGlob()
    ensures Parse("+") == Success(Everything)
    ensures Parse("*") == Success(Everything)
  {
    GlobDispatch("+");
    GlobDispatch("*");
  }

  /**
    * The bare glob has no start bound, while the project's tests expect `0.0.0` inclusive
    * as its start: the two ranges differ (and are formatted differently), yet hold the
    * same versions, since no core is below `0.0.0`.
    */
  lemma BareGlobStartDivergence(v: Versions.Version)
    ensures var tested := VersionRange(Some(Versions.Release(0, 0, 0)), true, None, false);
            && Everything != tested && Format(Everything) != Format(tested)
            && IsSatisfiedBy(Everything, v) == IsSatisfiedBy(tested, v)
  {
    var tested := VersionRange(Some(Versions.Release(0, 0, 0)), true, None, false);
    assert Format(Everything)[1] == ',';
    assert Format(tested)[1] == '0';
  }

  /** The glob `M.+` from its major number. */
  function MajorGlob(m: nat): string
  {
    Decimal(m) + ".+"
  }

  /** The glob `M.m.+` from its major and minor numbers. */
  function MinorGlob(m: nat, n: nat): string
  {
    Decimal(m) + "." + Decimal(n) + ".+"
  }

  /** `parseVersionGlob` on numbered bounds read up to `e`, then the end of input. */
  lemma GlobSteps(s: string, low: Versions.Version, high: Versions.Version, e: nat)
    requires 0 < |s| && DigitChar(s[0]) && e == |s|
    requires GlobBounds(s) == Success(Parsed((low, high), e))
    ensures Parse(s) == Success(VersionRange(Some(low), true, Some(high), false))
  {
    GlobDispatch(s);
  }

  /** Where the input reads `M.+`, it reads the numeral, the dot and the plus at their places. */
  lemma MajorGlobParts(s: string, d: string)
    requires SpellsAt(s, 0, d + ".+")
    ensures SpellsAt(s, 0, d) && |d| + 1 < |s| && s[|d|] == '.' && s[|d| + 1] == '+'
  {
    SpellsAtSplit(s, 0, d, ".+");
    SpellsAtItem(s, |d|, ".+", 0);
    SpellsAtItem(s, |d|, ".+", 1);
  }

  /** `M.+` read at its places: the major number up to `a`, then `.+` and the end of input. */
  lemma MajorGlobAt(s: string, m: nat, a: nat)
    requires SpellsAt(s, 0, Decimal(m)) && a == |Decimal(m)| && a + 1 < |s| && s[a] == '.' && s[a + 1] == '+'
    requires |s| == a + 2
    ensures Parse(s) == Success(VersionRange(Some(Versions.Release(m, 0, 0)), true, Some(Versions.Release(m + 1, 0, 0)), false))
  {
    SpellsAtItem(s, 0, Decimal(m), 0);
    VersionRoundTrip.ConsumeNumberOf(s, 0, m);
    GlobSteps(s, Versions.Release(m, 0, 0), Versions.Release(m + 1, 0, 0), |s|);
  }

  /** `M.+` reads as `[M.0.0, (M+1).0.0)`, the versions of major `M`. */
  lemma ParseMajorGlobOf(m: nat)
    ensures Parse(MajorGlob(m)) == Success(VersionRange(Some(Versions.Release(m, 0, 0)), true, Some(Versions.Release(m + 1, 0, 0)), false))
  {
    var s := MajorGlob(m);
    SpellsAtSlice(s, 0, s);
    MajorGlobParts(s, Decimal(m));
    MajorGlobAt(s, m, |Decimal(m)|);
  }

  /** `GlobBounds` on `M.m.+`, with the numbers read up to `a` and `b`. */
  lemma MinorGlobBounds(s: string, m: nat, n: nat, a: nat, b: nat)
    requires a < |s| && s[a] == '.' && b + 1 < |s| && s[b] == '.' && s[b + 1] == '+' && b + 2 == |s|
    requires VersionParser.ConsumeNumber(s, 0) == Success(Parsed(m, a))
    requires VersionParser.ConsumeNumber(s, a + 1) == Success(Parsed(n, b))
    ensures GlobBounds(s) == Success(Parsed((Versions.Release(m, n, 0), Versions.Release(m, n + 1, 0)), |s|))
  {
  }

  /** Where the input reads `M.m.+`, it reads the two numerals, the dots and the plus at their places. */
  lemma MinorGlobParts(s: string, d1: string, d2: string)
    requires SpellsAt(s, 0, d1 + "." + d2 + ".+")
    ensures SpellsAt(s, 0, d1) && |d1| < |s| && s[|d1|] == '.' && SpellsAt(s, |d1| + 1, d2)
    ensures var b := |d1| + 1 + |d2|; b + 1 < |s| && s[b] == '.' && s[b + 1] == '+'
  {
    SpellsAtSplit(s, 0, d1 + "." + d2, ".+");
    SpellsAtSeparatedParts(s, 0, d1, '.', d2);
    SpellsAtItem(s, |d1 + "." + d2|, ".+", 0);
    SpellsAtItem(s, |d1 + "." + d2|, ".+", 1);
  }

  /** `M.m.+` read at its places: the numbers up to `a` and `b`, then `.+` and the end of input. */
  lemma MinorGlobAt(s: string, m: nat, n: nat, a: nat, b: nat)
    requires SpellsAt(s, 0, Decimal(m)) && a == |Decimal(m)| && a < |s| && s[a] == '.'
    requires SpellsAt(s, a + 1, Decimal(n)) && b == a + 1 + |Decimal(n)|
    requires b + 1 < |s| && s[b] == '.' && s[b + 1] == '+' && |s| == b + 2
    ensures Parse(s) == Success(VersionRange(Some(Versions.Release(m, n, 0)), true, Some(Versions.Release(m, n + 1, 0)), false))
  {
    SpellsAtItem(s, 0, Decimal(m), 0);
    VersionRoundTrip.ConsumeNumberOf(s, 0, m);
    VersionRoundTrip.ConsumeNumberOf(s, a + 1, n);
    MinorGlobBounds(s, m, n, a, b);
    GlobSteps(s, Versions.Release(m, n, 0), Versions.Release(m, n + 1, 0), |s|);
  }

  /** `M.m.+` reads as `[M.m.0, M.(m+1).0)`, the versions of major `M` and minor `m`. */
  lemma ParseMinorGlobOf(m: nat, n: nat)
    ensures Parse(MinorGlob(m, n)) == Success(VersionRange(Some(Versions.Release(m, n, 0)), true, Some(Versions.Release(m, n + 1, 0)), false))
  {
    var s := MinorGlob(m, n);
    assert && SpellsAt(s, 0, Decimal(m)) && |Decimal(m)| < |s| && s[|Decimal(m)|] == '.'
           && SpellsAt(s, |Decimal(m)| + 1, Decimal(n))
           && |Decimal(m)| + 1 + |Decimal(n)| + 1 < |s| && s[|Decimal(m)| + 1 + |Decimal(n)|] == '.'
           && s[|Decimal(m)| + 1 + |Decimal(n)| + 1] == '+' && |s| == |Decimal(m)| + 1 + |Decimal(n)| + 2 by {
      SpellsAtSlice(s, 0, s);
      MinorGlobParts(s, Decimal(m), Decimal(n));
    }
    MinorGlobAt(s, m, n, |Decimal(m)|, |Decimal(m)| + 1 + |Decimal(n)|);
  }

  /** `GlobBounds` on `M.m.p`, with the numbers read up to `a`, `b` and the end of input. */
  lemma PatchGlobBounds(s: string, c: CoreVersions.CoreVersion, a: nat, b: nat)
    requires a < |s| && s[a] == '.' && b < |s| && s[b] == '.'
    requires VersionParser.ConsumeNumber(s, 0) == Success(Parsed(c.major, a))
    requires VersionParser.ConsumeNumber(s, a + 1) == Success(Parsed(c.minor, b))
    requires VersionParser.ConsumeNumber(s, b + 1) == Success(Parsed(c.patch, |s|))
    ensures GlobBounds(s) == Success(Parsed((Versions.Release(c.major, c.minor, c.patch), Versions.Release(c.major, c.minor, c.patch + 1)), |s|))
  {
  }

  /** `M.m.p` read at its places: the numbers up to `a`, `b` and the end of input. */
  lemma PatchGlobAt(s: string, c: CoreVersions.CoreVersion, a: nat, b: nat)
    requires SpellsAt(s, 0, Decimal(c.major)) && a == |Decimal(c.major)| && a < |s| && s[a] == '.'
    requires SpellsAt(s, a + 1, Decimal(c.minor)) && b == a + 1 + |Decimal(c.minor)| && b < |s| && s[b] == '.'
    requires SpellsAt(s, b + 1, Decimal(c.patch)) && |s| == b + 1 + |Decimal(c.patch)|
    ensures Parse(s) == Success(VersionRange(Some(Versions.Release(c.major, c.minor, c.patch)), true, Some(Versions.Release(c.major, c.minor, c.patch + 1)), false))
  {
    SpellsAtItem(s, 0, Decimal(c.major), 0);
    VersionRoundTrip.ConsumeNumberOf(s, 0, c.major);
    VersionRoundTrip.ConsumeNumberOf(s, a + 1, c.minor);
    VersionRoundTrip.ConsumeNumberOf(s, b + 1, c.patch);
    PatchGlobBounds(s, c, a, b);
    GlobSteps(s, Versions.Release(c.major, c.minor, c.patch), Versions.Release(c.major, c.minor, c.patch + 1), |s|);
  }

  /** A plain core `M.m.p` reads as `[M.m.p, M.m.(p+1))`, the versions with exactly that core. */
  lemma ParsePatchGlobOf(c: CoreVersions.CoreVersion)
    ensures Parse(CoreVersions.Format(c))
         == Success(VersionRange(Some(Versions.Release(c.major, c.minor, c.patch)), true, Some(Versions.Release(c.major, c.minor, c.patch + 1)), false))
  {
    var s := CoreVersions.Format(c);
    var d1, d2, d3 := Decimal(c.major), Decimal(c.minor), Decimal(c.patch);
    assert s == d1 + "." + d2 + "." + d3;
    SpellsAtSlice(s, 0, s);
    VersionRoundTrip.CoreParts(s, 0, d1, d2, d3);
    PatchGlobAt(s, c, |d1|, |d1| + 1 + |d2|);
  }
}

=== FILE: version_round_trip.dfy ===
/**
  * The version parser and the version formatter are inverse to each other: every valid
  * version parses back from its formatted text, and (for input without `'\0'`) every
  * accepted string is the formatted text of the version it yields.
  *
  * Each "...Of" lemma states that a parser, with the cursor on the formatted text of a
  * value followed by a character that cannot continue it, returns exactly that value
  * and stops exactly after the text.
  */
module VersionRoundTrip {
  import opened Wrappers
  import opened Chars
  import opened JavaLib
  import opened Lookahead
  import opened ParseErrors
  import opened VersionParser
  import CoreVersions
  import PreReleases
  import BuildMetadatas
  import Versions

  /** Over a spelled numeral, the digits read back give its value. */
  lemma NumberValueOf(s: string, pos: nat, n: nat)
    requires SpellsAt(s, pos, Decimal(n))
    ensures forall i :: pos <= i < pos + |Decimal(n)| ==> DigitChar(s[i])
    ensures NumberValue(s, pos, pos + |Decimal(n)|) == n
  {
    var d := Decimal(n);
    assert forall i :: pos <= i < pos + |d| ==> s[i] == d[i - pos];
    NumberValueOfText(s, pos, pos + |d|);
    TextOf(s, pos, d);
    DigitsValueOfDecimal(n);
  }

  /** A numeral not followed by a digit is read back as its value. */
  lemma ConsumeNumberOf(s: string, pos: nat, n: nat)
    requires SpellsAt(s, pos, Decimal(n)) && !IsDigit(ItemAt(s, pos + |Decimal(n)|))
    ensures ConsumeNumber(s, pos) == Success(Parsed(n, pos + |Decimal(n)|))
  {
    var d := Decimal(n);
    NumberValueOf(s, pos, n);
    DigitRunEndIs(s, pos, pos + |d|);
    SpellsAtItem(s, pos, d, 0);
  }

  /** Where the input reads a formatted core, it reads three numerals and two dots. */
  lemma CoreParts(s: string, pos: nat, d1: string, d2: string, d3: string)
    requires SpellsAt(s, pos, d1 + "." + d2 + "." + d3)
    ensures SpellsAt(s, pos, d1) && pos + |d1| < |s| && s[pos + |d1|] == '.'
    ensures var b := pos + |d1| + 1 + |d2|; SpellsAt(s, pos + |d1| + 1, d2) && b < |s| && s[b] == '.'
    ensures SpellsAt(s, pos + |d1| + 1 + |d2| + 1, d3)
  {
    SpellsAtSeparatedParts(s, pos, d1 + "." + d2, '.', d3);
    SpellsAtSeparatedParts(s, pos, d1, '.', d2);
  }

  /** `parseCoreVersion` on three numbers each followed by the next separator. */
  lemma ParseCoreSteps(s: string, pos: nat, c: CoreVersions.CoreVersion, a: nat, b: nat, e: nat)
    requires pos <= |s| && a < |s| && b < |s|
    requires ConsumeNumber(s, pos) == Success(Parsed(c.major, a)) && s[a] == '.'
    requires ConsumeNumber(s, a + 1) == Success(Parsed(c.minor, b)) && s[b] == '.'
    requires ConsumeNumber(s, b + 1) == Success(Parsed(c.patch, e))
    ensures ParseCore(s, pos) == Success(Parsed(c, e))
  {
  }

  /** A formatted core not followed by a digit is read back. */
  lemma ParseCoreOf(s: string, pos: nat, c: CoreVersions.CoreVersion)
    requires SpellsAt(s, pos, CoreVersions.Format(c))
    requires !IsDigit(ItemAt(s, pos + |CoreVersions.Format(c)|))
    ensures ParseCore(s, pos) == Success(Parsed(c, pos + |CoreVersions.Format(c)|))
  {
    var d1, d2, d3 := Decimal(c.major), Decimal(c.minor), Decimal(c.patch);
    var a := pos + |d1|;
    var b := a + 1 + |d2|;
    CoreParts(s, pos, d1, d2, d3);
    ConsumeNumberOf(s, pos, c.major);
    ConsumeNumberOf(s, a + 1, c.minor);
    ConsumeNumberOf(s, b + 1, c.patch);
    ParseCoreSteps(s, pos, c, a, b, b + 1 + |d3|);
  }

  /** A valid identifier followed by a character outside `[0-9A-Za-z-]` is read back. */
  lemma ParseIdentifierOf(s: string, pos: nat, id: PreReleases.Identifier)
    requires PreReleases.ValidIdentifier(id) && SpellsAt(s, pos, PreReleases.FormatIdentifier(id))
    requires !IsAlphaNumeric(ItemAt(s, pos + |PreReleases.FormatIdentifier(id)|))
    ensures ParsePreReleaseIdentifier(s, pos) == Success(Parsed(id, pos + |PreReleases.FormatIdentifier(id)|))
  {
    var f := PreReleases.FormatIdentifier(id);
    var e := pos + |f|;
    assert forall i :: pos <= i < e ==> s[i] == f[i - pos];
    AlphaNumericRunEndIs(s, pos, e);
    TextOf(s, pos, f);
    ParseIdentifierSpec(s, pos);
    var r := ParsePreReleaseIdentifier(s, pos);
    PreReleases.FormatIdentifierInjective(r.value.value, id);
  }

  /** One turn of the `parsePreRelease` loop: an identifier, a dot, and the rest of the list. */
  lemma ParsePreReleaseStep(s: string, pos: nat, first: Parsed<PreReleases.Identifier>, rest: Parsed<PreReleases.PreRelease>)
    requires pos <= |s| && ParsePreReleaseIdentifier(s, pos) == Success(first)
    requires first.next < |s| && s[first.next] == '.'
    requires ParsePreRelease(s, first.next + 1) == Success(rest)
    ensures ParsePreRelease(s, pos)
         == Success(Parsed(PreReleases.PreRelease([first.value] + rest.value.identifiers), rest.next))
  {
  }

  /** The last turn of the `parsePreRelease` loop: an identifier not followed by a dot. */
  lemma ParsePreReleaseLast(s: string, pos: nat, first: Parsed<PreReleases.Identifier>)
    requires pos <= |s| && ParsePreReleaseIdentifier(s, pos) == Success(first)
    requires !Is(ItemAt(s, first.next), '.')
    ensures ParsePreRelease(s, pos) == Success(Parsed(PreReleases.PreRelease([first.value]), first.next))
  {
  }

  /** Where the input reads a joined list of two or more, it reads the first identifier, a dot, and the rest joined. */
  lemma JoinParts(s: string, pos: nat, ids: seq<PreReleases.Identifier>, a: nat, e: nat)
    requires |ids| > 1 && SpellsAt(s, pos, PreReleases.JoinIdentifiers(ids))
    requires a == pos + |PreReleases.FormatIdentifier(ids[0])| && e == pos + |PreReleases.JoinIdentifiers(ids)|
    ensures SpellsAt(s, pos, PreReleases.FormatIdentifier(ids[0])) && a < |s| && s[a] == '.'
    ensures SpellsAt(s, a + 1, PreReleases.JoinIdentifiers(ids[1..]))
    ensures e == a + 1 + |PreReleases.JoinIdentifiers(ids[1..])|
  {
    SpellsAtSeparatedParts(s, pos, PreReleases.FormatIdentifier(ids[0]), '.', PreReleases.JoinIdentifiers(ids[1..]));
  }

  /**
    * The dot-joined text of a valid list, followed by neither `[0-9A-Za-z-]` nor a dot,
    * is read back, up to the end of its text.
    */
  lemma {:induction false} ParseIdentifiersOf(s: string, pos: nat, ids: seq<PreReleases.Identifier>, e: nat)
    requires |ids| > 0 && PreReleases.ValidIdentifiers(ids)
    requires SpellsAt(s, pos, PreReleases.JoinIdentifiers(ids)) && e == pos + |PreReleases.JoinIdentifiers(ids)|
    requires !IsAlphaNumeric(ItemAt(s, e)) && !Is(ItemAt(s, e), '.')
    ensures ParsePreRelease(s, pos) == Success(Parsed(PreReleases.PreRelease(ids), e))
    decreases |ids|
  {
    if |ids| == 1 {
      LastIdentifierOf(s, pos, ids, e);
    } else {
      var a := pos + |PreReleases.FormatIdentifier(ids[0])|;
      assert SpellsAt(s, pos, PreReleases.FormatIdentifier(ids[0])) && a < |s| && s[a] == '.'
             && ParsePreRelease(s, a + 1) == Success(Parsed(PreReleases.PreRelease(ids[1..]), e)) by {
        JoinParts(s, pos, ids, a, e);
        ParseIdentifiersOf(s, a + 1, ids[1..], e);
      }
      NextIdentifierOf(s, pos, ids, a, e);
    }
  }

  /** A single valid identifier, not followed by a dot, is the whole list. */
  lemma LastIdentifierOf(s: string, pos: nat, ids: seq<PreReleases.Identifier>, e: nat)
    requires |ids| == 1 && PreReleases.ValidIdentifiers(ids)
    requires SpellsAt(s, pos, PreReleases.FormatIdentifier(ids[0])) && e == pos + |PreReleases.FormatIdentifier(ids[0])|
    requires !IsAlphaNumeric(ItemAt(s, e)) && !Is(ItemAt(s, e), '.')
    ensures ParsePreRelease(s, pos) == Success(Parsed(PreReleases.PreRelease(ids), e))
  {
    ParseIdentifierOf(s, pos, ids[0]);
    ParsePreReleaseLast(s, pos, Parsed(ids[0], e));
    assert [ids[0]] == ids;
  }

  /** A valid identifier read up to the dot at `a`, followed by the rest of the list read up to `e`. */
  lemma NextIdentifierOf(s: string, pos: nat, ids: seq<PreReleases.Identifier>, a: nat, e: nat)
    requires |ids| > 1 && PreReleases.ValidIdentifiers(ids)
    requires SpellsAt(s, pos, PreReleases.FormatIdentifier(ids[0])) && a == pos + |PreReleases.FormatIdentifier(ids[0])|
    requires a < |s| && s[a] == '.'
    requires ParsePreRelease(s, a + 1) == Success(Parsed(PreReleases.PreRelease(ids[1..]), e))
    ensures ParsePreRelease(s, pos) == Success(Parsed(PreReleases.PreRelease(ids), e))
  {
    ParseIdentifierOf(s, pos, ids[0]);
    ParsePreReleaseStep(s, pos, Parsed(ids[0], pos + |PreReleases.FormatIdentifier(ids[0])|), Parsed(PreReleases.PreRelease(ids[1..]), e));
    assert [ids[0]] + ids[1..] == ids;
  }

  /** The loop of `parseBuildMetadata` runs to the end of a dot-separated run that does not end in a dot. */
  lemma {:induction false} BuildMetadataRunOf(s: string, k: nat, e: nat)
    requires k < e <= |s|
    requires forall i :: k <= i < e ==> AlphaNumericChar(s[i]) || s[i] == '.'
    requires forall i :: k <= i < e - 1 ==> !(s[i] == '.' && s[i + 1] == '.')
    requires s[e - 1] != '.'
    requires !IsAlphaNumeric(ItemAt(s, e)) && !Is(ItemAt(s, e), '.')
    ensures BuildMetadataRun(s, k) == Success(e)
    decreases e - k
  {
    if k + 1 < e {
      BuildMetadataRunOf(s, k + 1, e);
    }
  }

  /** Valid build metadata text, followed by a character that is neither in `[0-9A-Za-z-]` nor a dot, is read back. */
  lemma ParseBuildMetadataOf(s: string, pos: nat, t: string)
    requires BuildMetadatas.ValidText(t) && SpellsAt(s, pos, t)
    requires !IsAlphaNumeric(ItemAt(s, pos + |t|)) && !Is(ItemAt(s, pos + |t|), '.')
    ensures ParseBuildMetadata(s, pos) == Success(Parsed(BuildMetadatas.BuildMetadata(t), pos + |t|))
  {
    var e := pos + |t|;
    assert forall i :: pos <= i < e ==> s[i] == t[i - pos];
    forall i | pos <= i < e - 1
      ensures !(s[i] == '.' && s[i + 1] == '.')
    {
      assert s[i] == t[i - pos] && s[i + 1] == t[i - pos + 1];
    }
    BuildMetadataRunOf(s, pos, e);
    TextOf(s, pos, t);
  }

  /** A formatted valid pre-release, followed by neither `[0-9A-Za-z-]` nor a dot, is read back. */
  lemma ParsePreReleasePartOf(s: string, pos: nat, p: PreReleases.PreRelease)
    requires PreReleases.Valid(p) && SpellsAt(s, pos, PreReleases.Format(p))
    requires var e := pos + |PreReleases.Format(p)|; !IsAlphaNumeric(ItemAt(s, e)) && !Is(ItemAt(s, e), '.')
    ensures ParsePreReleasePart(s, pos) == Success(Parsed(p, pos + |PreReleases.Format(p)|))
  {
    if |p.identifiers| > 0 {
      SpellsAtConsParts(s, pos, '-', PreReleases.JoinIdentifiers(p.identifiers));
      ParseIdentifiersOf(s, pos + 1, p.identifiers, pos + |PreReleases.Format(p)|);
    }
  }

  /** Formatted valid build metadata, followed by the end of input, is read back. */
  lemma ParseBuildMetadataPartOf(s: string, pos: nat, b: BuildMetadatas.BuildMetadata)
    requires BuildMetadatas.Valid(b) && SpellsAt(s, pos, BuildMetadatas.Format(b))
    requires IsEndOfInput(ItemAt(s, pos + |BuildMetadatas.Format(b)|))
    ensures ParseBuildMetadataPart(s, pos) == Success(Parsed(b, pos + |BuildMetadatas.Format(b)|))
  {
    if |b.text| > 0 {
      SpellsAtConsParts(s, pos, '+', b.text);
      ParseBuildMetadataOf(s, pos + 1, b.text);
    }
  }

  /** `parse` on a core, an optional pre-release and optional build metadata, followed by the end of input. */
  lemma ParseSteps(s: string, v: Versions.Version, a: nat, b: nat, e: nat)
    requires a <= b <= e <= |s|
    requires ParseCore(s, 0) == Success(Parsed(v.core, a))
    requires ParsePreReleasePart(s, a) == Success(Parsed(v.preRelease, b))
    requires ParseBuildMetadataPart(s, b) == Success(Parsed(v.buildMetadata, e))
    requires IsEndOfInput(ItemAt(s, e))
    ensures Parse(s) == Success(v)
  {
  }

  /** Where the input reads the three formatted parts joined, it reads each of them in turn. */
  lemma VersionParts(s: string, c: string, p: string, b: string)
    requires SpellsAt(s, 0, c + p + b)
    ensures SpellsAt(s, 0, c) && SpellsAt(s, |c|, p) && SpellsAt(s, |c| + |p|, b)
  {
    SpellsAtSplit(s, 0, c + p, b);
    SpellsAtSplit(s, 0, c, p);
  }

  /**
    * After a formatted pre-release `p` read from `a` up to `b` comes a `+` or the end of
    * input, and at `a` there is a `-`, a `+` or the end of input.
    */
  lemma PartBoundaries(s: string, a: nat, b: nat, e: nat, p: string, bm: string)
    requires b == a + |p| && e == b + |bm|
    requires SpellsAt(s, a, p) && SpellsAt(s, b, bm)
    requires |p| > 0 ==> p[0] == '-'
    requires |bm| > 0 ==> bm[0] == '+'
    requires IsEndOfInput(ItemAt(s, e))
    ensures !IsAlphaNumeric(ItemAt(s, b)) && !Is(ItemAt(s, b), '.')
    ensures !IsDigit(ItemAt(s, a))
  {
    if |p| > 0 {
      SpellsAtItem(s, a, p, 0);
    }
    if |bm| > 0 {
      SpellsAtItem(s, b, bm, 0);
    }
  }

  /** `ParsePreReleasePartOf`, with the end of the part named `e`. */
  lemma PreReleasePartTo(s: string, pos: nat, p: PreReleases.PreRelease, e: nat)
    requires PreReleases.Valid(p) && SpellsAt(s, pos, PreReleases.Format(p)) && e == pos + |PreReleases.Format(p)|
    requires !IsAlphaNumeric(ItemAt(s, e)) && !Is(ItemAt(s, e), '.')
    ensures ParsePreReleasePart(s, pos) == Success(Parsed(p, e))
  {
    ParsePreReleasePartOf(s, pos, p);
  }

  /** `ParseBuildMetadataPartOf`, with the end of the part named `e`. */
  lemma BuildMetadataPartTo(s: string, pos: nat, b: BuildMetadatas.BuildMetadata, e: nat)
    requires BuildMetadatas.Valid(b) && SpellsAt(s, pos, BuildMetadatas.Format(b)) && e == pos + |BuildMetadatas.Format(b)|
    requires IsEndOfInput(ItemAt(s, e))
    ensures ParseBuildMetadataPart(s, pos) == Success(Parsed(b, e))
  {
    ParseBuildMetadataPartOf(s, pos, b);
  }

  /**
    * After a core read up to `a`, the formatted pre-release (up to `b`) and build
    * metadata (up to `e`), followed by the end of input, are read back.
    */
  lemma ParseRestOf(s: string, v: Versions.Version, a: nat, b: nat, e: nat)
    requires e <= |s| && ParseCore(s, 0) == Success(Parsed(v.core, a))
    requires b == a + |PreReleases.Format(v.preRelease)| && e == b + |BuildMetadatas.Format(v.buildMetadata)|
    requires PreReleases.Valid(v.preRelease) && BuildMetadatas.Valid(v.buildMetadata)
    requires SpellsAt(s, a, PreReleases.Format(v.preRelease)) && SpellsAt(s, b, BuildMetadatas.Format(v.buildMetadata))
    requires !IsAlphaNumeric(ItemAt(s, b)) && !Is(ItemAt(s, b), '.') && IsEndOfInput(ItemAt(s, e))
    ensures Parse(s) == Success(v)
  {
    PreReleasePartTo(s, a, v.preRelease, b);
    BuildMetadataPartTo(s, b, v.buildMetadata, e);
    ParseSteps(s, v, a, b, e);
  }

  /**
    * The three formatted parts of a valid version, read from the start up to `a`, `b`
    * and `e` and followed by the end of input, are read back.
    */
  lemma ParsePartsOf(s: string, v: Versions.Version, a: nat, b: nat, e: nat)
    requires Versions.Valid(v)
    requires a == |CoreVersions.Format(v.core)|
    requires b == a + |PreReleases.Format(v.preRelease)| && e == b + |BuildMetadatas.Format(v.buildMetadata)|
    requires SpellsAt(s, 0, CoreVersions.Format(v.core)) && SpellsAt(s, a, PreReleases.Format(v.preRelease))
    requires SpellsAt(s, b, BuildMetadatas.Format(v.buildMetadata)) && IsEndOfInput(ItemAt(s, e))
    ensures Parse(s) == Success(v)
  {
    BuildMetadatas.FormatSpec(v.buildMetadata);
    PartBoundaries(s, a, b, e, PreReleases.Format(v.preRelease), BuildMetadatas.Format(v.buildMetadata));
    ParseCoreOf(s, 0, v.core);
    ParseRestOf(s, v, a, b, e);
  }

  /** A formatted valid version, followed by the end of input, is read back. */
  lemma ParseOf(s: string, v: Versions.Version)
    requires Versions.Valid(v) && SpellsAt(s, 0, Versions.Format(v))
    requires IsEndOfInput(ItemAt(s, |Versions.Format(v)|))
    ensures Parse(s) == Success(v)
  {
    var c, p, b := CoreVersions.Format(v.core), PreReleases.Format(v.preRelease), BuildMetadatas.Format(v.buildMetadata);
    VersionParts(s, c, p, b);
    ParsePartsOf(s, v, |c|, |c| + |p|, |c| + |p| + |b|);
  }

  /** Round trip: every valid version is parsed back from its formatted text. */
  lemma ParseFormatted(v: Versions.Version)
    requires Versions.Valid(v)
    ensures Parse(Versions.Format(v)) == Success(v)
  {
    var s := Versions.Format(v);
    SpellsAtSlice(s, 0, s);
    ParseOf(s, v);
  }

  /** `ParseFormatted`, for text known to be the formatted version. */
  lemma ParseFormattedAs(v: Versions.Version, f: string)
    requires Versions.Valid(v) && f == Versions.Format(v)
    ensures Parse(f) == Success(v)
  {
    ParseFormatted(v);
  }

  /**
    * `parse` yields `v` exactly when `v` is valid and its formatted text is the input up
    * to the end, or up to a `'\0'`.
    */
  lemma ParseCharacterized(s: string, v: Versions.Version)
    ensures Parse(s) == Success(v)
        <==> var f := Versions.Format(v);
             Versions.Valid(v) && |f| <= |s| && s[..|f|] == f && IsEndOfInput(ItemAt(s, |f|))
  {
    var f := Versions.Format(v);
    SpellsAtSlice(s, 0, f);
    if Parse(s) == Success(v) {
      ParseSound(s);
    }
    if Versions.Valid(v) && |f| <= |s| && s[..|f|] == f && IsEndOfInput(ItemAt(s, |f|)) {
      ParseOf(s, v);
    }
  }

  /** On input without `'\0'`, whatever `parse` accepts is exactly the formatted text of its result. */
  lemma ParsedIsFormatted(s: string)
    requires EndOfInputValue !in s && Parse(s).Success?
    ensures Versions.Format(Parse(s).value) == s
  {
    ParseSound(s);
    assert forall i :: 0 <= i < |s| ==> s[i] != EndOfInputValue;
  }

  /** Distinct core versions are formatted differently. */
  lemma CoreFormatInjective(a: CoreVersions.CoreVersion, b: CoreVersions.CoreVersion)
    requires CoreVersions.Format(a) == CoreVersions.Format(b)
    ensures a == b
  {
    var s := CoreVersions.Format(a);
    SpellsAtSlice(s, 0, s);
    ParseCoreOf(s, 0, a);
    ParseCoreOf(s, 0, b);
  }

  /** Distinct valid pre-releases are formatted differently. */
  lemma PreReleaseFormatInjective(p: PreReleases.PreRelease, q: PreReleases.PreRelease)
    requires PreReleases.Valid(p) && PreReleases.Valid(q) && PreReleases.Format(p) == PreReleases.Format(q)
    ensures p == q
  {
    var s := PreReleases.Format(p);
    SpellsAtSlice(s, 0, s);
    ParsePreReleasePartOf(s, 0, p);
    ParsePreReleasePartOf(s, 0, q);
  }

  /** Distinct valid versions are formatted differently. */
  lemma FormatInjective(a: Versions.Version, b: Versions.Version)
    requires Versions.Valid(a) && Versions.Valid(b) && Versions.Format(a) == Versions.Format(b)
    ensures a == b
  {
    ParseFormatted(a);
    ParseFormatted(b);
  }
}

=== FILE: wrappers.dfy ===
/** Option and Result: the null-or-value and value-or-exception shapes of the Java code. */
module Wrappers {

  /** A possibly absent value (a Java reference that may be `null`). */
  datatype Option<+T> = None | Some(value: T)

  /** Either a value or the error a Java method would have thrown. */
  datatype Result<+T, +E> = Success(value: T) | Failure(error: E) {

    predicate IsFailure() {
      Failure?
    }

    function PropagateFailure<U>(): Result<U, E>
      requires Failure?
    {
      Failure(error)
    }

    function Extract(): T
      requires Success?
    {
      value
    }
  }
}
